=== FILE: README.md ===
# Drupal-to-WXR exporter, modelled in Dafny

This project models the core of a tool that exports a Drupal site as a
WordPress eXtended RSS (WXR) file, and it proves properties of that model.
The model covers five parts of the tool:

- **XmlEscape** (`xml_escape.dfy`). This is the five-entity escape of
  section 4.6 of the XML 1.0 recommendation: `&`, `<`, `>`, `'` and `"`,
  with the ampersand replaced first.
- **WxrWriter** (`wxr_writer.dfy`). This is the WXR stream writer.
  - Its state is a value `Writer(out, indent)`, and every writer call is a
    pure function from one state to the next.
  - The calls also exist as an `Op` datatype, so a sequence of calls can be
    run with `Run` and its net indentation measured with `NetDepth`.
- **ReaderUrls** and **ReaderComments** (`reader_urls.dfy`,
  `reader_comments.dfy`). These model the reader:
  - canonical node paths and URL aliases;
  - the internal/external decision and the ordered classification of
    internal links;
  - how the flat comment table is rebuilt into a forest of replies;
  - the suppression of titles Drupal generated from the body;
  - the Disqus comments appended after the native ones;
  - the content of a node's latest revision.
- **Converter** (`converter.dfy`). This models the steps that turn decoded
  nodes into WXR items:
  - the post and comment id counters;
  - pre-order emission of comment threads;
  - the comment subject injected into the body;
  - removal of `<p>` tags;
  - `clean_url`, link verification and the node-id link rewrite;
  - the post name;
  - the attachment items that follow each node;
  - the node loop, which stops at the first exception that escapes a node.
- **ConversionLogger** (`conversion_logger.dfy`). This models:
  - the severity filter;
  - the per-node message counters;
  - routing to standard output, the node log or the index log;
  - the summary level written when a node log closes;
  - which exceptions a node conversion swallows and which it re-raises.

`common.dfy` holds the shared vocabulary, in the way Ruby uses it: `Option`,
the exception classes, decimal text of integers, and character and pattern
replacement. The pattern replacement includes `gsub!`, which returns nil
when nothing matched.

Library calls are parameters and are not modelled:

- URI parsing, merging, normalising, routing and joining, and CGI
  unescaping, are a record of functions (`ReaderUrls.UriLib`). Only the
  order of the decisions made on their results is modelled.
- The textile and markdown converters are function fields of
  `ReaderComments.Formats`.
- Time formatting and `File.basename` are function fields of
  `Converter.Env`.

Ruby's `<<` of a non-string writes its `to_s`. This is modelled by
`XmlEscape.Value` (`Str`, `Int` or `Nil`), and nil writes nothing.

Several behaviours of the code are modelled as written and proved as
such:

- The link rewrite `sub(/node\/(\d)+$/, '\1')` captures only the last digit
  of the node id. A link to `node/123` therefore becomes `3`, not the post
  name `node-123` (`Converter.RewriteKeepsLastDigit`,
  `Converter.LinkRewriteMissesPostName`).
- A reply's `comment_parent` is its parent's Drupal id, not the WordPress
  id that was allocated to the parent (`Converter.ReplyParentIsSourceId`,
  `Converter.ReplyParentExample`).
- A Disqus message without a blank line decodes to nil, because the decoder
  returns the result of `gsub!` (`ReaderComments.DisqusNilIff`).
- Removing paragraph tags is not idempotent (`Converter.StripNotIdempotent`).
- A message at an unknown level is counted before the logger raises
  ArgumentError, and no complete entry is written for it
  (`ConversionLogger.UnknownLevelCountedThenRaised`).
- An exception outside StandardError leaves the node log open
  (`ConversionLogger.NodeConversionOutcome`).
- A cycle in the comment parent relation that can be reached from the
  top-level comments (parent 0) makes the reader recurse until the stack
  overflows (`ReaderComments.RootCycleDiverges`). A cycle that cannot be
  reached from there is never visited, and its comments are dropped
  (`ReaderComments.UnrootedCommentsAbsent`).

## Model

| member | source | states |
|---|---|---|
| `XmlEscape.Escape` | xml_escape.rb:3-14 | the escape equals the character-by-character reference in which each of the five special characters becomes its entity and every other character stays |
| `XmlEscape.EscapeValue` | xml_escape.rb:4-13 | a non-string argument comes back unchanged; a string comes back escaped |
| `XmlEscape.EscapeIsCharwise` | xml_escape.rb:6-10 | the five successive replacement passes, ampersand first, equal the single character-by-character replacement, so no entity produced by a later pass is escaped again |
| `XmlEscape.PassesConcat` | xml_escape.rb:6-10 | the five passes distribute over concatenation |
| `XmlEscape.EscapeRemovesMarkup` | xml_escape.rb:7-10 | the output contains no `<`, `>`, `'` or `"` |
| `XmlEscape.EscapeAmpersandsStartEntities` | xml_escape.rb:6-10 | every `&` in the output begins one of the five entities |
| `XmlEscape.EscapeLength` | xml_escape.rb:6-10 | the output length is the input length plus 4 per `&`, 3 per `<` and `>`, and 5 per `'` and `"` |
| `XmlEscape.UnescapeEscape` | xml_escape.rb:6-10 | decoding the five entities recovers the input exactly |
| `XmlEscape.EscapeInjective` | xml_escape.rb:6-10 | two inputs with the same escape are equal |
| `XmlEscape.EscapePlainText` | xml_escape.rb:5-13 | text without special characters is returned as it is |
| `XmlEscape.EscapeValueText` | xml_escape.rb:4-13 | writing an escaped value gives the same text as escaping the written value, for strings, integers and nil |
| `XmlEscape.AmpersandOrderMatters` | xml_escape.rb:6-7 | with the ampersand pass first `<` becomes `&lt;`; with it last it would become `&amp;lt;` |
| `WxrWriter.NewWriter` | wxr_writer.rb:6-9 | a new writer has empty output and indent level 0 |
| `WxrWriter.StartFile` | wxr_writer.rb:11-16 | the XML declaration and the header are appended, and the indent level becomes 2 |
| `WxrWriter.EndFile` | wxr_writer.rb:18-21 | the footer is appended, and the indent level becomes 0 |
| `WxrWriter.DocumentShape` | wxr_writer.rb:11-21 | a file whose body closes what it opens begins with the XML declaration and the header, ends with the footer, and ends at level 0; the body is written at level 2 |
| `WxrWriter.WriteFile` | wxr_writer.rb:11-21 | a file always begins with the XML declaration and the header; a finished file ends with the footer at level 0, and an unfinished one is left at level 2, inside the channel; between the header and the footer (if any) stands exactly what the body calls write from level 2 |
| `WxrWriter.Prefix` | wxr_writer.rb:23-113 | only the RSS wrappers write without a namespace prefix |
| `WxrWriter.PrefixesDistinct` | wxr_writer.rb:23-113 | different wrapper families write different namespace prefixes |
| `WxrWriter.IndentText` | wxr_writer.rb:245-249 | the indentation is 4 characters per level, and none for a zero or negative level |
| `WxrWriter.IndentIsSpaces` | wxr_writer.rb:245-249 | the indentation consists of spaces only |
| `WxrWriter.WriteElement` | wxr_writer.rb:115-121 | a leaf element keeps the indent level and only appends to the output |
| `WxrWriter.WriteElementNoNewline` | wxr_writer.rb:123-141 | the unindented leaf keeps the indent level and only appends |
| `WxrWriter.WriteCdataElement` | wxr_writer.rb:143-156 | a CDATA element keeps the indent level and only appends |
| `WxrWriter.WriteCdataElementNoNewline` | wxr_writer.rb:158-184 | the unindented CDATA element keeps the indent level and only appends |
| `WxrWriter.WriteTextValue` | wxr_writer.rb:186-190 | a text line keeps the indent level and only appends |
| `WxrWriter.WriteCdataValue` | wxr_writer.rb:192-195 | a CDATA line keeps the indent level and only appends |
| `WxrWriter.WriteXmlValue` | wxr_writer.rb:197-200 | a raw XML line keeps the indent level and only appends |
| `WxrWriter.StartElementNoNewline` | wxr_writer.rb:210-224 | the open tag without newline keeps the indent level and only appends |
| `WxrWriter.StartElement` | wxr_writer.rb:202-208 | opening an element raises the indent level by one and only appends |
| `WxrWriter.EndElement` | wxr_writer.rb:226-232 | closing an element lowers the indent level by one and only appends |
| `WxrWriter.EndElementNoNewline` | wxr_writer.rb:234-243 | despite its name, the close tag ends with a newline |
| `WxrWriter.StartElementOut` | wxr_writer.rb:202-224 | the open tag goes on its own line, indented at the level before the call |
| `WxrWriter.EndElementOut` | wxr_writer.rb:226-243 | the close tag goes on its own line, indented at the level after the decrement |
| `WxrWriter.RunEffect` | wxr_writer.rb:115-243 | a sequence of writer calls moves the indent level by its net depth and only appends to the output |
| `WxrWriter.MatchingTagsShareIndent` | wxr_writer.rb:202-232 | around a balanced body, the close tag is written with the same indentation as its open tag |
| `WxrWriter.MatchingTagsRestoreLevel` | wxr_writer.rb:202-232 | an element with a balanced body leaves the indent level where it was |
| `WxrWriter.LeafLine` | wxr_writer.rb:115-141 | a leaf element appends the indentation, the open tag with its attributes, the escaped value, the close tag and a newline, in that order |
| `WxrWriter.LeafText` | wxr_writer.rb:123-141 | the unindented leaf appends only the open tag, the escaped value and the close tag |
| `WxrWriter.LeafReadsBack` | wxr_writer.rb:115-141 | cutting the expected tags from the appended line and decoding the rest gives back the written value |
| `WxrWriter.CdataLine` | wxr_writer.rb:143-184 | a CDATA element appends the indented open tag, the value verbatim inside the CDATA markers, the close tag and a newline |
| `WxrWriter.CdataLeafText` | wxr_writer.rb:158-184 | the unindented CDATA element appends the open tag, the CDATA-wrapped value and the close tag |
| `WxrWriter.CdataImportsVerbatim` | wxr_writer.rb:158-184 | the CDATA marker starts right after the open tag's `>`, so an importer that cuts the text between the tags and strips a leading CDATA marker gets the value back |
| `WxrWriter.IndentedCdataNotImported` | wxr_writer.rb:144-150 | a CDATA section preceded by any non-empty run of whitespace is not unwrapped by such an importer |
| `WxrWriter.AttrsWithoutNewline` | wxr_writer.rb:129-133 | attributes whose names and values have no newline are written without one |
| `WxrWriter.TagsWithoutNewline` | wxr_writer.rb:123-141 | open and close tags built from newline-free parts contain no newline |
| `WxrWriter.NoNewlineWritersAddNoNewline` | wxr_writer.rb:123-224 | given newline-free names, attributes and values, the nonewline start writer (which indents), the unindented leaf writer and the unindented CDATA writer add no newline of their own |
| `ReaderUrls.CanonicalNodePath` | drupal_reader.rb:285-287 | no contract of its own: the path `node/<id>`, from which the node id reads back (see `NodePathRoundTrip`, `UnaliasedNodeKeepsId`) |
| `ReaderUrls.AliasPath` | drupal_reader.rb:291-293 | a path with a registered alias becomes that alias; any other path is kept |
| `ReaderUrls.NodePathRoundTrip` | drupal_reader.rb:285-287 | the node id read from a canonical path `node/<id>` is that id |
| `ReaderUrls.UnaliasedNodeKeepsId` | drupal_reader.rb:285-293 | a node without an alias keeps its canonical path, and the id can be read back from it |
| `ReaderUrls.LeadingDigits` | drupal_reader.rb:166-167 | the captured digits are the longest run of digits at the start |
| `ReaderUrls.FindNodeIdLeftmost` | drupal_reader.rb:166-167 | an id is found exactly when `node/` and a digit occur somewhere in the path, and it is read from the leftmost such occurrence |
| `ReaderUrls.UrlRelativeToBase` | drupal_reader.rb:215-238 | the canonical URL is routed from the base exactly when scheme, user info, host, port and registry all match and the base path starts its path; otherwise it is returned as it is; parse failures propagate |
| `ReaderUrls.IsInternalUrl` | drupal_reader.rb:130-142 | a URL is internal exactly when its route from the base is relative |
| `ReaderUrls.AnyMismatchIsExternal` | drupal_reader.rb:226-237 | an absolute URL that differs from the base in any one component, or lies outside the base path, is external |
| `ReaderUrls.NodeMarkerDecides` | drupal_reader.rb:165-183 | a path containing `node/<digits>` is decided by the node table alone, and an existing node is marked aliased exactly when its path has an alias |
| `ReaderUrls.Classify` | drupal_reader.rb:155-201 | no contract of its own: the ordered decision — external, node id (present or missing), alias source, file, site root, nothing — is stated by `ClassifySound` and `NodeMarkerDecides`, and its effect on the returned URL by `InternalObjectUrl` |
| `ReaderUrls.ClassifySound` | drupal_reader.rb:155-201 | each classification holds only when the earlier ones failed and its own table contains the path: a node id (existing or not) only when a `node/<digits>` marker occurs in the path, then alias sources, then attachments, then the empty URL of the site root; foreign URLs, and only they, are external |
| `ReaderUrls.InternalObjectUrl` | drupal_reader.rb:155-201 | a link resolves to an object only when it names an existing node, an alias source, an attachment or the site root; an aliased node resolves to its alias on the base URL, an unaliased node, alias source or attachment to its own path on the base URL, the site root to the base URL itself, and anything else to nothing; a failing URL parse propagates |
| `ReaderUrls.AliasedNodeResolvesToAlias` | drupal_reader.rb:172-175 | a link to an existing node that has an alias resolves to the alias, not to the node path |
| `ReaderComments.DecodeContentFormat` | drupal_reader.rb:418-428 | textile formats are converted first, then markdown formats, and any other format is returned verbatim |
| `ReaderComments.CommentContent` | drupal_reader.rb:347-352 | a failing content converter is caught and the raw body used instead; only exceptions outside StandardError escape |
| `ReaderComments.StripTags` | drupal_reader.rb:358 | no contract of its own: the tag-stripping gsub; see `StripTagsLeavesNoTag`, `StripTagsPlain` and `TitleSuppressionIff` |
| `ReaderComments.StripTagsLeavesNoTag` | drupal_reader.rb:358 | no `<` followed later by a `>` survives tag stripping |
| `ReaderComments.StripTagsPlain` | drupal_reader.rb:358 | text without `<` is unchanged by tag stripping |
| `ReaderComments.TitleSuppressionIff` | drupal_reader.rb:354-360 | the title is dropped exactly when the content is non-nil, at least as long as the title, and its stripped text starts with the title; an empty title is dropped only when the stripped text is empty |
| `ReaderComments.BuildComment` | drupal_reader.rb:340-371 | a comment keeps its id, its content and its replies; its title is dropped exactly when suppressed; it is published exactly when its status is 0 |
| `ReaderComments.ChildRows` | drupal_reader.rb:340-341 | only rows of the table whose parent is the given one are selected |
| `ReaderComments.CommentsForParent` | drupal_reader.rb:337-376 | no contract of its own: the replies of a parent, each with its own replies, raising when the stack runs out; see `ChildrenSelect`, `ForestThreaded`, `UnrootedCommentsAbsent`, the two termination lemmas and the three divergence lemmas |
| `ReaderComments.ChildrenSelect` | drupal_reader.rb:337-376 | the comments returned for a parent correspond one to one, in table order, to the rows with that parent |
| `ReaderComments.ForestThreaded` | drupal_reader.rb:337-376 | every comment in the rebuilt forest has a row whose parent is the comment above it, and its replies are the comments rebuilt for its own id |
| `ReaderComments.UnrootedCommentsAbsent` | drupal_reader.rb:321-376 | comments whose parent chain never reaches 0 do not appear in the forest |
| `ReaderComments.RankedRowsTerminate` | drupal_reader.rb:337-376 | when some rank strictly decreases from each parent to its child, rebuilding succeeds with enough recursion depth |
| `ReaderComments.ParentsBeforeRepliesTerminate` | drupal_reader.rb:337-376 | when every parent id is smaller than its child's id, rebuilding from the roots succeeds within the largest id plus one levels |
| `ReaderComments.ChildrenRaisedIf` | drupal_reader.rb:340-373 | an exception while rebuilding one child's replies escapes from the whole parent |
| `ReaderComments.SelfParentDiverges` | drupal_reader.rb:341-369 | a comment that is its own parent makes the recursion run out of stack at any depth |
| `ReaderComments.LassoDiverges` | drupal_reader.rb:341-369 | along a chain of comments that runs into a cycle, every comment's replies are read without end, at any stack depth |
| `ReaderComments.RootCycleDiverges` | drupal_reader.rb:341-369 | a cycle reachable from the top-level comments makes reading a node's comments run out of stack at any depth |
| `ReaderComments.DecodeDisqusComment` | drupal_reader.rb:412-416 | no contract of its own: see `DisqusNilIff` (None exactly when the unescaped message has no blank line) and `SingleParagraphDisqusIsNil` |
| `ReaderComments.DisqusNilIff` | drupal_reader.rb:412-416 | a Disqus message decodes to nil exactly when its unescaped text has no blank line |
| `ReaderComments.SingleParagraphDisqusIsNil` | drupal_reader.rb:412-416 | a one-line message decodes to nil |
| `ReaderComments.DisqusComment` | drupal_reader.rb:451-470 | a Disqus comment has id -1, the fixed subject, no replies and is published; its content is nil exactly when the message has no blank line |
| `ReaderComments.DisqusCommentsAre` | drupal_reader.rb:451-474 | every comment built from an article is a Disqus comment |
| `ReaderComments.LoadDisqusComments` | drupal_reader.rb:441-480 | no contract of its own: see `LoadedAreDisqus` (every loaded comment is a Disqus comment) and `LastArticleWins` (a later article with the same URL replaces an earlier one) |
| `ReaderComments.LoadedAreDisqus` | drupal_reader.rb:441-480 | every comment in the loaded map is a Disqus comment |
| `ReaderComments.LastArticleWins` | drupal_reader.rb:448-476 | an article URL maps to the comments of the last article with that URL |
| `ReaderComments.NodeComments` | drupal_reader.rb:321-335 | no contract of its own: see `NodeCommentsNoExport` (with no Disqus export, exactly the native root comments) and `NodeCommentsOrder` (with an export, the native root comments, then exactly the Disqus comments loaded for the node's article URL) |
| `ReaderComments.NodeCommentsNoExport` | drupal_reader.rb:321-379 | with no Disqus export configured, a node's comments are exactly its native root comments, and an exception while rebuilding them escapes unchanged |
| `ReaderComments.NodeCommentsOrder` | drupal_reader.rb:321-335 | a node's comments are its native forest, unchanged, followed by exactly the Disqus export's thread for the node's article URL, or by nothing when the export has no thread for it; all of those are Disqus comments |
| `ReaderComments.LatestRevision` | drupal_reader.rb:300-310 | there is no revision exactly when the node has none, and otherwise it is the last revision |
| `ReaderComments.NodeContent` | drupal_reader.rb:300-310 | no contract of its own: see `NodeContentDropsFirstBreak` (for a verbatim format, the latest revision's body with only its first break marker removed) |
| `ReaderComments.NodeContentDropsFirstBreak` | drupal_reader.rb:300-310 | for a verbatim format the content is the latest body with its first break marker removed, or the body itself when it has none |
| `Common.GsubBang` | drupal_reader.rb:415 | `gsub!` returns nil exactly when the pattern does not occur |
| `Converter.NextPostId` | drupal_to_wxr_converter.rb:271-274 | the next post id exceeds every earlier one and leaves the comment counter alone |
| `Converter.NextCommentId` | drupal_to_wxr_converter.rb:276-279 | the next comment id exceeds every earlier one and leaves the post counter alone |
| `Converter.StripParagraphTags` | drupal_to_wxr_converter.rb:287 | no contract of its own: see `StripIsTextsOfCut` (every string loses exactly its paragraph tags, cut left to right) and the lemmas below it |
| `Converter.PostprocessContent` | drupal_to_wxr_converter.rb:281-288 | nil content stays nil; text becomes the texts between its paragraph tags, joined |
| `Converter.StripKeepsTextsBetweenTags` | drupal_to_wxr_converter.rb:287 | text cut into tag-free pieces separated by `<p>`, `<P>`, `</p>` or `</P>` comes out as the pieces joined |
| `Converter.Cut` | drupal_to_wxr_converter.rb:287 | every text can be cut into tag-free pieces separated by paragraph tags |
| `Converter.StripIsTextsOfCut` | drupal_to_wxr_converter.rb:287 | for every text, the removal yields the pieces of its cut, joined |
| `Converter.StripTagFree` | drupal_to_wxr_converter.rb:287 | text in which no paragraph tag starts is kept as it is up to a following `<` |
| `Converter.StripParagraphTagsPlain` | drupal_to_wxr_converter.rb:287 | text without `<` is kept as it is |
| `Converter.StripParagraphTagsVerbatim` | drupal_to_wxr_converter.rb:287 | text before the first `<` is kept verbatim |
| `Converter.StripWrappedParagraph` | drupal_to_wxr_converter.rb:287 | a paragraph in `<p>` or `<P>` tags loses both tags and keeps its text |
| `Converter.StripNotIdempotent` | drupal_to_wxr_converter.rb:287 | the removal does not rescan the text it joins, so a second pass can remove more |
| `Converter.InjectSubject` | drupal_to_wxr_converter.rb:172-177 | no contract of its own: see `SubjectReadsBack` (the subject and the original body read back from the content) and `InjectedSubjectSurvivesPostprocessing` |
| `Converter.SubjectReadsBack` | drupal_to_wxr_converter.rb:172-176 | the injected subject and the original body can be read back from the comment content |
| `Converter.InjectedSubjectSurvivesPostprocessing` | drupal_to_wxr_converter.rb:172-177 | the bold subject and the blank line survive paragraph-tag removal |
| `Converter.BoldTagKept` | drupal_to_wxr_converter.rb:175-177 | the `<strong>` tags around the subject are not taken for paragraph tags |
| `Converter.EmitComments` | drupal_to_wxr_converter.rb:160-186 | no contract of its own: see `EmitIsNumberedPreOrder` (the comments in pre-order, numbered consecutively from `last + 1`) and `ReplyParentIsSourceId` |
| `Converter.EmitIsNumberedPreOrder` | drupal_to_wxr_converter.rb:160-186 | comments are emitted in pre-order, and their WordPress ids are consecutive from the counter along that order |
| `Converter.ReplyParentIsSourceId` | drupal_to_wxr_converter.rb:160-186 | every emitted comment is a top-level comment with comment_parent 0, or a reply whose comment_parent is the Drupal id of an earlier emitted comment whose replies contain it |
| `Converter.PreOrderParents` | drupal_to_wxr_converter.rb:160-186 | in thread order, every comment is at the top level or answers a comment that precedes it |
| `Converter.ReplyParentExample` | drupal_to_wxr_converter.rb:180-184 | a reply to Drupal comment 7 names 7 as its parent although comment 7 was written as WordPress comment 1 |
| `Converter.DrupalCommentIdIff` | drupal_to_wxr_converter.rb:162-164 | the drupal_comment_id element is written exactly for comments that are not from Disqus, and it holds the comment's id |
| `Converter.CommentOpsCarryIds` | drupal_to_wxr_converter.rb:161-181 | a comment element holds its allocated comment_id and its comment_parent, and is balanced |
| `Converter.ForestBalanced` | drupal_to_wxr_converter.rb:160-186 | the emitted comments leave the indent level unchanged |
| `Converter.CleanUrl` | drupal_to_wxr_converter.rb:267-269 | every space becomes `+`, and every other character is kept in place |
| `Converter.RewriteKeepsLastDigit` | drupal_to_wxr_converter.rb:249-250 | a path ending in `node/<id>` is rewritten to the text before it followed by the last digit of the id only |
| `Converter.LinkRewriteMissesPostName` | drupal_to_wxr_converter.rb:247-250 | a link to `node/123` becomes `3`, while the post it means is named `node-123` |
| `Converter.CanonicalName` | drupal_to_wxr_converter.rb:99-104 | the slash of a canonical path becomes a hyphen, giving `node-<id>` |
| `Converter.PostName` | drupal_to_wxr_converter.rb:102-104 | an aliased node keeps its alias as the post name, and an unaliased one has no slash left in it |
| `Converter.UnaliasedPostName` | drupal_to_wxr_converter.rb:102-104 | an unaliased node's post name is `node-<id>` |
| `Converter.VerifyNodeLink` | drupal_to_wxr_converter.rb:233-265 | an external link is kept as cleaned; an invalid URL, or an internal link to nothing, is kept as cleaned with its warning; an InvalidURIError never escapes |
| `Converter.Collect` | drupal_to_wxr_converter.rb:222-228 | a loop over steps with given outcomes yields every step's value in order when none raised, raises exactly when some step raised, and then raises the exception of the first step that raised |
| `Converter.VerifyNodeLinks` | drupal_to_wxr_converter.rb:218-231 | with no exception every link gets its own check's result, in order; the whole check raises exactly when some link's check raises, and then with the exception of the first such link |
| `Converter.NodePostFields` | drupal_to_wxr_converter.rb:127-139 | the item carries the post id and the post name in their places |
| `Converter.NodeItemFacts` | drupal_to_wxr_converter.rb:112-150 | the node's item contains its post_id and post_name elements |
| `Converter.NodeItemHasField` | drupal_to_wxr_converter.rb:112-150 | every field of the node is written inside its item |
| `Converter.NodeItemOps` | drupal_to_wxr_converter.rb:112-150 | the node's item is balanced |
| `Converter.AttachmentItemFacts` | drupal_to_wxr_converter.rb:188-216 | an attachment's item holds its own post_id and, as post_parent, its node's post id |
| `Converter.TakePostIdsConsecutive` | drupal_to_wxr_converter.rb:152-155 | a node's attachments take consecutive post ids after the counter |
| `Converter.AllocateNodeIds` | drupal_to_wxr_converter.rb:128-155 | one attachment id per attachment; see `AllocateNodeIdsFacts` for the order and consecutiveness of all the ids a node takes |
| `Converter.AllocateNodeIdsFacts` | drupal_to_wxr_converter.rb:128-155 | a node takes the next post id, then its comments take comment ids in pre-order, then its attachments take the following post ids, so each attachment's id exceeds its parent's |
| `Converter.NodeOps` | drupal_to_wxr_converter.rb:112-155 | a node's item and its attachment items are balanced |
| `Converter.FirstFatal` | drupal_to_wxr_converter.rb:46-48 | the run stops at the first node whose exception escapes the node conversion, and no earlier node has one |
| `Converter.WrittenOps` | drupal_to_wxr_converter.rb:46-48 | the items written for all converted nodes are balanced |
| `Converter.PlanRun` | drupal_to_wxr_converter.rb:46-48 | every node it plans to write has one attachment id per attachment; see `PlanRunOutcome` and `PlanRunIds` for which nodes are written, skipped or abort the run |
| `Converter.PlanRunOutcome` | drupal_to_wxr_converter.rb:46-48 | the nodes written are those decoded before the first escaping exception; the nodes skipped are those whose exception was swallowed before it; the run aborts with that exception, if any |
| `Converter.PlanRunIds` | drupal_to_wxr_converter.rb:271-279 | across the whole run the post ids and the comment ids are each consecutive from their counter, and each counter ends at the last id it handed out |
| `Converter.ConvertNodes` | drupal_to_wxr_converter.rb:46-48 | the calls it makes close every element they open; see `ConvertNodesFacts` |
| `Converter.ConvertNodesFacts` | drupal_to_wxr_converter.rb:46-48 | the converted run has consecutive post ids and comment ids, the same skipped nodes and the same abort as its plan |
| `Converter.RunDocument` | drupal_to_wxr_converter.rb:22-50 | the file begins with the XML declaration and the header; a run that no exception escapes ends the file with the footer at level 0, and one that an exception escapes leaves it unfinished inside the channel; the file is the channel header calls followed by the calls of the converted nodes, run from level 2 after the declaration and header, plus the footer exactly when no exception escaped |
| `ConversionLogger.Bump` | conversion_logger.rb:271-273 | with a node log open, counting a message raises its level's counter by one and no other; outside one nothing is counted |
| `ConversionLogger.LogToFile` | conversion_logger.rb:268-306 | no contract of its own: see `FilteredMessageIgnored`, `AcceptedMessageRouting` and `UnknownLevelCountedThenRaised` |
| `ConversionLogger.FilteredMessageIgnored` | conversion_logger.rb:268-306 | a message above the configured level is neither written nor counted |
| `ConversionLogger.LogHtml` | conversion_logger.rb:126-136 | no contract of its own: see `AcceptedMessageRouting` (standard output first when enabled, then the node file or the index file) and `SafeErrorLogKeepsNode` |
| `ConversionLogger.AcceptedMessageRouting` | conversion_logger.rb:126-136 | an accepted message goes to standard output when enabled and to the node log if one is open, else to the index log; with standard output on it is counted twice |
| `ConversionLogger.Log` | conversion_logger.rb:121-123 | no contract of its own: see `LogEscapes` (the message is escaped for XML before it is logged) |
| `ConversionLogger.LogEscapes` | conversion_logger.rb:121-123 | `log` writes the escaped message, which contains no markup |
| `ConversionLogger.UnknownLevelCountedThenRaised` | conversion_logger.rb:268-290 | a message at an unknown level is counted, then ArgumentError is raised and no entry is recorded |
| `ConversionLogger.StartNodeLog` | conversion_logger.rb:222-232 | opening a node log starts every counter at 0 and writes nothing |
| `ConversionLogger.SummaryLevel` | conversion_logger.rb:251-257 | the summary is an error if there was an error, else a warning if there was a warning, else info |
| `ConversionLogger.EndNodeLog` | conversion_logger.rb:234-266 | no contract of its own: see `EndNodeLogSummary` (the node log is recorded as closed once and its summary goes to the index log at the summary level) and `EndWithErrors` (a log with errors is summarised at error level) |
| `ConversionLogger.EndNodeLogSummary` | conversion_logger.rb:234-266 | closing a node log records it once, and writes its summary to the index log at the summary level if that level passes the filter |
| `ConversionLogger.SafeErrorLogKeepsNode` | conversion_logger.rb:126-136 | logging an error keeps the node log open and, if errors pass the filter, leaves a positive error count |
| `ConversionLogger.DoNodeConversion` | conversion_logger.rb:40-53 | no contract of its own: see `NodeConversionOutcome`, `SwallowedFailureSummarisedAsError` and `SwallowedPath` |
| `ConversionLogger.NodeConversionOutcome` | conversion_logger.rb:40-53 | NoMethodError, NameError and TypeError close the node log and propagate; other standard errors are logged and swallowed; a clean run closes the log; each of these closes it exactly once; an exception outside StandardError leaves it open and propagates |
| `ConversionLogger.SwallowedFailureSummarisedAsError` | conversion_logger.rb:40-53 | a swallowed exception makes the node's summary an error, written last to the index log |
| `ConversionLogger.EndWithErrors` | conversion_logger.rb:234-266 | a node log with errors is summarised at error level in the index log |
| `ConversionLogger.SwallowedPath` | conversion_logger.rb:48-52 | a swallowed exception is logged, then the abort message, then the node log is closed |

## Left out

- Database access and the reader's caches are not modelled. This covers the
  reader's `initialize`, `each_node`, `title`, `description`, `pub_date`,
  `default_locale`, `find_all_tags` and `get_node_attachments`. Their results
  enter as values: the `Site` tables, the comment rows, the revisions and
  the decoded nodes.
- The tables and association declarations of the Drupal model, and the
  PHP-serialised variables, have no logic to model.
- URI, CGI, Hpricot, RedCloth, BlueCloth, REXML and Ruby's Time are
  parameters, not implementations.
  - `verify_node_links` is modelled over the list of href and src values
    that Hpricot finds: the href values of all `a` elements, then the src
    values of all `img` elements. The model takes every link's check as a
    value and returns the first exception among them; because a check has
    no effects here, this is the result of stopping at that link.
  - Writing the rewritten links back into the HTML, and Hpricot's
    re-serialisation of the content, are not modelled. A node's content is
    taken as it stands after that step.
- The channel header of `run` is not modelled: title, link, description,
  date, generator, language, wxr_version, and the category and tag entries
  (drupal_to_wxr_converter.rb:23-44, 58-90). `output_category` and
  `output_tag` only call the writer with values from the database.
  `Converter.RunDocument` takes these calls as a parameter and requires
  only that they close what they open.
- `Converter.ConvertNodes` is modelled with each node's exception known
  before any of its items is written. In the source the decode step and
  link verification come before the first write of a node.
  - In the source, an exception raised by the writer itself midway through
    an item would leave a partial item. The model does not represent this.
  - The logger's state is not threaded through the run; the logger is
    modelled on its own.
- The text of the WXR header (`OUTPUT_HEAD`) is an opaque constant. The
  model states that a file begins with the XML declaration followed by it
  (`WxrWriter.DocumentShape`), not that the body never repeats it.
- The file I/O of the logger is not modelled: file creation, the HTML
  framing and style of the log files, timestamps, `close`, and
  `do_conversion` (conversion_logger.rb:17-35). Only the entries, their
  levels and destinations, and the counters are modelled.
- The depth of Ruby's stack is a `fuel` parameter of comment-forest
  rebuilding. Running out of fuel stands for SystemStackError. The model
  does not bound the real stack depth.
- `WxrWriter.WriteTextValue`, `WxrWriter.WriteCdataValue`: the contracts
  state only that the level is kept and the output only grows. The text
  they append is their definition, and the converter does not use them.
- `WxrWriter.WriteXmlValue`: the contract states only that the level is
  kept and the output only grows, as above.
- `Converter.VerifyNodeLink`: the contract does not state the link written
  for a found target; that link is the library's route with the path
  rewritten, and `Converter.RewriteKeepsLastDigit` states what the rewrite
  does.
- `ConversionLogger.UnknownLevelCountedThenRaised`: the log is modelled as
  a list of entries, not as the text of the file. Before it raises, the
  source writes the opening `<tr class='logEntry` of the entry
  (conversion_logger.rb:277); that fragment is not modelled.
- `ReaderComments.CommentContent`: the exception log written when the
  converter fails is not modelled.
- `Converter.NodeItemOps`: the contract states balance; the fields it
  writes are stated by `Converter.NodeItemHasField` and
  `Converter.NodeItemFacts`.

=== FILE: common.dfy ===
/** Shared vocabulary for the model: Ruby's nil-or-value, decimal text of
    integers (Integer#to_s and String#to_i), and the literal-pattern forms
    of String#gsub that the exporter relies on. */
module Common {

  /** A value that may be Ruby's `nil`. */
  datatype Option<+T> = None | Some(value: T) {
    /** `x || default` for a value that is either nil or present. */
    function GetOr(default: T): T {
      if Some? then value else default
    }
  }

  /** An exception, classified the way the exporter's handlers tell them
      apart: three programming errors the node wrapper re-raises, the rest
      of StandardError (which a bare `rescue` catches), and exceptions
      outside StandardError (stack overflow, interrupts) that no bare
      `rescue` catches. */
  datatype Failure =
    | NoMethodError
    | NameError
    | TypeError
    | InvalidUriError
    | StandardFailure(name: string)
    | NonStandardFailure(name: string)
  {
    predicate IsStandard() {
      !NonStandardFailure?
    }
  }

  /** A computation that either returns a value or raises. */
  datatype Outcome<+T> = Done(value: T) | Raised(failure: Failure)

  /** Ruby raises SystemStackError when recursion runs out of stack. */
  const StackOverflow: Failure := NonStandardFailure("SystemStackError")

  predicate IsDigit(c: char) {
    '0' <= c <= '9'
  }

  predicate AllDigits(s: string) {
    forall i :: 0 <= i < |s| ==> IsDigit(s[i])
  }

  function DigitChar(d: nat): (c: char)
    requires d < 10
    ensures IsDigit(c)
  {
    ('0' as int + d) as char
  }

  function DigitValue(c: char): (d: nat)
    requires IsDigit(c)
    ensures d < 10
  {
    c as int - '0' as int
  }

  /** Decimal text of a natural number, most significant digit first. */
  function NatToString(n: nat): (s: string)
    ensures 1 <= |s| && AllDigits(s)
    ensures 1 < |s| ==> s[0] != '0'
  {
    if n < 10 then [DigitChar(n)] else NatToString(n / 10) + [DigitChar(n % 10)]
  }

  /** Ruby's Integer#to_s: an optional minus sign followed by decimal digits. */
  function IntToString(i: int): (s: string)
    ensures 1 <= |s|
    ensures forall k :: 0 <= k < |s| ==> IsDigit(s[k]) || s[k] == '-'
  {
    if i < 0 then "-" + NatToString(-i) else NatToString(i)
  }

  /** Ruby's String#to_i on a string of decimal digits. */
  function DigitsValue(s: string): nat
    requires AllDigits(s)
  {
    if s == [] then 0 else DigitsValue(s[..|s| - 1]) * 10 + DigitValue(s[|s| - 1])
  }

  /** Reading back the decimal text of a number gives the number. */
  lemma {:induction false} NatToStringRoundTrip(n: nat)
    ensures DigitsValue(NatToString(n)) == n
  {
    if n >= 10 {
      var s := NatToString(n);
      assert s[..|s| - 1] == NatToString(n / 10);
      NatToStringRoundTrip(n / 10);
    }
  }

  predicate StartsWith(s: string, prefix: string) {
    |prefix| <= |s| && s[..|prefix|] == prefix
  }

  /** Number of occurrences of the character `c` in `s`. */
  function Count(s: string, c: char): nat {
    if s == [] then 0 else (if s[0] == c then 1 else 0) + Count(s[1..], c)
  }

  lemma {:induction false} CountZero(s: string, c: char)
    requires c !in s
    ensures Count(s, c) == 0
  {
    if s != [] {
      assert s[1..] == s[1..];
      assert c !in s[1..] by {
        forall k | 0 <= k < |s[1..]| ensures s[1..][k] != c {
          assert s[1..][k] == s[k + 1];
        }
      }
      CountZero(s[1..], c);
    }
  }

  /** String#gsub with a one-character pattern: every occurrence of `c`
      is replaced by `rep`, every other character is kept in order. */
  function ReplaceChar(s: string, c: char, rep: string): (r: string)
    ensures c !in s ==> r == s
  {
    if s == [] then [] else (if s[0] == c then rep else [s[0]]) + ReplaceChar(s[1..], c, rep)
  }

  lemma {:induction false} ReplaceCharConcat(a: string, b: string, c: char, rep: string)
    ensures ReplaceChar(a + b, c, rep) == ReplaceChar(a, c, rep) + ReplaceChar(b, c, rep)
  {
    if a == [] {
      assert a + b == b;
    } else {
      var ab := a + b;
      assert ab[0] == a[0] && ab[1..] == a[1..] + b;
      ReplaceCharConcat(a[1..], b, c, rep);
      ReplaceCharCons(ab, c, rep);
      ReplaceCharCons(a, c, rep);
      AppendAssoc(if a[0] == c then rep else [a[0]], ReplaceChar(a[1..], c, rep), ReplaceChar(b, c, rep));
    }
  }

  lemma AppendAssoc(x: string, y: string, z: string)
    ensures x + (y + z) == (x + y) + z
  {
  }

  lemma ReplaceCharCons(s: string, c: char, rep: string)
    requires s != []
    ensures ReplaceChar(s, c, rep) == (if s[0] == c then rep else [s[0]]) + ReplaceChar(s[1..], c, rep)
  {
  }

  /** With a one-character replacement the result has the input's length,
      holds `d` wherever the input held `c`, and the input's character
      everywhere else. */
  lemma {:induction false} ReplaceCharPointwise(s: string, c: char, d: char)
    ensures |ReplaceChar(s, c, [d])| == |s|
    ensures forall i :: 0 <= i < |s| ==>
              ReplaceChar(s, c, [d])[i] == (if s[i] == c then d else s[i])
  {
    if s != [] {
      ReplaceCharPointwise(s[1..], c, d);
      var r := ReplaceChar(s, c, [d]);
      forall i | 0 <= i < |s|
        ensures r[i] == (if s[i] == c then d else s[i])
      {
        if i > 0 {
          assert r[i] == ReplaceChar(s[1..], c, [d])[i - 1];
          assert s[i] == s[1..][i - 1];
        }
      }
    }
  }

  predicate OccursAt(s: string, pat: string, i: int) {
    0 <= i && i + |pat| <= |s| && s[i..i + |pat|] == pat
  }

  predicate Contains(s: string, pat: string) {
    exists i :: 0 <= i <= |s| && OccursAt(s, pat, i)
  }

  /** String#gsub with a literal pattern: occurrences are found left to
      right and do not overlap. */
  function ReplaceAll(s: string, pat: string, rep: string): string
    requires |pat| > 0
    decreases |s|
  {
    if |s| < |pat| then s
    else if s[..|pat|] == pat then rep + ReplaceAll(s[|pat|..], pat, rep)
    else [s[0]] + ReplaceAll(s[1..], pat, rep)
  }

  /** How many replacements that same left-to-right scan performs. */
  function Substitutions(s: string, pat: string): nat
    requires |pat| > 0
    decreases |s|
  {
    if |s| < |pat| then 0
    else if s[..|pat|] == pat then 1 + Substitutions(s[|pat|..], pat)
    else Substitutions(s[1..], pat)
  }

  /** The scan substitutes nothing exactly when the pattern does not occur. */
  lemma {:induction false} SubstitutionsZeroIff(s: string, pat: string)
    requires |pat| > 0
    ensures Substitutions(s, pat) == 0 <==> !Contains(s, pat)
    decreases |s|
  {
    if |s| < |pat| {
      forall i | 0 <= i <= |s|
        ensures !OccursAt(s, pat, i)
      {
      }
    } else if s[..|pat|] == pat {
      assert OccursAt(s, pat, 0);
    } else {
      SubstitutionsZeroIff(s[1..], pat);
      ContainsShift(s, pat);
    }
  }

  /** Without a match at the front, `s` contains the pattern exactly when
      its tail does. */
  lemma ContainsShift(s: string, pat: string)
    requires |s| > 0 && !OccursAt(s, pat, 0)
    ensures Contains(s, pat) <==> Contains(s[1..], pat)
  {
    if Contains(s, pat) {
      var i :| 0 <= i <= |s| && OccursAt(s, pat, i);
      ShiftOccurs(s, pat, i - 1);
      assert OccursAt(s[1..], pat, i - 1);
    }
    if Contains(s[1..], pat) {
      var i :| 0 <= i <= |s[1..]| && OccursAt(s[1..], pat, i);
      ShiftOccurs(s, pat, i);
      assert OccursAt(s, pat, i + 1);
    }
  }

  /** Ruby's String#gsub! with a literal pattern: nil when nothing was
      replaced, otherwise the replaced text. */
  function GsubBang(s: string, pat: string, rep: string): (r: Option<string>)
    requires |pat| > 0
    ensures r.None? <==> !Contains(s, pat)
  {
    SubstitutionsZeroIff(s, pat);
    if Substitutions(s, pat) == 0 then None else Some(ReplaceAll(s, pat, rep))
  }

  /** Ruby's String#sub with a literal pattern: the leftmost occurrence
      replaced, everything else kept. */
  function SubFirst(s: string, pat: string, rep: string): string
    requires |pat| > 0
    decreases |s|
  {
    if |s| < |pat| then s
    else if s[..|pat|] == pat then rep + s[|pat|..]
    else [s[0]] + SubFirst(s[1..], pat, rep)
  }

  lemma ShiftOccurs(s: string, pat: string, j: int)
    requires |s| > 0 && 0 <= j
    ensures OccursAt(s[1..], pat, j) <==> OccursAt(s, pat, j + 1)
  {
    if j + 1 + |pat| <= |s| {
      assert s[1..][j..j + |pat|] == s[j + 1..j + 1 + |pat|];
    }
  }

  /** SubFirst leaves a string without the pattern alone. */
  lemma {:induction false} SubFirstAbsent(s: string, pat: string, rep: string)
    requires |pat| > 0 && !Contains(s, pat)
    ensures SubFirst(s, pat, rep) == s
    decreases |s|
  {
    if |s| >= |pat| {
      assert !OccursAt(s, pat, 0);
      assert !Contains(s[1..], pat) by {
        forall i | 0 <= i <= |s[1..]| ensures !OccursAt(s[1..], pat, i) {
          ShiftOccurs(s, pat, i);
        }
      }
      SubFirstAbsent(s[1..], pat, rep);
    }
  }

  /** Otherwise SubFirst replaces exactly the leftmost occurrence. */
  lemma {:induction false} SubFirstLeftmost(s: string, pat: string, rep: string, i: nat)
    requires |pat| > 0 && OccursAt(s, pat, i)
    requires forall j :: 0 <= j < i ==> !OccursAt(s, pat, j)
    ensures SubFirst(s, pat, rep) == s[..i] + rep + s[i + |pat|..]
    decreases i
  {
    if i == 0 {
      assert s[..0] + rep + s[|pat|..] == rep + s[|pat|..];
    } else {
      assert !OccursAt(s, pat, 0);
      ShiftOccurs(s, pat, i - 1);
      forall j | 0 <= j < i - 1 ensures !OccursAt(s[1..], pat, j) {
        ShiftOccurs(s, pat, j);
      }
      SubFirstLeftmost(s[1..], pat, rep, i - 1);
      assert s[..|pat|] != pat;
      var a := s[1..][..i - 1];
      var b := s[1..][i - 1 + |pat|..];
      assert [s[0]] + a == s[..i];
      assert b == s[i + |pat|..];
      calc {
        SubFirst(s, pat, rep);
        [s[0]] + SubFirst(s[1..], pat, rep);
        [s[0]] + (a + rep + b);
        ([s[0]] + a) + rep + b;
      }
    }
  }
}

=== FILE: conversion_logger.dfy ===
/** ConversionLogger: the severity filter, the per-node message counters,
    where each message goes, the summary written when a node's log is
    closed, and which exceptions a node conversion swallows. Files are
    modelled as the sequence of entries written to them; timestamps, the
    HTML framing of the log files and file handles are not modelled. */
module ConversionLogger {
  import opened Common
  import opened XmlEscape

  const LevelError: int := 0
  const LevelWarning: int := 1
  const LevelInfo: int := 2
  const LevelDebug: int := 3
  const LevelTrace: int := 4

  predicate ValidLevel(level: int) {
    LevelError <= level <= LevelTrace
  }

  /** Where an entry went: standard output (text form), the open node's log
      file, or the index file. */
  datatype Dest = Stdout | NodeFile | IndexFile

  datatype Entry = Entry(dest: Dest, level: int, msg: string)

  /** The log of the node being converted, with its per-level counters
      (absent levels count 0). */
  datatype NodeLog = NodeLog(nodeId: int, title: string, counts: map<int, nat>)
  {
    function Count(level: int): nat {
      if level in counts then counts[level] else 0
    }
  }

  /** The logger's state. `node` holds both the open node file and its
      counters, which the source opens and clears together. `closed` lists
      the node logs closed so far, with their final counters. */
  datatype Logger = Logger(
    logLevel: int,
    toStdout: bool,
    node: Option<NodeLog>,
    entries: seq<Entry>,
    closed: seq<NodeLog>)

  /** A logger after a call, and the exception the call raised, if any. */
  datatype Step = Step(logger: Logger, raised: Option<Failure>)

  const ArgumentError: Failure := StandardFailure("ArgumentError")

  function NewLogger(logLevel: int, toStdout: bool): (l: Logger)
    ensures l.node.None? && l.entries == [] && l.closed == []
  {
    Logger(logLevel, toStdout, None, [], [])
  }

  /** Counting a message: one more at its level while a node log is open;
      nothing outside one. */
  function Bump(l: Logger, level: int): (l': Logger)
    ensures l'.node.None? <==> l.node.None?
    ensures l.node.Some? ==> l'.node.value.Count(level) == l.node.value.Count(level) + 1
    ensures l.node.Some? ==> forall k :: k != level ==> l'.node.value.Count(k) == l.node.value.Count(k)
    ensures l'.entries == l.entries && l'.closed == l.closed
  {
    match l.node
    case None => l
    case Some(n) => l.(node := Some(n.(counts := n.counts[level := n.Count(level) + 1])))
  }

  /** log_to_html_file and log_to_text_file: a message above the configured
      level is dropped; otherwise it is counted and then written, except
      that an unknown level raises ArgumentError after being counted. */
  function LogToFile(l: Logger, dest: Dest, level: int, msg: string): Step {
    if !(l.logLevel >= level) then Step(l, None)
    else
      var counted := Bump(l, level);
      if ValidLevel(level) then Step(counted.(entries := counted.entries + [Entry(dest, level, msg)]), None)
      else Step(counted, Some(ArgumentError))
  }

  /** The file an HTML entry goes to. */
  function HtmlDest(l: Logger): Dest {
    if l.node.Some? then NodeFile else IndexFile
  }

  /** log_html: to standard output first when enabled, then to the node
      file if one is open, otherwise to the index file. The message is not
      escaped. */
  function LogHtml(l: Logger, level: int, msg: string): Step {
    var first := if l.toStdout then LogToFile(l, Stdout, level, msg) else Step(l, None);
    if first.raised.Some? then first
    else LogToFile(first.logger, HtmlDest(first.logger), level, msg)
  }

  /** log: the message escaped for XML, then logged as HTML. */
  function Log(l: Logger, level: int, msg: string): Step {
    LogHtml(l, level, Escape(msg))
  }

  /** The filter: a message more verbose than the configured level leaves
      the logger exactly as it was, counters included. */
  lemma FilteredMessageIgnored(l: Logger, level: int, msg: string)
    requires level > l.logLevel
    ensures LogHtml(l, level, msg) == Step(l, None)
    ensures Log(l, level, msg) == Step(l, None)
  {
  }

  /** An accepted message of a known level is written to the open node's
      file, or to the index file outside a node, preceded by a copy on
      standard output when that is enabled; nothing else changes but the
      counter of its level, which rises by one per copy written (so by two
      with standard output on). */
  lemma AcceptedMessageRouting(l: Logger, level: int, msg: string)
    requires ValidLevel(level) && level <= l.logLevel
    ensures var s := LogHtml(l, level, msg);
            var file := if l.node.Some? then NodeFile else IndexFile;
            var copies := if l.toStdout then 2 else 1;
            && s.raised.None?
            && s.logger.entries == l.entries
                 + (if l.toStdout then [Entry(Stdout, level, msg)] else [])
                 + [Entry(file, level, msg)]
            && s.logger.closed == l.closed
            && s.logger.logLevel == l.logLevel && s.logger.toStdout == l.toStdout
            && (s.logger.node.None? <==> l.node.None?)
            && (l.node.Some? ==>
                  && s.logger.node.value.nodeId == l.node.value.nodeId
                  && s.logger.node.value.title == l.node.value.title
                  && s.logger.node.value.Count(level) == l.node.value.Count(level) + copies
                  && forall k :: k != level ==> s.logger.node.value.Count(k) == l.node.value.Count(k))
  {
    if l.toStdout {
      var first := LogToFile(l, Stdout, level, msg);
      assert first.logger.entries == l.entries + [Entry(Stdout, level, msg)];
    }
  }

  predicate MarkupFree(s: string) {
    forall i :: 0 <= i < |s| ==> !IsMarkupChar(s[i])
  }

  /** log writes the escaped message: no markup of the caller's survives. */
  lemma LogEscapes(l: Logger, level: int, msg: string)
    requires ValidLevel(level) && level <= l.logLevel
    ensures var e := LogHtml(l, level, Escape(msg)).logger.entries;
            && Log(l, level, msg) == LogHtml(l, level, Escape(msg))
            && e[|e| - 1].msg == Escape(msg)
            && MarkupFree(e[|e| - 1].msg)
  {
    AcceptedMessageRouting(l, level, Escape(msg));
    EscapeRemovesMarkup(msg);
  }

  /** An unknown level that passes the filter is still counted before
      ArgumentError is raised. */
  lemma UnknownLevelCountedThenRaised(l: Logger, level: int, msg: string)
    requires !ValidLevel(level) && level <= l.logLevel && !l.toStdout && l.node.Some?
    ensures LogHtml(l, level, msg).raised == Some(ArgumentError)
    ensures LogHtml(l, level, msg).logger.node.value.Count(level) == l.node.value.Count(level) + 1
    ensures LogHtml(l, level, msg).logger.entries == l.entries
  {
  }

  /** start_node_log: a fresh node file with all counters at 0. */
  function StartNodeLog(l: Logger, nodeId: int, title: string): (l': Logger)
    ensures l'.node == Some(NodeLog(nodeId, title, map[]))
    ensures forall k :: l'.node.value.Count(k) == 0
    ensures l'.entries == l.entries && l'.closed == l.closed
  {
    l.(node := Some(NodeLog(nodeId, title, map[])))
  }

  /** The severity of the summary line: error if any error was counted,
      otherwise warning if any warning was, otherwise info. */
  function SummaryLevel(n: NodeLog): (level: int)
    ensures ValidLevel(level)
    ensures level == LevelError <==> n.Count(LevelError) > 0
    ensures level == LevelWarning <==> n.Count(LevelError) == 0 && n.Count(LevelWarning) > 0
    ensures level == LevelInfo <==> n.Count(LevelError) == 0 && n.Count(LevelWarning) == 0
  {
    if n.Count(LevelError) > 0 then LevelError
    else if n.Count(LevelWarning) > 0 then LevelWarning
    else LevelInfo
  }

  /** The index entry summarising a node: its id, title, error and warning
      counts, and a link to its log file. */
  function SummaryMessage(n: NodeLog): string {
    "Converted node ID <span class='nodeId'>" + IntToString(n.nodeId) + "</span>, "
    + "<span class='nodeTitle'>" + n.title + "</span>"
    + "<span class='nodeEventSummary'>"
    + " ["
    + "<span class='nodeEventCount nodeErrorCount'>" + NatToString(n.Count(LevelError)) + " error(s)</span>, "
    + "<span class='nodeEventCount nodeWarningCount'>" + NatToString(n.Count(LevelWarning)) + " warning(s)</span> - "
    + "<a href='node-" + IntToString(n.nodeId) + ".html' class='nodeLogLink'>Details</a>"
    + "]"
    + "</span>"
  }

  /** end_node_log: the node file is closed and its counters dropped, then
      the summary goes to the index file (and standard output), uncounted.
      Without an open node file the call fails on nil. */
  function EndNodeLog(l: Logger): Step {
    match l.node
    case None => Step(l, Some(NoMethodError))
    case Some(n) =>
      var l' := l.(node := None, closed := l.closed + [n]);
      LogHtml(l', SummaryLevel(n), SummaryMessage(n))
  }

  /** Closing a node log records it once, leaves no node open, and writes
      the summary to the index file at the summary level when that level
      passes the filter. */
  lemma EndNodeLogSummary(l: Logger)
    requires l.node.Some?
    ensures var s := EndNodeLog(l);
            && s.raised.None?
            && s.logger.node.None?
            && s.logger.closed == l.closed + [l.node.value]
            && s.logger.logLevel == l.logLevel && s.logger.toStdout == l.toStdout
            && (SummaryLevel(l.node.value) <= l.logLevel ==>
                  |s.logger.entries| > 0 &&
                  s.logger.entries[|s.logger.entries| - 1]
                    == Entry(IndexFile, SummaryLevel(l.node.value), SummaryMessage(l.node.value)))
            && (SummaryLevel(l.node.value) > l.logLevel ==> s.logger.entries == l.entries)
  {
    var n := l.node.value;
    var l' := l.(node := None, closed := l.closed + [n]);
    if SummaryLevel(n) <= l.logLevel {
      AcceptedMessageRouting(l', SummaryLevel(n), SummaryMessage(n));
    }
  }

  /** The exceptions do_node_conversion closes the log for and re-raises,
      being usually programming errors. */
  predicate IsProgrammingError(e: Failure) {
    e.NoMethodError? || e.NameError? || e.TypeError?
  }

  /** Those a bare `rescue` catches and the conversion swallows. */
  predicate Swallowed(e: Failure) {
    e.IsStandard() && !IsProgrammingError(e)
  }

  /** log_exception: the context (or "Unhandled exception") and the
      exception's rendered class, message and backtrace, at error level,
      unescaped. */
  function LogException(l: Logger, context: Option<string>, details: string): Step {
    var head := match context
      case Some(c) => c + " - Exception details: "
      case None => "Unhandled exception ";
    LogHtml(l, LevelError, head + details)
  }

  const NodeAbortedMessage: string := "Converstion of node aborted due to unhandled exception"

  /** do_node_conversion: open the node log, run the conversion (`body`,
      which may log and may raise), and close the log. A programming error
      closes the log and propagates; any other StandardError is logged and
      swallowed; an exception outside StandardError escapes every handler
      and leaves the log open. `details` is the rendering of the exception. */
  function DoNodeConversion(l: Logger, nodeId: int, title: string, body: Logger -> Step, details: string): Step {
    var ran := body(StartNodeLog(l, nodeId, title));
    match ran.raised
    case None => EndNodeLog(ran.logger)
    case Some(e) =>
      if IsProgrammingError(e) then
        var closing := EndNodeLog(ran.logger);
        if closing.raised.Some? then closing else Step(closing.logger, Some(e))
      else if e.IsStandard() then
        var logged := LogException(ran.logger, None, details);
        if logged.raised.Some? then logged
        else
          var noted := Log(logged.logger, LevelError, NodeAbortedMessage);
          if noted.raised.Some? then noted else EndNodeLog(noted.logger)
      else ran
  }

  /** A conversion body that keeps the node log it was given open, writes
      only through the logger, and closes nothing. */
  predicate WellBehaved(body: Logger -> Step, l: Logger, nodeId: int, title: string) {
    var start := StartNodeLog(l, nodeId, title);
    var ran := body(start);
    && ran.logger.node.Some?
    && ran.logger.closed == start.closed
    && ran.logger.logLevel == l.logLevel
    && ran.logger.toStdout == l.toStdout
  }

  /** Which exceptions escape a node conversion, and how often its log is
      closed: once, except for exceptions outside StandardError, which leave
      it open. */
  lemma NodeConversionOutcome(l: Logger, nodeId: int, title: string, body: Logger -> Step, details: string)
    requires WellBehaved(body, l, nodeId, title)
    ensures var ran := body(StartNodeLog(l, nodeId, title));
            var s := DoNodeConversion(l, nodeId, title, body, details);
            && (ran.raised.None? ==> s.raised.None? && |s.logger.closed| == |l.closed| + 1)
            && (ran.raised.Some? && IsProgrammingError(ran.raised.value) ==>
                  s.raised == ran.raised && |s.logger.closed| == |l.closed| + 1)
            && (ran.raised.Some? && Swallowed(ran.raised.value) ==>
                  s.raised.None? && |s.logger.closed| == |l.closed| + 1)
            && (ran.raised.Some? && !ran.raised.value.IsStandard() ==>
                  s.raised == ran.raised && s.logger.closed == l.closed && s.logger.node.Some?)
  {
    var ran := body(StartNodeLog(l, nodeId, title));
    if ran.raised.None? || IsProgrammingError(ran.raised.value) {
      EndNodeLogSummary(ran.logger);
    } else if ran.raised.value.IsStandard() {
      var logged := LogException(ran.logger, None, details);
      SafeErrorLogKeepsNode(ran.logger, "Unhandled exception " + details);
      var noted := Log(logged.logger, LevelError, NodeAbortedMessage);
      SafeErrorLogKeepsNode(logged.logger, Escape(NodeAbortedMessage));
      EndNodeLogSummary(noted.logger);
    }
  }

  /** An error-level message never raises and keeps the node log open;
      while the filter lets errors through, it is counted. */
  lemma SafeErrorLogKeepsNode(l: Logger, msg: string)
    requires l.node.Some?
    ensures var s := LogHtml(l, LevelError, msg);
            && s.raised.None?
            && s.logger.node.Some?
            && s.logger.closed == l.closed
            && s.logger.logLevel == l.logLevel && s.logger.toStdout == l.toStdout
            && s.logger.node.value.Count(LevelError) >= l.node.value.Count(LevelError)
            && (LevelError <= l.logLevel ==> s.logger.node.value.Count(LevelError) > 0)
  {
    if LevelError <= l.logLevel {
      AcceptedMessageRouting(l, LevelError, msg);
    }
  }

  /** A swallowed failure leaves an error summary for the node, provided
      errors are logged at all. */
  lemma SwallowedFailureSummarisedAsError(l: Logger, nodeId: int, title: string, body: Logger -> Step, details: string)
    requires WellBehaved(body, l, nodeId, title)
    requires LevelError <= l.logLevel
    requires var ran := body(StartNodeLog(l, nodeId, title));
             ran.raised.Some? && Swallowed(ran.raised.value)
    ensures var s := DoNodeConversion(l, nodeId, title, body, details);
            && s.raised.None?
            && |s.logger.closed| == |l.closed| + 1
            && SummaryLevel(s.logger.closed[|s.logger.closed| - 1]) == LevelError
            && |s.logger.entries| > 0
            && s.logger.entries[|s.logger.entries| - 1].level == LevelError
            && s.logger.entries[|s.logger.entries| - 1].dest == IndexFile
  {
    var ran := body(StartNodeLog(l, nodeId, title));
    var logged := LogException(ran.logger, None, details);
    SafeErrorLogKeepsNode(ran.logger, "Unhandled exception " + details);
    var noted := Log(logged.logger, LevelError, NodeAbortedMessage);
    SafeErrorLogKeepsNode(logged.logger, Escape(NodeAbortedMessage));
    SwallowedPath(l, nodeId, title, body, details, logged, noted);
    EndWithErrors(noted.logger);
  }

  /** Closing a node log that counted an error writes an error summary. */
  lemma EndWithErrors(k: Logger)
    requires k.node.Some? && k.node.value.Count(LevelError) > 0 && LevelError <= k.logLevel
    ensures var s := EndNodeLog(k);
            && s.raised.None?
            && |s.logger.closed| == |k.closed| + 1
            && SummaryLevel(s.logger.closed[|s.logger.closed| - 1]) == LevelError
            && |s.logger.entries| > 0
            && s.logger.entries[|s.logger.entries| - 1].level == LevelError
            && s.logger.entries[|s.logger.entries| - 1].dest == IndexFile
  {
    EndNodeLogSummary(k);
  }

  /** The handler's path for a swallowed failure: two error messages, then
      the log is closed. */
  lemma SwallowedPath(l: Logger, nodeId: int, title: string, body: Logger -> Step, details: string, logged: Step, noted: Step)
    requires var ran := body(StartNodeLog(l, nodeId, title));
             && ran.raised.Some? && Swallowed(ran.raised.value)
             && logged == LogException(ran.logger, None, details)
             && logged.raised.None?
             && noted == Log(logged.logger, LevelError, NodeAbortedMessage)
             && noted.raised.None?
    ensures DoNodeConversion(l, nodeId, title, body, details) == EndNodeLog(noted.logger)
  {
  }
}

=== FILE: converter.dfy ===
/** Converter: turns decoded Drupal nodes into the writer calls of WXR
    items. It covers the WordPress id counters, the pre-order emission of
    comment threads, the subject injected into comment bodies, the removal
    of paragraph tags, link verification and rewriting, the post name, and
    the attachment items that follow each node. */
module Converter {
  import opened Common
  import opened XmlEscape
  import opened WxrWriter
  import opened ReaderUrls
  import opened ReaderComments
  import opened ConversionLogger

  // ---------------------------------------------------------------------
  // Id counters

  /** The last WordPress post id and comment id handed out; both start at 0. */
  datatype Counters = Counters(lastPost: nat, lastComment: nat)

  const FreshCounters: Counters := Counters(0, 0)

  /** get_next_post_id: the next post id; comment ids are untouched. */
  function NextPostId(c: Counters): (r: (nat, Counters))
    ensures r.0 > c.lastPost && r.1.lastPost == r.0 && r.1.lastComment == c.lastComment
  {
    (c.lastPost + 1, c.(lastPost := c.lastPost + 1))
  }

  /** get_next_comment_id: the next comment id; post ids are untouched. */
  function NextCommentId(c: Counters): (r: (nat, Counters))
    ensures r.0 > c.lastComment && r.1.lastComment == r.0 && r.1.lastPost == c.lastPost
  {
    (c.lastComment + 1, c.(lastComment := c.lastComment + 1))
  }

  // ---------------------------------------------------------------------
  // Content post-processing

  predicate IsP(c: char) {
    c == 'p' || c == 'P'
  }

  /** Where `<\/?p>` (ignoring case) matches at the start of `s`, and how long
      the match is. */
  function TagAt(s: string): nat {
    if |s| >= 3 && s[0] == '<' && IsP(s[1]) && s[2] == '>' then 3
    else if |s| >= 4 && s[0] == '<' && s[1] == '/' && IsP(s[2]) && s[3] == '>' then 4
    else 0
  }

  /** gsub(/<\/?p>/i, ''): every paragraph tag removed, scanning left to
      right without re-examining the text a removal brings together. */
  function StripParagraphTags(s: string): string
    decreases |s|
  {
    if s == [] then []
    else if TagAt(s) > 0 then StripParagraphTags(s[TagAt(s)..])
    else [s[0]] + StripParagraphTags(s[1..])
  }

  /** postprocess_node_content: nil stays nil; text loses its paragraph tags. */
  function PostprocessContent(content: Option<string>): (r: Option<string>)
    ensures r.None? <==> content.None?
    ensures content.Some? ==> r.value == Cut(content.value).0 + Texts(Cut(content.value).1)
  {
    match content
    case None => None
    case Some(s) => StripIsTextsOfCut(s); Some(StripParagraphTags(s))
  }

  /** Text without a `<` has no tag to remove. */
  lemma {:induction false} StripParagraphTagsPlain(s: string)
    requires '<' !in s
    ensures StripParagraphTags(s) == s
    decreases |s|
  {
    if s != [] {
      assert s[0] in s;
      assert forall c :: c in s[1..] ==> c in s;
      StripParagraphTagsPlain(s[1..]);
    }
  }

  /** A tag never spans a boundary in front of a `<`, so text can be
      stripped piecewise there. */
  lemma {:induction false} StripParagraphTagsConcat(a: string, b: string)
    requires b == [] || b[0] == '<'
    ensures StripParagraphTags(a + b) == StripParagraphTags(a) + StripParagraphTags(b)
    decreases |a|
  {
    if a == [] {
      assert a + b == b;
    } else {
      TagAtBoundary(a, b);
      var k := if TagAt(a) > 0 then TagAt(a) else 1;
      assert (a + b)[k..] == a[k..] + b;
      assert (a + b)[0] == a[0];
      StripParagraphTagsConcat(a[k..], b);
    }
  }

  /** The tag matched at the start of `a + b` lies inside `a`. */
  lemma TagAtBoundary(a: string, b: string)
    requires a != [] && (b == [] || b[0] == '<')
    ensures TagAt(a + b) == TagAt(a) && TagAt(a) <= |a|
  {
    var s := a + b;
    if |a| < 4 && |b| > 0 {
      assert s[|a|] == '<';
    }
  }

  /** One paragraph of tag-free text comes out as the bare text. */
  lemma StripWrappedParagraph(t: string)
    requires '<' !in t
    ensures StripParagraphTags("<p>" + t + "</p>") == t
    ensures StripParagraphTags("<P>" + t + "</P>") == t
  {
    StripParagraphTagsPlain(t);
    StripParagraphTagsConcat("<p>" + t, "</p>");
    StripParagraphTagsConcat("<P>" + t, "</P>");
    assert ("<p>" + t)[3..] == t;
    assert ("<P>" + t)[3..] == t;
  }

  /** Removing the tags once can leave a tag behind: the pass is not
      idempotent. */
  lemma StripNotIdempotent()
    ensures StripParagraphTags("<<p>p>") == "<p>"
    ensures StripParagraphTags(StripParagraphTags("<<p>p>")) == ""
  {
    var s := "<<p>p>";
    assert TagAt(s) == 0;
    assert s[1..] == "<p>p>";
    assert TagAt(s[1..]) == 3;
    assert s[1..][3..] == "p>";
    assert "p>"[1..] == ">";
    assert ">"[1..] == "";
    assert "<p>"[3..] == "";
  }

  // ---------------------------------------------------------------------
  // Comment subjects

  /** WordPress has no comment subject: a real subject is prepended in bold,
      followed by a blank line, to the body (or to nothing). */
  function InjectSubject(title: Option<string>, content: Option<string>): Option<string> {
    if title.Some? && title.value != DisqusCommentSubject then
      Some(SubjectOpen + title.value + SubjectClose + content.GetOr(""))
    else content
  }

  const SubjectOpen: string := "<strong>"
  const SubjectClose: string := "</strong>\n\n"

  /** Reading a subject back: the text up to the first `<` after the opening
      tag, provided the closing tag and blank line follow it. */
  function ReadSubject(s: string): Option<(string, string)> {
    if |s| >= |SubjectOpen| && s[..|SubjectOpen|] == SubjectOpen && '<' in s[|SubjectOpen|..] then
      var r := s[|SubjectOpen|..];
      var rest := r[IndexOf(r, '<')..];
      if |rest| >= |SubjectClose| && rest[..|SubjectClose|] == SubjectClose then
        Some((r[..IndexOf(r, '<')], rest[|SubjectClose|..]))
      else None
    else None
  }

  /** The injected subject and the original body can be read back when the
      subject has no markup. */
  lemma SubjectReadsBack(title: string, content: Option<string>)
    requires title != DisqusCommentSubject && '<' !in title
    ensures InjectSubject(Some(title), content).Some?
    ensures ReadSubject(InjectSubject(Some(title), content).value) == Some((title, content.GetOr("")))
  {
    var body := content.GetOr("");
    var tail := SubjectClose + body;
    var r := title + tail;
    var s := SubjectOpen + r;
    assert InjectSubject(Some(title), content) == Some(s) by {
      assert SubjectOpen + title + SubjectClose + body == s;
    }
    CutAt(SubjectOpen, r);
    IndexOfFirst(title, tail);
    CutAt(title, tail);
    CutAt(SubjectClose, body);
  }

  /** Both parts of a concatenation can be cut back out of it. */
  lemma CutAt(a: string, b: string)
    ensures (a + b)[..|a|] == a && (a + b)[|a|..] == b
  {
  }

  /** The first `<` of `t + u` is that of `u` when `t` has none. */
  lemma IndexOfFirst(t: string, u: string)
    requires '<' !in t && |u| > 0 && u[0] == '<'
    ensures '<' in t + u && IndexOf(t + u, '<') == |t|
  {
    var s := t + u;
    assert s[|t|] == '<';
    var i := IndexOf(s, '<');
  }

  /** The subject's markup survives post-processing: only `p` tags go. */
  lemma InjectedSubjectSurvivesPostprocessing(title: string, body: string)
    requires title != DisqusCommentSubject && '<' !in title && '<' !in body
    ensures PostprocessContent(InjectSubject(Some(title), Some(body)))
              == Some(SubjectOpen + title + SubjectClose + body)
  {
    var tail := SubjectClose + body;
    var s := SubjectOpen + (title + tail);
    assert InjectSubject(Some(title), Some(body)) == Some(s) by {
      assert SubjectOpen + title + SubjectClose + body == s;
    }
    assert StripParagraphTags(tail) == tail by {
      BoldTagKept(SubjectClose, body);
      StripParagraphTagsPlain(body);
    }
    assert StripParagraphTags(title + tail) == title + tail by {
      StripParagraphTagsVerbatim(title, tail);
    }
    BoldTagKept(SubjectOpen, title + tail);
    assert SubjectOpen + (title + tail) == SubjectOpen + title + SubjectClose + body;
  }

  /** The bold tags are not paragraph tags and are kept. */
  lemma BoldTagKept(tag: string, x: string)
    requires tag == SubjectOpen || tag == SubjectClose
    ensures StripParagraphTags(tag + x) == tag + StripParagraphTags(x)
  {
    assert tag[1] == 's' || (tag[1] == '/' && tag[2] == 's');
    assert '<' !in tag[1..];
    OtherTagKept(tag, x);
  }

  /** A tag that is not a paragraph tag, with no other `<` in it, is kept. */
  lemma OtherTagKept(tag: string, x: string)
    requires |tag| >= 3 && tag[0] == '<' && !IsP(tag[1]) && !(tag[1] == '/' && IsP(tag[2]))
    requires '<' !in tag[1..]
    ensures StripParagraphTags(tag + x) == tag + StripParagraphTags(x)
  {
    var s := tag + x;
    assert s[..3] == tag[..3];
    StripLeadingLt(s);
    assert s[1..] == tag[1..] + x;
    StripParagraphTagsVerbatim(tag[1..], x);
    assert tag == [tag[0]] + tag[1..];
  }

  /** A `<` that cannot open a paragraph tag is kept. */
  lemma StripLeadingLt(x: string)
    requires |x| >= 3 && x[0] == '<' && !IsP(x[1]) && !(x[1] == '/' && IsP(x[2]))
    ensures StripParagraphTags(x) == [x[0]] + StripParagraphTags(x[1..])
  {
  }

  /** Text without `<` is copied through unchanged up to what follows it. */
  lemma {:induction false} StripParagraphTagsVerbatim(a: string, b: string)
    requires '<' !in a
    ensures StripParagraphTags(a + b) == a + StripParagraphTags(b)
    decreases |a|
  {
    if a == [] {
      assert a + b == b;
    } else {
      assert a[0] in a;
      assert (a + b)[0] == a[0];
      assert TagAt(a + b) == 0;
      assert (a + b)[1..] == a[1..] + b;
      assert forall c :: c in a[1..] ==> c in a;
      StripParagraphTagsVerbatim(a[1..], b);
    }
  }

  /** One of the four texts `<\/?p>` matches. */
  predicate IsParagraphTag(t: string) {
    t == "<p>" || t == "<P>" || t == "</p>" || t == "</P>"
  }

  /** No paragraph tag starts anywhere inside `a`. */
  predicate TagFree(a: string) {
    forall j :: 0 <= j < |a| ==> TagAt(a[j..]) == 0
  }

  /** `a0 + t1 + a1 + t2 + a2 + ...` for parts `(t1, a1), (t2, a2), ...`. */
  function Interleave(a0: string, parts: seq<(string, string)>): string
    decreases |parts|
  {
    if parts == [] then a0 else a0 + parts[0].0 + Interleave(parts[0].1, parts[1..])
  }

  /** `a1 + a2 + ...`: the texts of the parts without their tags. */
  function Texts(parts: seq<(string, string)>): string
    decreases |parts|
  {
    if parts == [] then [] else parts[0].1 + Texts(parts[1..])
  }

  /** Text in which no tag starts is copied through when a `<` or the end
      follows it. */
  lemma {:induction false} StripTagFree(a: string, b: string)
    requires TagFree(a) && (b == [] || b[0] == '<')
    ensures StripParagraphTags(a + b) == a + StripParagraphTags(b)
    decreases |a|
  {
    if a == [] {
      assert a + b == b;
    } else {
      TagFreeHead(a);
      TagFreeTail(a);
      StripUntaggedFront(a, b);
      StripTagFree(a[1..], b);
      ConsAppend(a, StripParagraphTags(b));
    }
  }

  lemma ConsAppend(a: string, x: string)
    requires a != []
    ensures [a[0]] + (a[1..] + x) == a + x
  {
  }

  /** A character at which no tag starts is copied, and the scan moves on
      by one. */
  lemma StripUntaggedFront(a: string, b: string)
    requires a != [] && TagAt(a) == 0 && (b == [] || b[0] == '<')
    ensures StripParagraphTags(a + b) == [a[0]] + StripParagraphTags(a[1..] + b)
  {
    TagAtBoundary(a, b);
    assert (a + b)[1..] == a[1..] + b;
  }

  lemma TagFreeHead(a: string)
    requires a != [] && TagFree(a)
    ensures TagAt(a) == 0
  {
    assert a[0..] == a;
  }

  lemma TagFreeTail(a: string)
    requires a != [] && TagFree(a)
    ensures TagFree(a[1..])
  {
    forall j | 0 <= j < |a[1..]| ensures TagAt(a[1..][j..]) == 0 {
      assert a[1..][j..] == a[j + 1..];
    }
  }

  /** A paragraph tag at the front is dropped. */
  lemma StripTagStep(t: string, x: string)
    requires IsParagraphTag(t)
    ensures StripParagraphTags(t + x) == StripParagraphTags(x)
  {
    assert TagAt(t + x) == |t|;
    assert (t + x)[|t|..] == x;
  }

  /** The pass keeps exactly the texts between the paragraph tags: cut the
      input into tag-free texts separated by paragraph tags and the output
      is the texts joined. `Cut` gives such a cut for every input. */
  lemma {:induction false} StripKeepsTextsBetweenTags(a0: string, parts: seq<(string, string)>)
    requires TagFree(a0)
    requires forall i :: 0 <= i < |parts| ==> IsParagraphTag(parts[i].0) && TagFree(parts[i].1)
    ensures StripParagraphTags(Interleave(a0, parts)) == a0 + Texts(parts)
    decreases |parts|
  {
    if parts == [] {
      StripTagFree(a0, []);
      assert a0 + [] == a0;
    } else {
      var t := parts[0].0;
      var rest := Interleave(parts[0].1, parts[1..]);
      assert Interleave(a0, parts) == a0 + (t + rest);
      StripTagFree(a0, t + rest);
      StripTagStep(t, rest);
      StripKeepsTextsBetweenTags(parts[0].1, parts[1..]);
      assert a0 + (parts[0].1 + Texts(parts[1..])) == a0 + Texts(parts);
    }
  }

  /** A cut of `s` into a leading text and (tag, text) parts whose tags are
      paragraph tags and whose texts have no tag in them. */
  function Cut(s: string): (r: (string, seq<(string, string)>))
    ensures Interleave(r.0, r.1) == s
    ensures TagFree(r.0)
    ensures forall i :: 0 <= i < |r.1| ==> IsParagraphTag(r.1[i].0) && TagFree(r.1[i].1)
    decreases |s|
  {
    if s == [] then ([], [])
    else if TagAt(s) > 0 then
      var tail := Cut(s[TagAt(s)..]);
      CutTagFront(s, tail.0, tail.1);
      ([], [(s[..TagAt(s)], tail.0)] + tail.1)
    else
      var tail := Cut(s[1..]);
      CutTextFront(s, tail.0, tail.1);
      ([s[0]] + tail.0, tail.1)
  }

  /** A cut of the text after a leading tag, with the tag put in front. */
  lemma CutTagFront(s: string, b0: string, ps: seq<(string, string)>)
    requires TagAt(s) > 0 && Interleave(b0, ps) == s[TagAt(s)..]
    ensures IsParagraphTag(s[..TagAt(s)])
    ensures Interleave([], [(s[..TagAt(s)], b0)] + ps) == s
  {
    var parts := [(s[..TagAt(s)], b0)] + ps;
    assert parts[1..] == ps;
    assert [] + s[..TagAt(s)] + s[TagAt(s)..] == s;
  }

  /** A cut of the text after a leading character no tag starts at, with
      the character put back on its leading text. */
  lemma CutTextFront(s: string, b0: string, ps: seq<(string, string)>)
    requires s != [] && TagAt(s) == 0 && Interleave(b0, ps) == s[1..] && TagFree(b0)
    requires forall i :: 0 <= i < |ps| ==> IsParagraphTag(ps[i].0)
    ensures Interleave([s[0]] + b0, ps) == s
    ensures TagFree([s[0]] + b0)
  {
    InterleaveCons(s[0], b0, ps);
    assert s == [s[0]] + s[1..];
    var rest := TextThenTag(b0, ps);
    TagFreeFront(s, b0, rest);
  }

  /** A character in front of the leading text is in front of the whole. */
  lemma InterleaveCons(c: char, b0: string, ps: seq<(string, string)>)
    ensures Interleave([c] + b0, ps) == [c] + Interleave(b0, ps)
  {
    if ps != [] {
      var rest := Interleave(ps[0].1, ps[1..]);
      assert [c] + b0 + ps[0].0 + rest == [c] + (b0 + ps[0].0 + rest);
    }
  }

  /** What follows the leading text of a cut starts with a tag's `<`. */
  lemma TextThenTag(b0: string, ps: seq<(string, string)>) returns (rest: string)
    requires forall i :: 0 <= i < |ps| ==> IsParagraphTag(ps[i].0)
    ensures Interleave(b0, ps) == b0 + rest
    ensures rest == [] || rest[0] == '<'
  {
    if ps == [] {
      rest := [];
    } else {
      assert IsParagraphTag(ps[0].0);
      rest := ps[0].0 + Interleave(ps[0].1, ps[1..]);
      assert b0 + ps[0].0 + Interleave(ps[0].1, ps[1..]) == b0 + rest;
    }
  }

  /** A tag-free text stays tag-free with the character before it put
      back, when no tag starts there and a `<` or the end follows. */
  lemma TagFreeFront(s: string, b0: string, rest: string)
    requires s != [] && s[1..] == b0 + rest
    requires TagFree(b0) && TagAt(s) == 0 && (rest == [] || rest[0] == '<')
    ensures TagFree([s[0]] + b0)
  {
    var a := [s[0]] + b0;
    assert s == a + rest;
    TagAtBoundary(a, rest);
    forall j | 0 <= j < |a| ensures TagAt(a[j..]) == 0 {
      if j > 0 {
        assert a[j..] == b0[j - 1..];
      }
    }
  }

  /** For every input, the pass outputs the texts of its cut. */
  lemma StripIsTextsOfCut(s: string)
    ensures StripParagraphTags(s) == Cut(s).0 + Texts(Cut(s).1)
  {
    StripKeepsTextsBetweenTags(Cut(s).0, Cut(s).1);
  }

  // ---------------------------------------------------------------------
  // Comment threads

  /** A comment ready to be written: its WordPress id and the value of its
      comment_parent element. */
  datatype CommentRecord = CommentRecord(wpId: nat, parent: int, comment: Comment)

  /** output_comment over a node's threads: each comment takes the next
      comment id (`last + 1`, the id NextCommentId hands out after `last`),
      then its replies follow it, with the comment's source id
      (not its WordPress id) as their parent; roots have parent 0. */
  function EmitComments(cs: seq<Comment>, parent: int, last: nat): seq<CommentRecord>
    decreases cs
  {
    if cs == [] then []
    else
      var replies := EmitComments(cs[0].replies, cs[0].id, last + 1);
      [CommentRecord(last + 1, parent, cs[0])] + replies
        + EmitComments(cs[1..], parent, last + 1 + |replies|)
  }

  /** Reference order: each comment paired with its parent's source id, a
      comment before its replies and its replies before its next sibling. */
  function PreOrder(cs: seq<Comment>, parent: int): seq<(Comment, int)>
    decreases cs
  {
    if cs == [] then []
    else [(cs[0], parent)] + PreOrder(cs[0].replies, cs[0].id) + PreOrder(cs[1..], parent)
  }

  /** Emission numbers the pre-order of the threads consecutively from the
      counter onwards. */
  lemma {:induction false} EmitIsNumberedPreOrder(cs: seq<Comment>, parent: int, last: nat)
    ensures |EmitComments(cs, parent, last)| == |PreOrder(cs, parent)|
    ensures forall i :: 0 <= i < |PreOrder(cs, parent)| ==>
              EmitComments(cs, parent, last)[i]
                == CommentRecord(last + 1 + i, PreOrder(cs, parent)[i].1, PreOrder(cs, parent)[i].0)
    decreases cs
  {
    if cs != [] {
      var c := cs[0];
      EmitIsNumberedPreOrder(c.replies, c.id, last + 1);
      var replies := EmitComments(c.replies, c.id, last + 1);
      EmitIsNumberedPreOrder(cs[1..], parent, last + 1 + |replies|);
      var e := EmitComments(cs, parent, last);
      var p := PreOrder(cs, parent);
      var r1 := PreOrder(c.replies, c.id);
      var r2 := PreOrder(cs[1..], parent);
      var siblings := EmitComments(cs[1..], parent, last + 1 + |replies|);
      assert e == [CommentRecord(last + 1, parent, c)] + replies + siblings;
      assert p == [(c, parent)] + r1 + r2;
      forall i | 0 <= i < |p|
        ensures e[i] == CommentRecord(last + 1 + i, p[i].1, p[i].0)
      {
        if i == 0 {
        } else if i <= |r1| {
          assert e[i] == replies[i - 1];
          assert p[i] == r1[i - 1];
        } else {
          assert e[i] == siblings[i - 1 - |r1|];
          assert p[i] == r2[i - 1 - |r1|];
        }
      }
    }
  }

  /** Record `i` answers record `j`: `j` comes first, has `i`'s comment
      among its replies, and its source id is `i`'s parent. */
  predicate ReplyOf(rs: seq<CommentRecord>, j: int, i: int) {
    0 <= j < i < |rs| && rs[i].parent == rs[j].comment.id && rs[i].comment in rs[j].comment.replies
  }

  /** The same relation on the reference order. */
  predicate AnswersEarlier(po: seq<(Comment, int)>, j: int, i: int) {
    0 <= j < i < |po| && po[i].1 == po[j].0.id && po[i].0 in po[j].0.replies
  }

  /** Entry `i` of the reference order is a top-level comment with the
      given parent, or answers an earlier entry. */
  predicate PlacedInOrder(po: seq<(Comment, int)>, i: int, cs: seq<Comment>, parent: int)
    requires 0 <= i < |po|
  {
    (po[i].1 == parent && po[i].0 in cs) || exists j :: 0 <= j < i && AnswersEarlier(po, j, i)
  }

  /** In the reference order every entry is a top-level comment under the
      given parent, or answers an entry before it. */
  lemma {:induction false} PreOrderParents(cs: seq<Comment>, parent: int)
    ensures forall i :: 0 <= i < |PreOrder(cs, parent)| ==> PlacedInOrder(PreOrder(cs, parent), i, cs, parent)
    decreases cs
  {
    if cs != [] {
      var c := cs[0];
      var r1 := PreOrder(c.replies, c.id);
      var r2 := PreOrder(cs[1..], parent);
      PreOrderParents(c.replies, c.id);
      PreOrderParents(cs[1..], parent);
      var p := PreOrder(cs, parent);
      assert p == [(c, parent)] + r1 + r2;
      forall i | 0 <= i < |p| ensures PlacedInOrder(p, i, cs, parent) {
        if i == 0 {
          assert p[0].0 in cs;
        } else if i <= |r1| {
          assert p[i] == r1[i - 1];
          assert PlacedInOrder(r1, i - 1, c.replies, c.id);
          if r1[i - 1].1 == c.id && r1[i - 1].0 in c.replies {
            assert AnswersEarlier(p, 0, i);
          } else {
            var j :| 0 <= j < i - 1 && AnswersEarlier(r1, j, i - 1);
            assert p[j + 1] == r1[j];
            assert AnswersEarlier(p, j + 1, i);
          }
        } else {
          var k := i - 1 - |r1|;
          assert p[i] == r2[k];
          assert PlacedInOrder(r2, k, cs[1..], parent);
          if r2[k].1 == parent && r2[k].0 in cs[1..] {
            assert r2[k].0 in cs;
          } else {
            var j :| 0 <= j < k && AnswersEarlier(r2, j, k);
            assert p[j + 1 + |r1|] == r2[j];
            assert AnswersEarlier(p, j + 1 + |r1|, i);
          }
        }
      }
    }
  }

  /** Every emitted comment is either one of the node's top-level comments,
      with comment_parent 0, or a reply whose comment_parent is the source
      id of the comment it answers, which was emitted before it under its
      own (different) WordPress id. */
  lemma ReplyParentIsSourceId(cs: seq<Comment>, last: nat)
    ensures var e := EmitComments(cs, 0, last);
            forall i :: 0 <= i < |e| ==>
              (e[i].parent == 0 && e[i].comment in cs) || exists j :: ReplyOf(e, j, i)
  {
    var e := EmitComments(cs, 0, last);
    var po := PreOrder(cs, 0);
    EmitIsNumberedPreOrder(cs, 0, last);
    PreOrderParents(cs, 0);
    forall i | 0 <= i < |e| ensures (e[i].parent == 0 && e[i].comment in cs) || exists j :: ReplyOf(e, j, i) {
      assert PlacedInOrder(po, i, cs, 0);
      if !(po[i].1 == 0 && po[i].0 in cs) {
        var j :| 0 <= j < i && AnswersEarlier(po, j, i);
        assert e[i] == CommentRecord(last + 1 + i, po[i].1, po[i].0);
        assert e[j] == CommentRecord(last + 1 + j, po[j].1, po[j].0);
        assert ReplyOf(e, j, i);
      }
    }
  }

  /** For instance, a reply to source comment 7 names 7 as its parent
      although comment 7 itself was written as WordPress comment 1. */
  lemma ReplyParentExample(reply: Comment, root: Comment)
    requires root.id == 7 && reply.replies == [] && root.replies == [reply]
    ensures EmitComments([root], 0, 0)
              == [CommentRecord(1, 0, root), CommentRecord(2, 7, reply)]
  {
    assert [root][1..] == [];
    assert [reply][1..] == [];
    assert EmitComments([reply], 7, 1) == [CommentRecord(2, 7, reply)];
  }

  /** The calendar formats the source takes from Ruby's Time (httpdate and
      the `%Y-%m-%d %H:%M:%S` local and UTC forms), and File.basename
      without the extension. */
  datatype Env = Env(
    httpDate: int -> string,
    wpDate: int -> string,
    wpDateGmt: int -> string,
    basenameNoExt: string -> string)

  function ContentValue(content: Option<string>): (v: Value)
    ensures ToS(v) == content.GetOr("")
  {
    match content
    case None => Nil
    case Some(s) => Str(s)
  }

  /** One element on a line of its own inside an item or comment: a plain
      leaf, or a CDATA leaf. */
  datatype Field = Field(ns: Option<string>, name: string, attrs: Attrs, value: Value, cdata: bool)

  function FieldOp(f: Field): (op: Op)
    ensures Depth(op) == 0
  {
    if f.cdata then Cdata(f.ns, f.name, f.attrs, f.value) else Leaf(f.ns, f.name, f.attrs, f.value)
  }

  /** Calls that neither open nor close an element. */
  predicate Flat(ops: seq<Op>) {
    forall i :: 0 <= i < |ops| ==> Depth(ops[i]) == 0
  }

  function FieldOps(fs: seq<Field>): (ops: seq<Op>)
    ensures |ops| == |fs| && Flat(ops)
    decreases |fs|
  {
    if fs == [] then []
    else
      var ops := [FieldOp(fs[0])] + FieldOps(fs[1..]);
      assert forall i :: 1 <= i < |ops| ==> ops[i] == FieldOps(fs[1..])[i - 1];
      ops
  }

  lemma {:induction false} FieldOpsAt(fs: seq<Field>, i: nat)
    requires i < |fs|
    ensures FieldOps(fs)[i] == FieldOp(fs[i])
    decreases i
  {
    if i > 0 {
      FieldOpsAt(fs[1..], i - 1);
    }
  }

  function Wp(name: string, value: Value): Field {
    Field(Prefix(WordPress), name, [], value, false)
  }

  function RssField(name: string, value: Value): Field {
    Field(Prefix(Rss), name, [], value, false)
  }

  function WpLeaf(name: string, value: Value): Op {
    Leaf(Prefix(WordPress), name, [], value)
  }

  /** An element holding the given fields: it closes what it opens. */
  function Element(ns: Option<string>, name: string, fs: seq<Field>): (ops: seq<Op>)
    ensures NetDepth(ops) == 0
    ensures |ops| == |fs| + 2
  {
    var body := FieldOps(fs);
    FlatDepth(body);
    NetDepthConcat([Start(ns, name, [])], body);
    NetDepthConcat([Start(ns, name, [])] + body, [End(ns, name)]);
    [Start(ns, name, [])] + body + [End(ns, name)]
  }

  lemma ElementAt(ns: Option<string>, name: string, fs: seq<Field>, i: nat)
    requires i < |fs|
    ensures Element(ns, name, fs)[i + 1] == FieldOp(fs[i])
  {
    FieldOpsAt(fs, i);
  }

  lemma ElementHas(ns: Option<string>, name: string, fs: seq<Field>, i: nat)
    requires i < |fs|
    ensures FieldOp(fs[i]) in Element(ns, name, fs)
  {
    ElementAt(ns, name, fs, i);
  }

  /** Calls that neither start nor end an element leave the depth alone. */
  lemma {:induction false} FlatDepth(ops: seq<Op>)
    requires Flat(ops)
    ensures NetDepth(ops) == 0
    decreases |ops|
  {
    if ops != [] {
      assert Depth(ops[0]) == 0;
      FlatDepth(ops[1..]);
    }
  }

  /** The fields of a comment: the Drupal id unless it is a Disqus comment,
      then the WordPress fields. */
  function CommentFields(env: Env, r: CommentRecord): seq<Field> {
    var c := r.comment;
    (if c.id != DisqusCommentId then [Field(Prefix(Drupal), "drupal_comment_id", [], Int(c.id), false)] else [])
    + [ Wp("comment_id", Int(r.wpId)),
        Wp("comment_author", Str(c.posterName)),
        Wp("comment_author_email", Str(c.posterEmail)),
        Wp("comment_author_url", Str(c.posterUrl)),
        Wp("comment_author_IP", Str(c.hostname)),
        Wp("comment_date", Str(env.wpDate(c.timestamp))),
        Wp("comment_date_gmt", Str(env.wpDateGmt(c.timestamp))),
        Field(Prefix(WordPress), "comment_content", [],
              ContentValue(PostprocessContent(InjectSubject(c.title, c.content))), true),
        Wp("comment_approved", Str(if c.published then "1" else "0")),
        Wp("comment_type", Str("")),
        Wp("comment_parent", Int(r.parent)) ]
  }

  /** output_comment for one comment (its replies come as later records). */
  function CommentOps(env: Env, r: CommentRecord): seq<Op> {
    Element(Prefix(WordPress), "comment", CommentFields(env, r))
  }

  /** The Drupal comment id is written exactly for comments that have one:
      Disqus comments carry the placeholder id and get no such element. */
  lemma DrupalCommentIdIff(env: Env, r: CommentRecord)
    ensures (exists v :: Leaf(Prefix(Drupal), "drupal_comment_id", [], v) in CommentOps(env, r))
              <==> r.comment.id != DisqusCommentId
    ensures r.comment.id != DisqusCommentId ==>
              Leaf(Prefix(Drupal), "drupal_comment_id", [], Int(r.comment.id)) in CommentOps(env, r)
  {
    var fs := CommentFields(env, r);
    var ops := CommentOps(env, r);
    if r.comment.id != DisqusCommentId {
      ElementAt(Prefix(WordPress), "comment", fs, 0);
    } else {
      forall i | 0 <= i < |fs| ensures fs[i].name != "drupal_comment_id" {
      }
      forall v ensures Leaf(Prefix(Drupal), "drupal_comment_id", [], v) !in ops {
        forall i | 0 <= i < |ops| ensures ops[i] != Leaf(Prefix(Drupal), "drupal_comment_id", [], v) {
          if 0 < i < |ops| - 1 {
            ElementAt(Prefix(WordPress), "comment", fs, i - 1);
          }
        }
      }
    }
  }

  /** Each comment's element holds its WordPress id and its parent, and
      closes what it opens. */
  lemma CommentOpsCarryIds(env: Env, r: CommentRecord)
    ensures WpLeaf("comment_id", Int(r.wpId)) in CommentOps(env, r)
    ensures WpLeaf("comment_parent", Int(r.parent)) in CommentOps(env, r)
    ensures NetDepth(CommentOps(env, r)) == 0
  {
    var fs := CommentFields(env, r);
    var ops := CommentOps(env, r);
    var k := if r.comment.id != DisqusCommentId then 1 else 0;
    assert fs[k] == Wp("comment_id", Int(r.wpId));
    ElementAt(Prefix(WordPress), "comment", fs, k);
    assert fs[k + 10] == Wp("comment_parent", Int(r.parent));
    ElementAt(Prefix(WordPress), "comment", fs, k + 10);
  }

  function ForestOps(env: Env, rs: seq<CommentRecord>): seq<Op>
    decreases |rs|
  {
    if rs == [] then [] else CommentOps(env, rs[0]) + ForestOps(env, rs[1..])
  }

  /** The comment elements of a node close everything they open. */
  lemma {:induction false} ForestBalanced(env: Env, rs: seq<CommentRecord>)
    ensures NetDepth(ForestOps(env, rs)) == 0
    decreases |rs|
  {
    if rs != [] {
      ForestBalanced(env, rs[1..]);
      NetDepthConcat(CommentOps(env, rs[0]), ForestOps(env, rs[1..]));
    }
  }

  // ---------------------------------------------------------------------
  // Links

  /** clean_url: spaces become `+`. */
  function CleanUrl(link: string): (r: string)
    ensures |r| == |link|
    ensures forall i :: 0 <= i < |link| ==> r[i] == (if link[i] == ' ' then '+' else link[i])
  {
    ReplaceCharPointwise(link, ' ', '+');
    ReplaceChar(link, ' ', "+")
  }

  /** Where `node\/(\d)+$` matches: `node/` followed by nothing but digits
      (at least one) up to the end of the path. */
  predicate NodeTailAt(p: string, i: int) {
    0 <= i && i + 5 < |p| && p[i..i + 5] == "node/" && AllDigits(p[i + 5..])
  }

  /** The rewrite of a link's path: `sub(/node\/(\d)+$/, '\1')`. The group
      is repeated, so it captures the LAST digit only; the rest of the
      path before the match is kept. */
  function RewriteNodeIdPath(p: string): string
    decreases |p|
  {
    if |p| < 6 then p
    else if NodeTailAt(p, 0) then [p[|p| - 1]]
    else [p[0]] + RewriteNodeIdPath(p[1..])
  }

  /** A path that ends in `node/` and a number comes out as the text before
      it followed by the number's last digit. */
  lemma {:induction false} RewriteKeepsLastDigit(q: string, n: nat)
    ensures RewriteNodeIdPath(q + CanonicalNodePath(n)) == q + [DigitChar(n % 10)]
    decreases |q|
  {
    var c := CanonicalNodePath(n);
    NodePathShape(n);
    if q == [] {
      assert q + c == c;
    } else {
      var p := q + c;
      SlashBlocksTail(q, c);
      assert p[1..] == q[1..] + c;
      RewriteKeepsLastDigit(q[1..], n);
    }
  }

  /** A node path is `node/`, then digits, the last of them the id's last digit. */
  lemma NodePathShape(n: nat)
    ensures var c := CanonicalNodePath(n);
            && NodeTailAt(c, 0)
            && c[4] == '/'
            && c[|c| - 1] == DigitChar(n % 10)
  {
    var digits := NatToString(n);
    var c := CanonicalNodePath(n);
    assert c == "node/" + digits;
    assert c[0..5] == "node/" && c[5..] == digits;
    if n >= 10 {
      assert digits == NatToString(n / 10) + [DigitChar(n % 10)];
    }
  }

  /** A match cannot start in front of the `/` of a later `node/`. */
  lemma SlashBlocksTail(q: string, c: string)
    requires q != [] && |c| >= 5 && c[4] == '/'
    ensures !NodeTailAt(q + c, 0)
  {
    var p := q + c;
    assert p[5..][|q| - 1] == '/';
  }

  /** A link to node 123 is rewritten to `3`, which is not the post name
      (`node-123`) the node itself is written with. */
  lemma LinkRewriteMissesPostName()
    ensures RewriteNodeIdPath(CanonicalNodePath(123)) == "3"
    ensures ReplaceChar(CanonicalNodePath(123), '/', "-") == "node-123"
  {
    RewriteOfNode123();
    PostNameOfNode123();
  }

  lemma RewriteOfNode123()
    ensures RewriteNodeIdPath(CanonicalNodePath(123)) == "3"
  {
    RewriteKeepsLastDigit("", 123);
    assert "" + CanonicalNodePath(123) == CanonicalNodePath(123);
  }

  lemma PostNameOfNode123()
    ensures ReplaceChar(CanonicalNodePath(123), '/', "-") == "node-123"
  {
    assert NatToString(123) == "123" by {
      assert NatToString(12) == "12";
    }
    CanonicalName(123);
  }

  /** The `/` of a node path becomes `-`; the digits stay. */
  lemma CanonicalName(nid: nat)
    ensures ReplaceChar(CanonicalNodePath(nid), '/', "-") == "node-" + NatToString(nid)
  {
    var d := NatToString(nid);
    DigitsHaveNoSlash(d);
    assert CanonicalNodePath(nid) == "node" + ("/" + d);
    ReplaceCharConcat("node", "/" + d, '/', "-");
    ReplaceCharConcat("/", d, '/', "-");
    assert ReplaceChar("node", '/', "-") == "node";
    assert ReplaceChar(d, '/', "-") == d;
    assert ReplaceChar("/", '/', "-") == "-" by {
      assert "/"[1..] == [];
    }
  }

  lemma DigitsHaveNoSlash(d: string)
    requires AllDigits(d)
    ensures '/' !in d
  {
    assert forall i :: 0 <= i < |d| ==> d[i] != '/';
  }

  /** The outcome of verifying one link: the link to write, and the
      warning logged about it, if any. */
  datatype LinkCheck = LinkCheck(link: string, warning: Option<string>)

  function InvalidLinkWarning(link: string): string {
    "Link '" + link + "' is not a valid URL"
  }

  function DanglingLinkWarning(link: string): string {
    "Link '" + link + "' looks like an internal site link but it doesn't correspond to any Drupal content"
  }

  /** verify_node_link: the cleaned link stays unless it names internal
      content, in which case it is made relative to the page and a
      node-id path is rewritten. An invalid URL is warned about and kept;
      any other exception propagates. */
  function VerifyNodeLink(lib: UriLib, site: Site, nodeAbsUrl: string, link: string): (r: Outcome<LinkCheck>)
    ensures r.Raised? ==> r.failure != InvalidUriError
    ensures r.Done? && r.value.warning.Some? ==> r.value.link == CleanUrl(link)
    ensures IsInternalUrl(lib, site.base, nodeAbsUrl, CleanUrl(link)) == Done(false) ==>
              r == Done(LinkCheck(CleanUrl(link), None))
    ensures IsInternalUrl(lib, site.base, nodeAbsUrl, CleanUrl(link)) == Raised(InvalidUriError) ==>
              r == Done(LinkCheck(CleanUrl(link), Some(InvalidLinkWarning(CleanUrl(link)))))
    ensures IsInternalUrl(lib, site.base, nodeAbsUrl, CleanUrl(link)) == Done(true)
              && InternalObjectUrl(lib, site, nodeAbsUrl, CleanUrl(link)) == Done(None) ==>
              r == Done(LinkCheck(CleanUrl(link), Some(DanglingLinkWarning(CleanUrl(link)))))
  {
    var cleaned := CleanUrl(link);
    var invalid := Done(LinkCheck(cleaned, Some(InvalidLinkWarning(cleaned))));
    match IsInternalUrl(lib, site.base, nodeAbsUrl, cleaned)
    case Raised(e) => if e == InvalidUriError then invalid else Raised(e)
    case Done(false) => Done(LinkCheck(cleaned, None))
    case Done(true) =>
      match InternalObjectUrl(lib, site, nodeAbsUrl, cleaned)
      case Raised(e) => if e == InvalidUriError then invalid else Raised(e)
      case Done(None) => Done(LinkCheck(cleaned, Some(DanglingLinkWarning(cleaned))))
      case Done(Some(target)) =>
        match lib.parse(nodeAbsUrl)
        case None => invalid
        case Some(page) =>
          var routed := lib.routeTo(page, target);
          Done(LinkCheck(lib.toS(routed.(path := RewriteNodeIdPath(routed.path))), None))
  }

  /** The first of `outs` (in order) that raised, at index k. */
  predicate FirstRaised<T>(outs: seq<Outcome<T>>, k: int) {
    && 0 <= k < |outs|
    && outs[k].Raised?
    && forall j :: 0 <= j < k ==> outs[j].Done?
  }

  /** A loop whose steps have the outcomes `outs`: the values of all steps,
      or the exception of the first step that raised. */
  function Collect<T>(outs: seq<Outcome<T>>): (r: Outcome<seq<T>>)
    ensures r.Done? ==> |r.value| == |outs| && forall i :: 0 <= i < |outs| ==> outs[i] == Done(r.value[i])
    ensures r.Raised? <==> exists i :: 0 <= i < |outs| && outs[i].Raised?
    ensures forall k :: FirstRaised(outs, k) ==> r == Raised(outs[k].failure)
    decreases |outs|
  {
    if outs == [] then Done([])
    else
      match outs[0]
      case Raised(e) =>
        assert forall k :: FirstRaised(outs, k) ==> k == 0;
        Raised(e)
      case Done(first) =>
        assert forall i :: 1 <= i < |outs| ==> outs[i] == outs[1..][i - 1];
        assert forall k :: FirstRaised(outs, k) ==> k >= 1 && FirstRaised(outs[1..], k - 1);
        match Collect(outs[1..])
        case Raised(e) => Raised(e)
        case Done(rest) => Done([first] + rest)
  }

  /** The outcome of verify_node_link for each link, in order. */
  function LinkOutcomes(lib: UriLib, site: Site, nodeAbsUrl: string, links: seq<string>): (o: seq<Outcome<LinkCheck>>)
    ensures |o| == |links|
    ensures forall i :: 0 <= i < |links| ==> o[i] == VerifyNodeLink(lib, site, nodeAbsUrl, links[i])
  {
    seq(|links|, i requires 0 <= i < |links| => VerifyNodeLink(lib, site, nodeAbsUrl, links[i]))
  }

  /** verify_node_links over the href values of all `a` elements of a
      node's content, then the src values of all `img` elements: each
      link's check in turn, the first exception that propagates stopping
      it. */
  function VerifyNodeLinks(lib: UriLib, site: Site, nodeAbsUrl: string, links: seq<string>): (r: Outcome<seq<LinkCheck>>)
    ensures r.Done? ==> |r.value| == |links|
    ensures r.Done? ==> forall i :: 0 <= i < |links| ==>
              VerifyNodeLink(lib, site, nodeAbsUrl, links[i]) == Done(r.value[i])
    ensures r.Raised? <==> exists i :: 0 <= i < |links| && VerifyNodeLink(lib, site, nodeAbsUrl, links[i]).Raised?
    ensures forall k :: 0 <= k < |links| && VerifyNodeLink(lib, site, nodeAbsUrl, links[k]).Raised?
                        && (forall j :: 0 <= j < k ==> VerifyNodeLink(lib, site, nodeAbsUrl, links[j]).Done?) ==>
              r == Raised(VerifyNodeLink(lib, site, nodeAbsUrl, links[k]).failure)
  {
    var outs := LinkOutcomes(lib, site, nodeAbsUrl, links);
    var r := Collect(outs);
    assert r.Raised? ==> exists i :: 0 <= i < |outs| && outs[i].Raised?;
    assert forall k :: 0 <= k < |links| && outs[k].Raised? && (forall j :: 0 <= j < k ==> outs[j].Done?) ==>
             r == Raised(outs[k].failure) by {
      forall k | 0 <= k < |links| && outs[k].Raised? && (forall j :: 0 <= j < k ==> outs[j].Done?)
        ensures r == Raised(outs[k].failure)
      {
        assert FirstRaised(outs, k);
      }
    }
    r
  }

  // ---------------------------------------------------------------------
  // Nodes and attachments

  datatype Options = Options(baseUrl: string, commentsOpen: bool, pingsOpen: bool)

  datatype Attachment = Attachment(
    attachmentId: int,
    filename: string,
    filepath: string,
    description: string)

  /** A decoded node as the converter sees it, with its content as it
      stands after link verification. */
  datatype Node = Node(
    nodeId: int,
    title: string,
    relativeUrl: string,
    canonicalRelativeUrl: string,
    created: int,
    creator: Value,
    tags: seq<string>,
    content: Option<string>,
    published: bool,
    isPage: bool,
    comments: seq<Comment>,
    attachments: seq<Attachment>)

  function OpenOrClosed(b: bool): string {
    if b then "open" else "closed"
  }

  /** The post name: WordPress names cannot hold `/`, so a node without an
      alias (whose path is `node/<id>`) is named with `-` instead. */
  function PostName(n: Node): (r: string)
    ensures n.relativeUrl != n.canonicalRelativeUrl ==> r == n.relativeUrl
    ensures '/' !in r || n.relativeUrl != n.canonicalRelativeUrl
  {
    if n.relativeUrl == n.canonicalRelativeUrl then
      ReplaceCharPointwise(n.relativeUrl, '/', '-');
      var r := ReplaceChar(n.relativeUrl, '/', "-");
      assert forall i :: 0 <= i < |r| ==> r[i] != '/';
      r
    else n.relativeUrl
  }

  /** An unaliased node's post name is `node-` and its id. */
  lemma UnaliasedPostName(n: Node, nid: nat)
    requires n.relativeUrl == CanonicalNodePath(nid) && n.canonicalRelativeUrl == CanonicalNodePath(nid)
    ensures PostName(n) == "node-" + NatToString(nid)
  {
    CanonicalName(nid);
  }

  function TagFields(tags: seq<string>): (fs: seq<Field>)
    ensures |fs| == |tags|
    decreases |tags|
  {
    if tags == [] then []
    else [Field(Prefix(Rss), "category", [("domain", Str("tag"))], Str(tags[0]), false)] + TagFields(tags[1..])
  }

  /** The fields of a node's item, before its comments. */
  function NodeFields(env: Env, opts: Options, n: Node, postId: nat): seq<Field> {
    NodeLeadFields(env, opts, n) + TagFields(n.tags) + NodePostFields(env, opts, n, postId)
  }

  function NodeLeadFields(env: Env, opts: Options, n: Node): (fs: seq<Field>)
    ensures |fs| == 4
  {
    [ RssField("title", Str(n.title)),
      RssField("link", Str(opts.baseUrl + "/" + n.relativeUrl)),
      RssField("pubDate", Str(env.httpDate(n.created))),
      Field(Prefix(DublinCore), "creator", [], n.creator, false) ]
  }

  function NodePostFields(env: Env, opts: Options, n: Node, postId: nat): (fs: seq<Field>)
    ensures |fs| == 15
    ensures fs[4] == Wp("post_id", Int(postId))
    ensures fs[9] == Wp("post_name", Str(PostName(n)))
  {
    [ Field(Prefix(DublinCore), "guid", [("isPermalink", Str("false"))], Str(opts.baseUrl + "/" + n.canonicalRelativeUrl), false),
      RssField("description", Str("")),
      Field(Prefix(RssContent), "encoded", [], ContentValue(PostprocessContent(n.content)), true),
      Field(Prefix(Drupal), "drupal_node_id", [], Int(n.nodeId), false),
      Wp("post_id", Int(postId)),
      Wp("post_date", Str(env.wpDate(n.created))),
      Wp("post_date_gmt", Str(env.wpDateGmt(n.created))),
      Wp("comment_status", Str(OpenOrClosed(opts.commentsOpen))),
      Wp("ping_status", Str(OpenOrClosed(opts.pingsOpen))),
      Wp("post_name", Str(PostName(n))),
      Wp("status", Str(if n.published then "publish" else "draft")),
      Wp("post_parent", Str("0")),
      Wp("menu_order", Str("0")),
      Wp("post_type", Str(if n.isPage then "page" else "post")),
      Wp("post_password", Str("")) ]
  }

  /** The page template a page carries. */
  function PageMeta(): seq<Op> {
    Element(Prefix(WordPress), "postmeta", [Wp("meta_key", Str("_wp_page_template")), Wp("meta_value", Str("default"))])
  }

  /** The node's item: its fields, the page template for pages, and the
      comments, inside one `item` element. */
  function NodeItemOps(env: Env, opts: Options, n: Node, postId: nat, records: seq<CommentRecord>): (ops: seq<Op>)
    ensures NetDepth(ops) == 0
  {
    var fields := FieldOps(NodeFields(env, opts, n, postId));
    var meta := if n.isPage then PageMeta() else [];
    var forest := ForestOps(env, records);
    var open := [Start(Prefix(Rss), "item", [])];
    var close := [End(Prefix(Rss), "item")];
    FlatDepth(fields);
    ForestBalanced(env, records);
    NetDepthConcat(open, fields);
    NetDepthConcat(open + fields, meta);
    NetDepthConcat(open + fields + meta, forest);
    NetDepthConcat(open + fields + meta + forest, close);
    open + fields + meta + forest + close
  }

  /** A node's item carries the post id and post name the node was given. */
  lemma NodeItemFacts(env: Env, opts: Options, n: Node, postId: nat, records: seq<CommentRecord>)
    ensures WpLeaf("post_id", Int(postId)) in NodeItemOps(env, opts, n, postId, records)
    ensures WpLeaf("post_name", Str(PostName(n))) in NodeItemOps(env, opts, n, postId, records)
  {
    var post := NodePostFields(env, opts, n, postId);
    var head := NodeLeadFields(env, opts, n) + TagFields(n.tags);
    assert post[4] in head + post && post[9] in head + post;
    NodeItemHasField(env, opts, n, postId, records, post[4]);
    NodeItemHasField(env, opts, n, postId, records, post[9]);
  }

  /** Every field of the node is written inside its item. */
  lemma NodeItemHasField(env: Env, opts: Options, n: Node, postId: nat, records: seq<CommentRecord>, f: Field)
    requires f in NodeFields(env, opts, n, postId)
    ensures FieldOp(f) in NodeItemOps(env, opts, n, postId, records)
  {
    var fs := NodeFields(env, opts, n, postId);
    var i :| 0 <= i < |fs| && fs[i] == f;
    FieldOpsAt(fs, i);
    var fields := FieldOps(fs);
    assert FieldOp(f) in fields;
  }

  /** The fields of an attachment's item. */
  function AttachmentFields(env: Env, opts: Options, n: Node, a: Attachment, postId: nat, parentId: nat): seq<Field> {
    var url := opts.baseUrl + "/" + a.filepath;
    [ RssField("title", Str(a.filename)),
      RssField("link", Str(url)),
      RssField("pubDate", Str(env.httpDate(n.created))),
      Field(Prefix(DublinCore), "creator", [], n.creator, false),
      Field(Prefix(DublinCore), "guid", [("isPermalink", Str("false"))], Str(url), false),
      RssField("description", Str(a.description)),
      Field(Prefix(RssContent), "encoded", [], Str(""), false),
      Field(Prefix(Drupal), "drupal_attachment_id", [], Int(a.attachmentId), false),
      Wp("post_id", Int(postId)),
      Wp("post_date", Str(env.wpDate(n.created))),
      Wp("post_date_gmt", Str(env.wpDateGmt(n.created))),
      Wp("comment_status", Str(OpenOrClosed(opts.commentsOpen))),
      Wp("ping_status", Str(OpenOrClosed(opts.pingsOpen))),
      Wp("post_name", Str(env.basenameNoExt(a.filename))),
      Wp("status", Str("inherit")),
      Wp("post_parent", Int(parentId)),
      Wp("menu_order", Str("0")),
      Wp("post_type", Str("attachment")),
      Wp("attachment_url", Str(url)) ]
  }

  /** output_attachment: an item of its own. */
  function AttachmentOps(env: Env, opts: Options, n: Node, a: Attachment, postId: nat, parentId: nat): (ops: seq<Op>)
    ensures NetDepth(ops) == 0
  {
    Element(Prefix(Rss), "item", AttachmentFields(env, opts, n, a, postId, parentId))
  }

  /** An attachment's item names its own post id and the node's post as
      its parent. */
  lemma AttachmentItemFacts(env: Env, opts: Options, n: Node, a: Attachment, postId: nat, parentId: nat)
    ensures WpLeaf("post_id", Int(postId)) in AttachmentOps(env, opts, n, a, postId, parentId)
    ensures WpLeaf("post_parent", Int(parentId)) in AttachmentOps(env, opts, n, a, postId, parentId)
  {
    var fs := AttachmentFields(env, opts, n, a, postId, parentId);
    assert fs[8] == Wp("post_id", Int(postId)) && fs[15] == Wp("post_parent", Int(parentId));
    ElementHas(Prefix(Rss), "item", fs, 8);
    ElementHas(Prefix(Rss), "item", fs, 15);
  }

  /** `count` calls of get_next_post_id after `last`. */
  function TakePostIds(last: nat, count: nat): (ids: seq<nat>)
    ensures |ids| == count
    decreases count
  {
    if count == 0 then []
    else
      var (next, _) := NextPostId(Counters(last, 0));
      [next] + TakePostIds(next, count - 1)
  }

  /** The ids taken are the next `count` ones, in order. */
  lemma {:induction false} TakePostIdsConsecutive(last: nat, count: nat)
    ensures Consecutive(TakePostIds(last, count), last + 1)
    decreases count
  {
    if count > 0 {
      TakePostIdsConsecutive(last + 1, count - 1);
      ConsecutiveJoin([last + 1], TakePostIds(last + 1, count - 1), last + 1);
    }
  }

  /** `s` counts up by one from `first`. */
  predicate Consecutive(s: seq<nat>, first: nat) {
    forall k :: 0 <= k < |s| ==> s[k] == first + k
  }

  lemma ConsecutiveJoin(a: seq<nat>, b: seq<nat>, first: nat)
    requires Consecutive(a, first) && Consecutive(b, first + |a|)
    ensures Consecutive(a + b, first)
  {
    forall k | |a| <= k < |a + b| ensures (a + b)[k] == first + k {
      assert (a + b)[k] == b[k - |a|];
    }
  }

  /** The attachments' items, each with its own post id. */
  function AttachmentsOps(env: Env, opts: Options, n: Node, atts: seq<Attachment>, ids: seq<nat>, parentId: nat): (ops: seq<Op>)
    requires |ids| == |atts|
    ensures NetDepth(ops) == 0
    decreases |atts|
  {
    if atts == [] then []
    else
      var first := AttachmentOps(env, opts, n, atts[0], ids[0], parentId);
      var rest := AttachmentsOps(env, opts, n, atts[1..], ids[1..], parentId);
      NetDepthConcat(first, rest);
      first + rest
  }

  /** The ids a node is given: its post id, its attachments' post ids,
      its comments numbered in thread order, and the counters after. */
  datatype NodeIds = NodeIds(postId: nat, attachmentIds: seq<nat>, records: seq<CommentRecord>, after: Counters)

  /** The ids output_node takes: the node's post id first, then one comment
      id per comment, then one post id per attachment. */
  function AllocateNodeIds(n: Node, c: Counters): (ids: NodeIds)
    ensures |ids.attachmentIds| == |n.attachments|
  {
    var (postId, afterPost) := NextPostId(c);
    var records := EmitComments(n.comments, 0, afterPost.lastComment);
    var attachmentIds := TakePostIds(postId, |n.attachments|);
    NodeIds(postId, attachmentIds, records, Counters(postId + |n.attachments|, afterPost.lastComment + |records|))
  }

  /** A node's post id is the next one, its attachments take the ids right
      after it, and its comments take the next comment ids, one per comment
      of its threads in pre-order. */
  lemma AllocateNodeIdsFacts(n: Node, c: Counters)
    ensures var ids := AllocateNodeIds(n, c);
            && ids.postId == c.lastPost + 1
            && Consecutive(ids.attachmentIds, ids.postId + 1)
            && ids.after.lastPost == c.lastPost + 1 + |n.attachments|
            && ids.after.lastComment == c.lastComment + |PreOrder(n.comments, 0)|
            && |ids.records| == |PreOrder(n.comments, 0)|
            && (forall i :: 0 <= i < |ids.records| ==>
                  ids.records[i] == CommentRecord(c.lastComment + 1 + i, PreOrder(n.comments, 0)[i].1, PreOrder(n.comments, 0)[i].0))
  {
    EmitIsNumberedPreOrder(n.comments, 0, c.lastComment);
    TakePostIdsConsecutive(c.lastPost + 1, |n.attachments|);
  }

  /** output_node after decoding: the node's item with its comments, then
      one item per attachment; all of it closes what it opens. */
  function NodeOps(env: Env, opts: Options, n: Node, ids: NodeIds): (ops: seq<Op>)
    requires |ids.attachmentIds| == |n.attachments|
    ensures NetDepth(ops) == 0
  {
    var item := NodeItemOps(env, opts, n, ids.postId, ids.records);
    var atts := AttachmentsOps(env, opts, n, n.attachments, ids.attachmentIds, ids.postId);
    NetDepthConcat(item, atts);
    item + atts
  }

  /** Which nodes' conversion is written: a decoded node, or the exception
      that decoding it (or verifying its links) raised. Both happen before
      anything of the node is written. */
  datatype Converted = Decoded(node: Node) | Failed(nodeId: int, failure: Failure)

  /** The exceptions that stop the run: those do_node_conversion re-raises. */
  predicate Fatal(x: Converted) {
    x.Failed? && !Swallowed(x.failure)
  }

  /** How far the run gets: the index of the first input whose failure is
      re-raised, or the number of inputs when there is none. */
  function FirstFatal(inputs: seq<Converted>): (k: nat)
    ensures k <= |inputs|
    ensures k < |inputs| ==> Fatal(inputs[k])
    ensures forall i :: 0 <= i < k ==> !Fatal(inputs[i])
    decreases |inputs|
  {
    if inputs == [] then 0
    else if Fatal(inputs[0]) then 0
    else
      var k := FirstFatal(inputs[1..]);
      assert forall i :: 1 <= i < k + 1 ==> inputs[i] == inputs[1..][i - 1];
      k + 1
  }

  /** The decoded nodes among `inputs`, in order. */
  function DecodedNodes(inputs: seq<Converted>): seq<Node>
    decreases |inputs|
  {
    if inputs == [] then []
    else (if inputs[0].Decoded? then [inputs[0].node] else []) + DecodedNodes(inputs[1..])
  }

  /** The ids of the nodes among `inputs` that failed, in order. */
  function FailedIds(inputs: seq<Converted>): seq<int>
    decreases |inputs|
  {
    if inputs == [] then []
    else (if inputs[0].Failed? then [inputs[0].nodeId] else []) + FailedIds(inputs[1..])
  }

  /** Each node written with the ids it took. */
  type Written = seq<(Node, NodeIds)>

  predicate Allocated(w: Written) {
    forall i :: 0 <= i < |w| ==> |w[i].1.attachmentIds| == |w[i].0.attachments|
  }

  /** The course of a run: the nodes written with their ids, the counters
      after it, the nodes skipped, and the exception that stopped it. */
  datatype RunPlan = RunPlan(written: Written, counters: Counters, skipped: seq<int>, aborted: Option<Failure>)

  /** The loop over the nodes: a failure that do_node_conversion swallows
      skips the node; any other stops the run. */
  function PlanRun(inputs: seq<Converted>, c: Counters): (p: RunPlan)
    ensures Allocated(p.written)
    decreases |inputs|
  {
    if inputs == [] then RunPlan([], c, [], None)
    else
      match inputs[0]
      case Failed(nid, e) =>
        if Swallowed(e) then
          var rest := PlanRun(inputs[1..], c);
          rest.(skipped := [nid] + rest.skipped)
        else RunPlan([], c, [], Some(e))
      case Decoded(n) =>
        var ids := AllocateNodeIds(n, c);
        var rest := PlanRun(inputs[1..], ids.after);
        var w := [(n, ids)] + rest.written;
        assert forall i :: 1 <= i < |w| ==> w[i] == rest.written[i - 1];
        rest.(written := w)
  }

  /** The nodes written. */
  function WrittenNodes(w: Written): (ns: seq<Node>)
    ensures |ns| == |w|
    decreases |w|
  {
    if w == [] then [] else [w[0].0] + WrittenNodes(w[1..])
  }

  /** The post ids handed out, in order: each node's, then its attachments'. */
  function PostIds(w: Written): seq<nat>
    decreases |w|
  {
    if w == [] then [] else [w[0].1.postId] + w[0].1.attachmentIds + PostIds(w[1..])
  }

  /** The WordPress ids of comment records, in order. */
  function RecordIds(rs: seq<CommentRecord>): (ids: seq<nat>)
    ensures |ids| == |rs|
    ensures forall i :: 0 <= i < |rs| ==> ids[i] == rs[i].wpId
  {
    seq(|rs|, i requires 0 <= i < |rs| => rs[i].wpId)
  }

  /** The comment ids handed out, in order: each node's comments in thread
      order. */
  function CommentIds(w: Written): seq<nat>
    decreases |w|
  {
    if w == [] then [] else RecordIds(w[0].1.records) + CommentIds(w[1..])
  }

  /** What the written nodes produce, one after the other. */
  function WrittenOps(env: Env, opts: Options, w: Written): (ops: seq<Op>)
    requires Allocated(w)
    ensures NetDepth(ops) == 0
    decreases |w|
  {
    if w == [] then []
    else
      assert |w[0].1.attachmentIds| == |w[0].0.attachments|;
      AllocatedTail(w);
      var first := NodeOps(env, opts, w[0].0, w[0].1);
      var rest := WrittenOps(env, opts, w[1..]);
      NetDepthConcat(first, rest);
      first + rest
  }

  lemma AllocatedTail(w: Written)
    requires w != [] && Allocated(w)
    ensures Allocated(w[1..])
  {
    forall i | 0 <= i < |w[1..]| ensures |w[1..][i].1.attachmentIds| == |w[1..][i].0.attachments| {
      assert w[1..][i] == w[i + 1];
    }
  }

  /** A run over the nodes: what was written, the counters after it, every
      post id and every comment id handed out in order, the nodes skipped, and the exception
      that stopped the run, if any. */
  datatype RunResult = RunResult(ops: seq<Op>, counters: Counters, postIds: seq<nat>, commentIds: seq<nat>,
                                 skipped: seq<int>, aborted: Option<Failure>)

  /** Converting the nodes in order. The output closes what it opens. */
  function ConvertNodes(env: Env, opts: Options, inputs: seq<Converted>, c: Counters): (r: RunResult)
    ensures NetDepth(r.ops) == 0
  {
    var p := PlanRun(inputs, c);
    RunResult(WrittenOps(env, opts, p.written), p.counters, PostIds(p.written), CommentIds(p.written), p.skipped, p.aborted)
  }

  /** run: start the file, write the channel header and the nodes, end the
      file. The header is given as the calls it makes. An exception that
      escapes a node also escapes run, so the file is then left without its
      footer, inside the channel. */
  function RunDocument(env: Env, opts: Options, header: seq<Op>, inputs: seq<Converted>, c: Counters): (r: (Writer, RunResult))
    requires NetDepth(header) == 0
    ensures r.1 == ConvertNodes(env, opts, inputs, c)
    ensures |XmlDeclaration + OutputHead| <= |r.0.out| && r.0.out[..|XmlDeclaration + OutputHead|] == XmlDeclaration + OutputHead
    ensures r.1.aborted.None? ==>
              && r.0.indent == 0
              && |XmlDeclaration + OutputHead| + |OutputFoot| <= |r.0.out|
              && r.0.out[|r.0.out| - |OutputFoot|..] == OutputFoot
    ensures r.1.aborted.Some? ==> r.0.indent == 2
    ensures r.0.out == Run(StartFile(NewWriter()), header + r.1.ops).out
                       + (if r.1.aborted.None? then OutputFoot else [])
  {
    var result := ConvertNodes(env, opts, inputs, c);
    NetDepthConcat(header, result.ops);
    (WriteFile(header + result.ops, result.aborted.None?), result)
  }

  /** The run goes up to the first re-raised failure: it writes the decoded
      nodes before it, skips the failed ones before it, and stops with its
      exception; with no such failure it gets through every input. */
  lemma {:induction false} PlanRunOutcome(inputs: seq<Converted>, c: Counters)
    ensures var p := PlanRun(inputs, c);
            var k := FirstFatal(inputs);
            && WrittenNodes(p.written) == DecodedNodes(inputs[..k])
            && p.skipped == FailedIds(inputs[..k])
            && p.aborted == (if k < |inputs| then Some(inputs[k].failure) else None)
    decreases |inputs|
  {
    if inputs != [] && !Fatal(inputs[0]) {
      var k := FirstFatal(inputs);
      var c' := if inputs[0].Decoded? then AllocateNodeIds(inputs[0].node, c).after else c;
      PlanRunOutcome(inputs[1..], c');
      assert inputs[..k][1..] == inputs[1..][..k - 1];
      assert inputs[..k][0] == inputs[0];
    }
  }

  /** Across a run, post ids and comment ids are each handed out
      consecutively with no gaps for skipped nodes (so they are distinct
      and increasing), and each counter ends at the last one. */
  lemma {:induction false} PlanRunIds(inputs: seq<Converted>, c: Counters)
    ensures var p := PlanRun(inputs, c);
            && Consecutive(PostIds(p.written), c.lastPost + 1)
            && p.counters.lastPost == c.lastPost + |PostIds(p.written)|
            && p.counters.lastComment >= c.lastComment
            && Consecutive(CommentIds(p.written), c.lastComment + 1)
            && p.counters.lastComment == c.lastComment + |CommentIds(p.written)|
    decreases |inputs|
  {
    if inputs != [] {
      match inputs[0]
      case Failed(nid, e) =>
        if Swallowed(e) {
          PlanRunIds(inputs[1..], c);
        }
      case Decoded(n) =>
        var ids := AllocateNodeIds(n, c);
        AllocateNodeIdsFacts(n, c);
        var rest := PlanRun(inputs[1..], ids.after);
        PlanRunIds(inputs[1..], ids.after);
        var w := PlanRun(inputs, c).written;
        assert w[0] == (n, ids) && w[1..] == rest.written;
        ConsecutiveJoin([ids.postId], ids.attachmentIds, c.lastPost + 1);
        ConsecutiveJoin([ids.postId] + ids.attachmentIds, PostIds(rest.written), c.lastPost + 1);
        assert Consecutive(RecordIds(ids.records), c.lastComment + 1);
        ConsecutiveJoin(RecordIds(ids.records), CommentIds(rest.written), c.lastComment + 1);
    }
  }

  /** The run as a whole: consecutive post ids and comment ids, each
      counter at the last one, and the outcome decided by the first
      re-raised failure. */
  lemma ConvertNodesFacts(env: Env, opts: Options, inputs: seq<Converted>, c: Counters)
    ensures var r := ConvertNodes(env, opts, inputs, c);
            var k := FirstFatal(inputs);
            && Consecutive(r.postIds, c.lastPost + 1)
            && r.counters.lastPost == c.lastPost + |r.postIds|
            && Consecutive(r.commentIds, c.lastComment + 1)
            && r.counters.lastComment == c.lastComment + |r.commentIds|
            && r.skipped == FailedIds(inputs[..k])
            && r.aborted == (if k < |inputs| then Some(inputs[k].failure) else None)
  {
    PlanRunIds(inputs, c);
    PlanRunOutcome(inputs, c);
  }
}

=== FILE: reader_comments.dfy ===
/** ReaderComments: how the reader turns Drupal's flat comment table into
    a forest of replies, suppresses titles Drupal generated from the body,
    appends the comments migrated from Disqus, and picks a node's content
    from its latest revision. */
module ReaderComments {
  import opened Common
  import opened ReaderUrls

  /** Disqus comments carry no Drupal id and a fixed subject. */
  const DisqusCommentId: int := -1
  const DisqusCommentSubject: string := "Migrated Disqus comment"

  /** The marker Drupal puts between a teaser and the rest of a body. */
  const BreakMarker: string := "<!--break-->"

  /** A row of Drupal's comments table; `pid` is 0 for a root comment and
      otherwise the `cid` of the comment replied to. */
  datatype CommentRow = CommentRow(
    cid: int,
    pid: int,
    subject: string,
    format: int,
    body: string,
    hostname: string,
    timestamp: int,
    status: int,
    name: string,
    mail: string,
    homepage: string)

  /** A comment as the converter receives it. */
  datatype Comment = Comment(
    id: int,
    title: Option<string>,
    content: Option<string>,
    hostname: string,
    timestamp: int,
    published: bool,
    posterName: string,
    posterEmail: string,
    posterUrl: string,
    replies: seq<Comment>)

  /** The input-format ids bound to the textile and markdown filters, and
      the two converters (RedCloth and BlueCloth), which may raise. */
  datatype Formats = Formats(
    textile: seq<int>,
    markdown: seq<int>,
    textileToHtml: string -> Outcome<string>,
    markdownToHtml: string -> Outcome<string>)

  /** decode_content_format: textile formats take precedence over markdown
      ones; any other format is returned verbatim. */
  function DecodeContentFormat(f: Formats, format: int, content: string): (r: Outcome<string>)
    ensures format !in f.textile && format !in f.markdown ==> r == Done(content)
    ensures format in f.textile ==> r == f.textileToHtml(content)
    ensures format !in f.textile && format in f.markdown ==> r == f.markdownToHtml(content)
  {
    if format in f.textile then f.textileToHtml(content)
    else if format in f.markdown then f.markdownToHtml(content)
    else Done(content)
  }

  /** A comment's content: decoded, or the raw body when decoding raises a
      StandardError (the only kind a bare `rescue` catches). */
  function CommentContent(f: Formats, row: CommentRow): (r: Outcome<string>)
    ensures r.Raised? ==> !r.failure.IsStandard()
    ensures DecodeContentFormat(f, row.format, row.body).Done? ==> r == DecodeContentFormat(f, row.format, row.body)
    ensures r.Done? && DecodeContentFormat(f, row.format, row.body).Raised? ==> r.value == row.body
  {
    match DecodeContentFormat(f, row.format, row.body)
    case Done(c) => Done(c)
    case Raised(e) => if e.IsStandard() then Done(row.body) else Raised(e)
  }

  function IndexOf(s: string, c: char): (i: nat)
    requires c in s
    ensures i < |s| && s[i] == c && c !in s[..i]
  {
    if s[0] == c then 0 else 1 + IndexOf(s[1..], c)
  }

  /** `gsub(/<\/?[^>]*>/, "")`: every `<` that has a `>` after it is removed
      together with everything up to and including the first such `>`. */
  function StripTags(s: string): string
    decreases |s|
  {
    if s == [] then []
    else if s[0] == '<' && '>' in s[1..] then StripTags(s[IndexOf(s[1..], '>') + 2..])
    else [s[0]] + StripTags(s[1..])
  }

  lemma {:induction false} StripTagsKeepsAbsence(s: string, c: char)
    requires c !in s
    ensures c !in StripTags(s)
    decreases |s|
  {
    if s != [] {
      if s[0] == '<' && '>' in s[1..] {
        var k := IndexOf(s[1..], '>') + 2;
        assert forall j :: 0 <= j < |s[k..]| ==> s[k..][j] == s[j + k];
        StripTagsKeepsAbsence(s[k..], c);
      } else {
        assert forall j :: 0 <= j < |s[1..]| ==> s[1..][j] == s[j + 1];
        StripTagsKeepsAbsence(s[1..], c);
      }
    }
  }

  /** No `<` in `r` is followed, anywhere later, by a `>`. */
  predicate NoTag(r: string) {
    forall i, j :: 0 <= i < j < |r| && r[i] == '<' ==> r[j] != '>'
  }

  /** No tag survives the stripping. */
  lemma {:induction false} StripTagsLeavesNoTag(s: string)
    ensures NoTag(StripTags(s))
    decreases |s|
  {
    if s != [] {
      if s[0] == '<' && '>' in s[1..] {
        var k := IndexOf(s[1..], '>') + 2;
        assert StripTags(s) == StripTags(s[k..]);
        StripTagsLeavesNoTag(s[k..]);
      } else {
        StripTagsLeavesNoTag(s[1..]);
        var rest := StripTags(s[1..]);
        var r := StripTags(s);
        assert r == [s[0]] + rest;
        if s[0] == '<' {
          StripTagsKeepsAbsence(s[1..], '>');
        }
        forall i, j | 0 <= i < j < |r| && r[i] == '<' ensures r[j] != '>' {
          assert r[j] == rest[j - 1];
          if i > 0 {
            assert r[i] == rest[i - 1];
          }
        }
      }
    }
  }

  /** Text without a `<` is left as it is. */
  lemma {:induction false} StripTagsPlain(s: string)
    requires '<' !in s
    ensures StripTags(s) == s
    decreases |s|
  {
    if s != [] {
      assert '<' !in s[1..] by {
        forall j | 0 <= j < |s[1..]| ensures s[1..][j] != '<' {
          assert s[1..][j] == s[j + 1];
        }
      }
      StripTagsPlain(s[1..]);
    }
  }

  /** Ruby's `s[0..last]`: a negative `last` counts from the end, and the
      range is cut at the end of the string. */
  function RubyPrefixThrough(s: string, last: int): string {
    var end := if last < 0 then |s| + last + 1 else last + 1;
    if end <= 0 then [] else if end <= |s| then s[..end] else s
  }

  /** Drupal fills an empty subject with the start of the body, stripped of
      markup; such a generated title is dropped. */
  predicate SuppressesTitle(title: string, content: Option<string>) {
    && content.Some?
    && |content.value| >= |title|
    && title == RubyPrefixThrough(StripTags(content.value), |title| - 1)
  }

  /** The title is dropped exactly when the content is long enough and its
      stripped text starts with the title; an empty title is dropped only
      when the stripped content is empty, because `[0..-1]` is the whole
      string. */
  lemma TitleSuppressionIff(title: string, content: Option<string>)
    ensures SuppressesTitle(title, content) <==>
              && content.Some?
              && |content.value| >= |title|
              && (title == [] ==> StripTags(content.value) == [])
              && (title != [] ==> StartsWith(StripTags(content.value), title))
  {
  }

  /** A comment built from its row, its content and its replies. */
  function BuildComment(row: CommentRow, content: string, replies: seq<Comment>): (c: Comment)
    ensures c.id == row.cid && c.replies == replies && c.content == Some(content)
    ensures c.title.None? <==> SuppressesTitle(row.subject, Some(content))
    ensures c.title.Some? ==> c.title.value == row.subject
    ensures c.published <==> row.status == 0
  {
    Comment(
      row.cid,
      if SuppressesTitle(row.subject, Some(content)) then None else Some(row.subject),
      Some(content),
      row.hostname,
      row.timestamp,
      row.status == 0,
      row.name,
      row.mail,
      row.homepage,
      replies)
  }

  /** get_comments_for_parent: the comments whose parent is `pid`, each
      with its own replies. `fuel` is the depth of recursion Ruby's stack
      allows; running out raises SystemStackError, which is what a cycle
      in the parent relation leads to. */
  function CommentsForParent(f: Formats, rows: seq<CommentRow>, pid: int, fuel: nat): Outcome<seq<Comment>>
    decreases fuel, 0, 0
  {
    if fuel == 0 then Raised(StackOverflow) else Children(f, rows, rows, pid, fuel - 1)
  }

  /** The scan over all rows that CommentsForParent performs; `rest` is
      what remains of it. */
  function Children(f: Formats, all: seq<CommentRow>, rest: seq<CommentRow>, pid: int, fuel: nat): Outcome<seq<Comment>>
    decreases fuel, 1, |rest|
  {
    if rest == [] then Done([])
    else if rest[0].pid != pid then Children(f, all, rest[1..], pid, fuel)
    else
      match CommentContent(f, rest[0])
      case Raised(e) => Raised(e)
      case Done(content) =>
        match CommentsForParent(f, all, rest[0].cid, fuel)
        case Raised(e) => Raised(e)
        case Done(replies) =>
          match Children(f, all, rest[1..], pid, fuel)
          case Raised(e) => Raised(e)
          case Done(more) => Done([BuildComment(rest[0], content, replies)] + more)
  }

  /** The rows whose parent is `pid`, in table order. */
  function ChildRows(rows: seq<CommentRow>, pid: int): (r: seq<CommentRow>)
    ensures forall i :: 0 <= i < |r| ==> r[i] in rows && r[i].pid == pid
  {
    if rows == [] then []
    else (if rows[0].pid == pid then [rows[0]] else []) + ChildRows(rows[1..], pid)
  }

  /** `c` is what the scan builds from `row`: its content decoded and its
      replies found by the recursion. */
  predicate Selected(f: Formats, all: seq<CommentRow>, row: CommentRow, fuel: nat, c: Comment) {
    && CommentContent(f, row).Done?
    && CommentsForParent(f, all, row.cid, fuel) == Done(c.replies)
    && c == BuildComment(row, CommentContent(f, row).value, c.replies)
  }

  lemma ChildrenHead(f: Formats, all: seq<CommentRow>, rest: seq<CommentRow>, pid: int, fuel: nat, cs: seq<Comment>)
    requires rest != [] && rest[0].pid == pid
    requires Children(f, all, rest, pid, fuel) == Done(cs)
    ensures CommentContent(f, rest[0]).Done?
    ensures CommentsForParent(f, all, rest[0].cid, fuel).Done?
    ensures Children(f, all, rest[1..], pid, fuel).Done?
    ensures cs == [BuildComment(rest[0], CommentContent(f, rest[0]).value, CommentsForParent(f, all, rest[0].cid, fuel).value)]
                  + Children(f, all, rest[1..], pid, fuel).value
  {
  }

  /** The scan returns exactly the rows with parent `pid`, in table order,
      each built from its row with the replies the recursion finds for it. */
  lemma {:induction false} ChildrenSelect(f: Formats, all: seq<CommentRow>, rest: seq<CommentRow>, pid: int, fuel: nat, cs: seq<Comment>)
    requires Children(f, all, rest, pid, fuel) == Done(cs)
    ensures |cs| == |ChildRows(rest, pid)|
    ensures forall i :: 0 <= i < |cs| ==> Selected(f, all, ChildRows(rest, pid)[i], fuel, cs[i])
    decreases |rest|
  {
    if rest != [] {
      if rest[0].pid != pid {
        assert Children(f, all, rest[1..], pid, fuel) == Done(cs);
        ChildrenSelect(f, all, rest[1..], pid, fuel, cs);
        assert ChildRows(rest, pid) == [] + ChildRows(rest[1..], pid);
        assert ChildRows(rest, pid) == ChildRows(rest[1..], pid);
      } else {
        ChildrenHead(f, all, rest, pid, fuel, cs);
        var more := Children(f, all, rest[1..], pid, fuel).value;
        ChildrenSelect(f, all, rest[1..], pid, fuel, more);
        SelectTake(f, all, rest, pid, fuel, cs, more);
      }
    }
  }

  lemma SelectTake(f: Formats, all: seq<CommentRow>, rest: seq<CommentRow>, pid: int, fuel: nat, cs: seq<Comment>, more: seq<Comment>)
    requires rest != [] && rest[0].pid == pid
    requires |cs| > 0 && Selected(f, all, rest[0], fuel, cs[0]) && cs[1..] == more
    requires |more| == |ChildRows(rest[1..], pid)|
    requires forall i :: 0 <= i < |more| ==> Selected(f, all, ChildRows(rest[1..], pid)[i], fuel, more[i])
    ensures |cs| == |ChildRows(rest, pid)|
    ensures forall i :: 0 <= i < |cs| ==> Selected(f, all, ChildRows(rest, pid)[i], fuel, cs[i])
  {
    var rows := ChildRows(rest, pid);
    var tail := ChildRows(rest[1..], pid);
    assert rows == [rest[0]] + tail;
    forall i | 0 <= i < |cs| ensures Selected(f, all, rows[i], fuel, cs[i]) {
      if i > 0 {
        assert cs[i] == more[i - 1];
        assert rows[i] == tail[i - 1];
      }
    }
  }

  /** With a rank that drops from every row's parent to the row, and
      enough stack for the rank of `pid`, the recursion terminates unless a
      decoder raises something outside StandardError. */
  lemma {:induction false} RankedRowsTerminate(f: Formats, rows: seq<CommentRow>, pid: int, fuel: nat, rank: int -> nat)
    requires forall i :: 0 <= i < |rows| ==> rank(rows[i].cid) < rank(rows[i].pid)
    requires forall i :: 0 <= i < |rows| ==> CommentContent(f, rows[i]).Done?
    requires rank(pid) < fuel
    ensures CommentsForParent(f, rows, pid, fuel).Done?
    decreases fuel, 0, 0
  {
    RankedChildrenTerminate(f, rows, rows, pid, fuel - 1, rank);
  }

  lemma {:induction false} RankedChildrenTerminate(f: Formats, all: seq<CommentRow>, rest: seq<CommentRow>, pid: int, fuel: nat, rank: int -> nat)
    requires forall i :: 0 <= i < |all| ==> rank(all[i].cid) < rank(all[i].pid)
    requires forall i :: 0 <= i < |all| ==> CommentContent(f, all[i]).Done?
    requires forall i :: 0 <= i < |rest| ==> rest[i] in all
    requires rank(pid) <= fuel
    ensures Children(f, all, rest, pid, fuel).Done?
    decreases fuel, 1, |rest|
  {
    if rest != [] {
      assert forall i :: 0 <= i < |rest[1..]| ==> rest[1..][i] in all by {
        forall i | 0 <= i < |rest[1..]| ensures rest[1..][i] in all {
          assert rest[1..][i] == rest[i + 1];
        }
      }
      RankedChildrenTerminate(f, all, rest[1..], pid, fuel, rank);
      if rest[0].pid == pid {
        assert rest[0] in all;
        var k :| 0 <= k < |all| && all[k] == rest[0];
        assert rank(rest[0].cid) < rank(pid);
        RankedRowsTerminate(f, all, rest[0].cid, fuel, rank);
      }
    }
  }

  /** Drupal numbers a reply after the comment it answers; then the forest
      is built with a stack as deep as the largest comment id. */
  lemma ParentsBeforeRepliesTerminate(f: Formats, rows: seq<CommentRow>, bound: nat)
    requires forall i :: 0 <= i < |rows| ==> 0 <= rows[i].pid < rows[i].cid <= bound
    requires forall i :: 0 <= i < |rows| ==> CommentContent(f, rows[i]).Done?
    ensures CommentsForParent(f, rows, 0, bound + 1).Done?
  {
    var rank: int -> nat := x => if 0 <= x <= bound then bound - x else 0;
    RankedRowsTerminate(f, rows, 0, bound + 1, rank);
  }

  lemma {:induction false} ChildrenRaisedIf(f: Formats, all: seq<CommentRow>, rest: seq<CommentRow>, pid: int, fuel: nat, j: nat)
    requires j < |rest| && rest[j].pid == pid
    requires CommentsForParent(f, all, rest[j].cid, fuel).Raised?
    ensures Children(f, all, rest, pid, fuel).Raised?
    decreases j
  {
    if j > 0 {
      ChildrenRaisedIf(f, all, rest[1..], pid, fuel, j - 1);
    }
  }

  /** A comment that names itself as its parent makes the recursion run
      out of stack however deep the stack is: nothing guards against cycles. */
  lemma {:induction false} SelfParentDiverges(f: Formats, rows: seq<CommentRow>, k: nat, fuel: nat)
    requires k < |rows| && rows[k].pid == rows[k].cid
    ensures CommentsForParent(f, rows, rows[k].cid, fuel).Raised?
    decreases fuel
  {
    if fuel > 0 {
      SelfParentDiverges(f, rows, k, fuel - 1);
      ChildrenRaisedIf(f, rows, rows, rows[k].cid, fuel - 1, k);
    }
  }

  /** Some row gives comment `cid` the parent `pid`. */
  predicate ChildOf(rows: seq<CommentRow>, cid: int, pid: int) {
    exists r :: r in rows && r.cid == cid && r.pid == pid
  }

  /** Rows `ks` form a chain, each the parent of the next, whose last row
      is the parent of the chain's row `m` again: a path into a cycle. */
  predicate Lasso(rows: seq<CommentRow>, ks: seq<nat>, m: nat) {
    && 0 < |ks| && m < |ks|
    && (forall i :: 0 <= i < |ks| ==> ks[i] < |rows|)
    && (forall i :: 0 < i < |ks| ==> rows[ks[i]].pid == rows[ks[i - 1]].cid)
    && rows[ks[m]].pid == rows[ks[|ks| - 1]].cid
  }

  /** Every comment along such a chain has a subtree that never ends. */
  lemma {:induction false} LassoDiverges(f: Formats, rows: seq<CommentRow>, ks: seq<nat>, m: nat, fuel: nat)
    requires Lasso(rows, ks, m)
    ensures forall i :: 0 <= i < |ks| ==> CommentsForParent(f, rows, rows[ks[i]].pid, fuel).Raised?
    decreases fuel
  {
    if fuel > 0 {
      LassoDiverges(f, rows, ks, m, fuel - 1);
      forall i | 0 <= i < |ks| ensures CommentsForParent(f, rows, rows[ks[i]].pid, fuel).Raised? {
        var next := if i + 1 < |ks| then i + 1 else m;
        assert rows[ks[i]].cid == rows[ks[next]].pid;
        ChildrenRaisedIf(f, rows, rows, rows[ks[i]].pid, fuel - 1, ks[i]);
      }
    }
  }

  /** A cycle in the parent relation that can be reached from the top level
      makes reading the node's comments run out of stack, however deep the
      stack is. */
  lemma RootCycleDiverges(f: Formats, rows: seq<CommentRow>, ks: seq<nat>, m: nat, fuel: nat)
    requires Lasso(rows, ks, m) && rows[ks[0]].pid == 0
    ensures CommentsForParent(f, rows, 0, fuel).Raised?
  {
    LassoDiverges(f, rows, ks, m, fuel);
  }

  /** Every comment of the forest comes from a row whose parent is the
      comment it hangs under (`pid` at the top). */
  predicate Threaded(cs: seq<Comment>, rows: seq<CommentRow>, pid: int)
    decreases cs
  {
    forall i :: 0 <= i < |cs| ==>
      ChildOf(rows, cs[i].id, pid) && Threaded(cs[i].replies, rows, cs[i].id)
  }

  lemma {:induction false} ForestThreaded(f: Formats, rows: seq<CommentRow>, pid: int, fuel: nat, cs: seq<Comment>)
    requires CommentsForParent(f, rows, pid, fuel) == Done(cs)
    ensures Threaded(cs, rows, pid)
    decreases fuel
  {
    assert fuel > 0;
    ChildrenSelect(f, rows, rows, pid, fuel - 1, cs);
    var sel := ChildRows(rows, pid);
    forall i | 0 <= i < |cs|
      ensures ChildOf(rows, cs[i].id, pid) && Threaded(cs[i].replies, rows, cs[i].id)
    {
      SelectedChild(f, rows, pid, fuel - 1, sel[i], cs[i]);
      ForestThreaded(f, rows, cs[i].id, fuel - 1, cs[i].replies);
    }
  }

  lemma SelectedChild(f: Formats, rows: seq<CommentRow>, pid: int, fuel: nat, row: CommentRow, c: Comment)
    requires row in rows && row.pid == pid
    requires Selected(f, rows, row, fuel, c)
    ensures ChildOf(rows, c.id, pid)
    ensures CommentsForParent(f, rows, c.id, fuel) == Done(c.replies)
  {
    assert row.cid == c.id;
  }

  /** Whether a comment with id `x` occurs anywhere in the forest. */
  predicate InForest(cs: seq<Comment>, x: int)
    decreases cs
  {
    exists i :: 0 <= i < |cs| && (cs[i].id == x || InForest(cs[i].replies, x))
  }

  /** A set of ids that contains the parent of each of its members, and not
      the root: such comments (orphans, and cycles that never reach the
      root) are absent from a threaded forest. */
  lemma {:induction false} ParentClosedSetAbsent(cs: seq<Comment>, rows: seq<CommentRow>, pid: int, s: set<int>)
    requires Threaded(cs, rows, pid)
    requires pid !in s
    requires forall r :: r in rows && r.cid in s ==> r.pid in s
    ensures forall x :: x in s ==> !InForest(cs, x)
    decreases cs
  {
    forall i | 0 <= i < |cs|
      ensures cs[i].id !in s
      ensures forall x :: x in s ==> !InForest(cs[i].replies, x)
    {
      assert ChildOf(rows, cs[i].id, pid);
      var r :| r in rows && r.cid == cs[i].id && r.pid == pid;
      ParentClosedSetAbsent(cs[i].replies, rows, cs[i].id, s);
    }
  }

  /** Comments whose parent chain never reaches 0 do not appear among the
      comments of a node. */
  lemma UnrootedCommentsAbsent(f: Formats, rows: seq<CommentRow>, fuel: nat, cs: seq<Comment>, s: set<int>)
    requires CommentsForParent(f, rows, 0, fuel) == Done(cs)
    requires 0 !in s
    requires forall r :: r in rows && r.cid in s ==> r.pid in s
    ensures forall x :: x in s ==> !InForest(cs, x)
  {
    ForestThreaded(f, rows, 0, fuel, cs);
    ParentClosedSetAbsent(cs, rows, 0, s);
  }

  /** decode_disqus_comment: the unescaped message wrapped in `<p>…</p>`,
      each blank line turned into a paragraph break. It returns what
      `gsub!` returns, so None when the message has no blank line. */
  function DecodeDisqusComment(unescapeHtml: string -> string, message: string): Option<string> {
    GsubBang("<p>" + unescapeHtml(message) + "</p>", "\n\n", "</p>\n\n<p>")
  }

  /** A Disqus message decodes to None exactly when its unescaped text has
      no blank line. */
  lemma DisqusNilIff(unescapeHtml: string -> string, message: string)
    ensures DecodeDisqusComment(unescapeHtml, message).None? <==> !Contains(unescapeHtml(message), "\n\n")
  {
    var u := unescapeHtml(message);
    var w := "<p>" + u + "</p>";
    if Contains(u, "\n\n") {
      BlankLineKeptInWrap(u);
    }
    if Contains(w, "\n\n") {
      BlankLineOnlyFromMessage(u);
    }
  }

  lemma BlankLineKeptInWrap(u: string)
    requires Contains(u, "\n\n")
    ensures Contains("<p>" + u + "</p>", "\n\n")
  {
    var w := "<p>" + u + "</p>";
    var i :| 0 <= i <= |u| && OccursAt(u, "\n\n", i);
    assert w[i + 3..i + 5] == u[i..i + 2];
    assert OccursAt(w, "\n\n", i + 3);
  }

  lemma BlankLineOnlyFromMessage(u: string)
    requires Contains("<p>" + u + "</p>", "\n\n")
    ensures Contains(u, "\n\n")
  {
    var w := "<p>" + u + "</p>";
    var i :| 0 <= i <= |w| && OccursAt(w, "\n\n", i);
    assert w[i] == '\n' && w[i + 1] == '\n';
    assert 3 <= i && i + 2 <= |u| + 3;
    assert u[i - 3..i - 1] == w[i..i + 2];
    assert OccursAt(u, "\n\n", i - 3);
  }

  /** A one-paragraph message loses its content altogether. */
  lemma SingleParagraphDisqusIsNil()
    ensures DecodeDisqusComment(s => s, "hello") == None
  {
    DisqusNilIff(s => s, "hello");
    var u := "hello";
    forall i | 0 <= i <= |u| ensures !OccursAt(u, "\n\n", i) {
    }
  }

  /** One comment element of a Disqus export, its fields already read. */
  datatype DisqusEntry = DisqusEntry(
    message: string,
    ipAddress: string,
    date: int,
    name: string,
    email: string,
    url: string)

  /** A Disqus comment: no Drupal id, the fixed subject, published, and no
      replies, since the export does not keep the threading. */
  function DisqusComment(unescapeHtml: string -> string, e: DisqusEntry): (c: Comment)
    ensures c.id == DisqusCommentId && c.replies == [] && c.published
    ensures c.title == Some(DisqusCommentSubject)
    ensures c.content.None? <==> !Contains(unescapeHtml(e.message), "\n\n")
  {
    DisqusNilIff(unescapeHtml, e.message);
    Comment(DisqusCommentId, Some(DisqusCommentSubject), DecodeDisqusComment(unescapeHtml, e.message),
      e.ipAddress, e.date, true, e.name, e.email, e.url, [])
  }

  function DisqusComments(unescapeHtml: string -> string, es: seq<DisqusEntry>): seq<Comment> {
    if es == [] then [] else [DisqusComment(unescapeHtml, es[0])] + DisqusComments(unescapeHtml, es[1..])
  }

  lemma {:induction false} DisqusCommentsAre(unescapeHtml: string -> string, es: seq<DisqusEntry>)
    ensures forall c :: c in DisqusComments(unescapeHtml, es) ==> IsDisqusComment(c)
  {
    if es != [] {
      DisqusCommentsAre(unescapeHtml, es[1..]);
    }
  }

  /** A comment that came from Disqus. */
  predicate IsDisqusComment(c: Comment) {
    c.id == DisqusCommentId && c.replies == [] && c.title == Some(DisqusCommentSubject)
  }

  /** load_disqus_comments: article URL to the article's comments, in
      document order; a later article with the same URL replaces an earlier
      one. */
  function LoadDisqusComments(unescapeHtml: string -> string, articles: seq<(string, seq<DisqusEntry>)>): map<string, seq<Comment>>
    decreases |articles|
  {
    if articles == [] then map[]
    else
      var last := articles[|articles| - 1];
      var earlier := LoadDisqusComments(unescapeHtml, articles[..|articles| - 1]);
      earlier[last.0 := DisqusComments(unescapeHtml, last.1)]
  }

  predicate AllDisqus(m: map<string, seq<Comment>>) {
    forall url, c :: url in m && c in m[url] ==> IsDisqusComment(c)
  }

  /** Everything loaded from a Disqus export is a Disqus comment. */
  lemma {:induction false} LoadedAreDisqus(unescapeHtml: string -> string, articles: seq<(string, seq<DisqusEntry>)>)
    ensures AllDisqus(LoadDisqusComments(unescapeHtml, articles))
    decreases |articles|
  {
    if articles != [] {
      var earlier := articles[..|articles| - 1];
      var last := articles[|articles| - 1];
      LoadedAreDisqus(unescapeHtml, earlier);
      DisqusCommentsAre(unescapeHtml, last.1);
      var m0 := LoadDisqusComments(unescapeHtml, earlier);
      var m := m0[last.0 := DisqusComments(unescapeHtml, last.1)];
      assert LoadDisqusComments(unescapeHtml, articles) == m;
      forall url, c | url in m && c in m[url] ensures IsDisqusComment(c) {
        if url != last.0 {
          assert m[url] == m0[url];
          assert url in m0 && c in m0[url];
        }
      }
    }
  }

  /** No later article has the same URL as article `i`. */
  predicate LastWithUrl(articles: seq<(string, seq<DisqusEntry>)>, i: nat)
    requires i < |articles|
  {
    forall j :: i < j < |articles| ==> articles[j].0 != articles[i].0
  }

  lemma LastWithUrlEarlier(articles: seq<(string, seq<DisqusEntry>)>, i: nat)
    requires i < |articles| - 1 && LastWithUrl(articles, i)
    ensures LastWithUrl(articles[..|articles| - 1], i)
  {
    var earlier := articles[..|articles| - 1];
    forall j | i < j < |earlier| ensures earlier[j].0 != earlier[i].0 {
      assert earlier[j] == articles[j];
    }
  }

  /** The last article with a given URL is the one kept. */
  lemma {:induction false} LastArticleWins(unescapeHtml: string -> string, articles: seq<(string, seq<DisqusEntry>)>, i: nat)
    requires i < |articles| && LastWithUrl(articles, i)
    ensures articles[i].0 in LoadDisqusComments(unescapeHtml, articles)
    ensures LoadDisqusComments(unescapeHtml, articles)[articles[i].0] == DisqusComments(unescapeHtml, articles[i].1)
    decreases |articles|
  {
    var n := |articles|;
    if i < n - 1 {
      var earlier := articles[..n - 1];
      LastWithUrlEarlier(articles, i);
      assert earlier[i] == articles[i];
      LastArticleWins(unescapeHtml, earlier, i);
      assert articles[n - 1].0 != articles[i].0;
    }
  }

  /** get_disqus_comments_for_node: nothing when no export was loaded or
      the article URL is not in it. */
  function DisqusForNode(lib: UriLib, base: Url, disqus: Option<map<string, seq<Comment>>>, relativeUrl: string): Outcome<Option<seq<Comment>>> {
    match disqus
    case None => Done(None)
    case Some(m) =>
      match ArticleUrl(lib, base, relativeUrl)
      case Raised(e) => Raised(e)
      case Done(key) => if key in m then Done(Some(m[key])) else Done(None)
  }

  /** get_node_comments: the native root comments, then the node's Disqus
      comments. */
  function NodeComments(f: Formats, rows: seq<CommentRow>, lib: UriLib, base: Url,
                        disqus: Option<map<string, seq<Comment>>>, relativeUrl: string, fuel: nat): Outcome<seq<Comment>>
  {
    match CommentsForParent(f, rows, 0, fuel)
    case Raised(e) => Raised(e)
    case Done(roots) =>
      match DisqusForNode(lib, base, disqus, relativeUrl)
      case Raised(e) => Raised(e)
      case Done(None) => Done(roots)
      case Done(Some(d)) => Done(roots + d)
  }

  /** With no Disqus export configured, a node's comments are exactly its
      native root comments with their replies, and any exception raised
      while rebuilding them is the one that escapes. */
  lemma NodeCommentsNoExport(f: Formats, rows: seq<CommentRow>, lib: UriLib, base: Url, relativeUrl: string, fuel: nat)
    ensures NodeComments(f, rows, lib, base, None, relativeUrl, fuel) == CommentsForParent(f, rows, 0, fuel)
  {
  }

  /** The native forest comes first and unchanged; after it comes the
      export's thread for the node's article URL, in the export's order,
      each a leaf with id -1, or nothing when the export has no thread
      for that URL. */
  lemma NodeCommentsOrder(f: Formats, rows: seq<CommentRow>, lib: UriLib, base: Url, unescapeHtml: string -> string,
                          articles: seq<(string, seq<DisqusEntry>)>, relativeUrl: string, fuel: nat, cs: seq<Comment>)
    requires NodeComments(f, rows, lib, base, Some(LoadDisqusComments(unescapeHtml, articles)), relativeUrl, fuel) == Done(cs)
    ensures CommentsForParent(f, rows, 0, fuel).Done?
    ensures var roots := CommentsForParent(f, rows, 0, fuel).value;
            && roots <= cs
            && forall i :: |roots| <= i < |cs| ==> IsDisqusComment(cs[i])
    ensures var roots := CommentsForParent(f, rows, 0, fuel).value;
            var m := LoadDisqusComments(unescapeHtml, articles);
            && ArticleUrl(lib, base, relativeUrl).Done?
            && (ArticleUrl(lib, base, relativeUrl).value in m ==> cs == roots + m[ArticleUrl(lib, base, relativeUrl).value])
            && (ArticleUrl(lib, base, relativeUrl).value !in m ==> cs == roots)
  {
    var roots := CommentsForParent(f, rows, 0, fuel).value;
    LoadedAreDisqus(unescapeHtml, articles);
    var d := DisqusForNode(lib, base, Some(LoadDisqusComments(unescapeHtml, articles)), relativeUrl);
    if d.value.Some? {
      assert cs == roots + d.value.value;
      forall i | |roots| <= i < |cs| ensures IsDisqusComment(cs[i]) {
        assert cs[i] == d.value.value[i - |roots|];
        assert cs[i] in d.value.value;
      }
    }
  }

  /** A node revision: its body and input format. */
  datatype Revision = Revision(body: string, format: int)

  /** get_latest_node_revision: the last revision, or none for a node
      without revisions. */
  function LatestRevision(revs: seq<Revision>): (r: Option<Revision>)
    ensures r.None? <==> revs == []
    ensures r.Some? ==> r.value in revs && r.value == revs[|revs| - 1]
  {
    if |revs| > 0 then Some(revs[|revs| - 1]) else None
  }

  /** get_node_content: the latest revision's body with its first break
      marker removed, then decoded; a decoder failure propagates. */
  function NodeContent(f: Formats, revs: seq<Revision>): Outcome<Option<string>> {
    match LatestRevision(revs)
    case None => Done(None)
    case Some(rev) =>
      match DecodeContentFormat(f, rev.format, SubFirst(rev.body, BreakMarker, ""))
      case Raised(e) => Raised(e)
      case Done(c) => Done(Some(c))
  }

  /** For a verbatim format the content is the latest body with the text
      around its first break marker joined, and the body itself when it has
      no marker. */
  lemma NodeContentDropsFirstBreak(f: Formats, revs: seq<Revision>, i: nat)
    requires revs != []
    requires var rev := revs[|revs| - 1];
             rev.format !in f.textile && rev.format !in f.markdown
    ensures var body := revs[|revs| - 1].body;
            !Contains(body, BreakMarker) ==> NodeContent(f, revs) == Done(Some(body))
    ensures var body := revs[|revs| - 1].body;
            OccursAt(body, BreakMarker, i) && (forall j :: 0 <= j < i ==> !OccursAt(body, BreakMarker, j))
            ==> NodeContent(f, revs) == Done(Some(body[..i] + body[i + |BreakMarker|..]))
  {
    var body := revs[|revs| - 1].body;
    if !Contains(body, BreakMarker) {
      SubFirstAbsent(body, BreakMarker, "");
    }
    if OccursAt(body, BreakMarker, i) && (forall j :: 0 <= j < i ==> !OccursAt(body, BreakMarker, j)) {
      SubFirstLeftmost(body, BreakMarker, "", i);
      assert body[..i] + "" + body[i + |BreakMarker|..] == body[..i] + body[i + |BreakMarker|..];
    }
  }
}

=== FILE: reader_urls.dfy ===
/** ReaderUrls: node paths, URL aliases, and how the reader decides whether
    a link points into the Drupal site and at what. URI parsing, merging,
    normalising and routing belong to Ruby's URI library; they enter the
    model as a record of functions, and only the order of decisions made on
    their results is modelled. */
module ReaderUrls {
  import opened Common

  /** The components of a parsed URI that the reader compares. A URI
      without a scheme is relative. */
  datatype Url = Url(
    scheme: Option<string>,
    userinfo: Option<string>,
    host: Option<string>,
    port: Option<int>,
    registry: Option<string>,
    path: string)
  {
    predicate IsRelative() {
      scheme.None?
    }
  }

  /** The URI and CGI library calls the reader makes. `parse` yields None
      where URI.parse raises URI::InvalidURIError; `merge` and `join` may
      raise (a relative base, for one). */
  datatype UriLib = UriLib(
    parse: string -> Option<Url>,
    normalize: Url -> Url,
    merge: (Url, string) -> Outcome<Url>,
    routeTo: (Url, Url) -> Url,
    join: (string, string) -> Outcome<Url>,
    toS: Url -> string,
    unescape: string -> string)

  /** What the reader caches from the database: the base URL (with its
      trailing slash), node path to alias and alias to node path (both
      CGI-escaped), the file paths of attachments, and the node ids. */
  datatype Site = Site(
    base: Url,
    aliases: map<string, string>,
    aliasSources: map<string, string>,
    files: set<string>,
    nodes: set<int>)

  /** The path every node has: `node/` and its id. */
  function CanonicalNodePath(nid: int): string {
    "node/" + IntToString(nid)
  }

  /** compute_alias_url: the registered alias of a path, or the path itself. */
  function AliasPath(aliases: map<string, string>, canonical: string): (r: string)
    ensures canonical in aliases ==> r == aliases[canonical]
    ensures canonical !in aliases ==> r == canonical
  {
    if canonical in aliases then aliases[canonical] else canonical
  }

  /** Where the pattern `node\/(\d+)` can match: `node/` and a digit. */
  predicate NodeMarkerAt(p: string, i: int) {
    0 <= i && i + 6 <= |p| && p[i..i + 5] == "node/" && IsDigit(p[i + 5])
  }

  /** The longest run of digits at the start of `s`. */
  function LeadingDigits(s: string): (d: string)
    ensures AllDigits(d) && d <= s
    ensures |d| < |s| ==> !IsDigit(s[|d|])
  {
    if s == [] || !IsDigit(s[0]) then [] else [s[0]] + LeadingDigits(s[1..])
  }

  /** The number the unanchored pattern `node\/(\d+)` captures: its
      leftmost match, with the digit run taken greedily. */
  function FindNodeId(p: string): Option<nat>
    decreases |p|
  {
    if |p| < 6 then None
    else if NodeMarkerAt(p, 0) then Some(DigitsValue(LeadingDigits(p[5..])))
    else FindNodeId(p[1..])
  }

  lemma ShiftMarker(p: string, j: int)
    requires |p| > 0 && 0 <= j
    ensures NodeMarkerAt(p[1..], j) <==> NodeMarkerAt(p, j + 1)
  {
    if j + 7 <= |p| {
      assert p[1..][j..j + 5] == p[j + 1..j + 6];
      assert p[1..][j + 5] == p[j + 6];
    }
  }

  /** No match of the pattern starts before position `i`. */
  predicate NoMarkerBefore(p: string, i: int) {
    forall j :: 0 <= j < i ==> !NodeMarkerAt(p, j)
  }

  lemma ShiftNoMarker(p: string, i: nat)
    requires |p| > 0 && !NodeMarkerAt(p, 0)
    ensures NoMarkerBefore(p[1..], i) <==> NoMarkerBefore(p, i + 1)
  {
    forall j | 0 <= j < i {
      ShiftMarker(p, j);
    }
    if NoMarkerBefore(p[1..], i) {
      forall j | 0 <= j < i + 1 ensures !NodeMarkerAt(p, j) {
        if j > 0 {
          ShiftMarker(p, j - 1);
        }
      }
    }
  }

  /** FindNodeId finds a number exactly when the pattern matches, and the
      number is read from the leftmost match. */
  lemma {:induction false} FindNodeIdLeftmost(p: string)
    ensures FindNodeId(p).None? <==> NoMarkerBefore(p, |p| + 1)
    ensures FindNodeId(p).Some? ==>
              exists i :: 0 <= i <= |p| && NodeMarkerAt(p, i) && NoMarkerBefore(p, i)
                && FindNodeId(p).value == DigitsValue(LeadingDigits(p[i + 5..]))
    decreases |p|
  {
    if |p| < 6 {
    } else if NodeMarkerAt(p, 0) {
      assert NoMarkerBefore(p, 0);
    } else {
      FindNodeIdLeftmost(p[1..]);
      ShiftNoMarker(p, |p[1..]| + 1);
      assert NoMarkerBefore(p, |p| + 1) <==> NoMarkerBefore(p, |p| + 2);
      if FindNodeId(p[1..]).Some? {
        var i :| 0 <= i <= |p[1..]| && NodeMarkerAt(p[1..], i) && NoMarkerBefore(p[1..], i)
          && FindNodeId(p[1..]).value == DigitsValue(LeadingDigits(p[1..][i + 5..]));
        ShiftNoMarker(p, i);
        ShiftMarker(p, i);
        assert p[1..][i + 5..] == p[i + 6..];
      }
    }
  }

  lemma {:induction false} LeadingDigitsAll(s: string)
    requires AllDigits(s)
    ensures LeadingDigits(s) == s
  {
    if s != [] {
      assert AllDigits(s[1..]) by {
        forall k | 0 <= k < |s[1..]| ensures IsDigit(s[1..][k]) {
          assert s[1..][k] == s[k + 1];
        }
      }
      LeadingDigitsAll(s[1..]);
    }
  }

  /** The id is read back from the canonical path of a node. */
  lemma NodePathRoundTrip(n: nat)
    ensures FindNodeId(CanonicalNodePath(n)) == Some(n)
  {
    var digits := NatToString(n);
    var p := CanonicalNodePath(n);
    assert p == "node/" + digits;
    assert p[..5] == "node/";
    assert p[5] == digits[0];
    assert NodeMarkerAt(p, 0);
    assert p[5..] == digits;
    LeadingDigitsAll(digits);
    NatToStringRoundTrip(n);
  }

  /** A node without an alias keeps a path from which its id is recovered. */
  lemma UnaliasedNodeKeepsId(aliases: map<string, string>, n: nat)
    requires CanonicalNodePath(n) !in aliases
    ensures AliasPath(aliases, CanonicalNodePath(n)) == CanonicalNodePath(n)
    ensures FindNodeId(AliasPath(aliases, CanonicalNodePath(n))) == Some(n)
  {
    NodePathRoundTrip(n);
  }

  /** The URL as the reader canonicalises it: parsed and normalised, and if
      relative, resolved against the page it was found on. */
  function Canonicalize(lib: UriLib, parentUrl: string, url: string): Outcome<Url> {
    match lib.parse(url)
    case None => Raised(InvalidUriError)
    case Some(u) =>
      var c := lib.normalize(u);
      if !c.IsRelative() then Done(c)
      else match lib.parse(parentUrl)
        case None => Raised(InvalidUriError)
        case Some(p) =>
          match lib.merge(p, url)
          case Raised(e) => Raised(e)
          case Done(m) => Done(lib.normalize(m))
  }

  /** Scheme, user info, host, port and registry equal the base URL's, and
      the base path starts the path. */
  predicate UnderBase(c: Url, base: Url) {
    && c.scheme == base.scheme
    && c.userinfo == base.userinfo
    && c.host == base.host
    && c.port == base.port
    && c.registry == base.registry
    && StartsWith(c.path, base.path)
  }

  /** get_url_relative_to_base: the canonical URL routed from the base when
      it lies under the base, otherwise the canonical URL itself. */
  function UrlRelativeToBase(lib: UriLib, base: Url, parentUrl: string, url: string): (r: Outcome<Url>)
    ensures r.Raised? <==> Canonicalize(lib, parentUrl, url).Raised?
    ensures r.Done? ==>
              var c := Canonicalize(lib, parentUrl, url).value;
              if UnderBase(c, base) then r.value == lib.routeTo(base, c) else r.value == c
  {
    match Canonicalize(lib, parentUrl, url)
    case Raised(e) => Raised(e)
    case Done(c) => if UnderBase(c, base) then Done(lib.routeTo(base, c)) else Done(c)
  }

  /** is_internal_url: the route from the base is a relative URL. */
  function IsInternalUrl(lib: UriLib, base: Url, parentUrl: string, url: string): (r: Outcome<bool>)
    ensures r.Raised? <==> UrlRelativeToBase(lib, base, parentUrl, url).Raised?
    ensures r == Done(true) <==>
              UrlRelativeToBase(lib, base, parentUrl, url).Done?
              && UrlRelativeToBase(lib, base, parentUrl, url).value.IsRelative()
  {
    match UrlRelativeToBase(lib, base, parentUrl, url)
    case Raised(e) => Raised(e)
    case Done(rel) => Done(rel.IsRelative())
  }

  /** An absolute URL that differs from the base in any one component, or
      whose path does not start with the base path, is external. */
  lemma AnyMismatchIsExternal(lib: UriLib, base: Url, parentUrl: string, url: string)
    requires Canonicalize(lib, parentUrl, url).Done?
    requires var c := Canonicalize(lib, parentUrl, url).value;
             && !c.IsRelative()
             && (|| c.scheme != base.scheme || c.userinfo != base.userinfo
                 || c.host != base.host || c.port != base.port
                 || c.registry != base.registry || !StartsWith(c.path, base.path))
    ensures IsInternalUrl(lib, base, parentUrl, url) == Done(false)
  {
  }

  /** What a link inside the site turns out to point at. */
  datatype Target =
    | External
    | Node(nid: nat, aliased: bool)
    | MissingNode(nid: nat)
    | AliasSource
    | FileAttachment
    | SiteRoot
    | Nothing

  /** The decision order of get_internal_object_url_from_url, applied to
      the route from the base URL. */
  function Classify(lib: UriLib, site: Site, rel: Url): Target {
    if !rel.IsRelative() then External
    else match FindNodeId(rel.path)
      case Some(nid) =>
        if nid in site.nodes then Node(nid, rel.path in site.aliases) else MissingNode(nid)
      case None =>
        if rel.path in site.aliasSources then AliasSource
        else if lib.unescape(rel.path) in site.files then FileAttachment
        else if |lib.toS(rel)| == 0 then SiteRoot
        else Nothing
  }

  /** A path in which `node/<digits>` occurs is decided by the node table
      alone: alias sources, attachments and the site root are consulted
      only for paths without a node marker. */
  lemma NodeMarkerDecides(lib: UriLib, site: Site, rel: Url)
    requires rel.IsRelative()
    requires exists i :: 0 <= i <= |rel.path| && NodeMarkerAt(rel.path, i)
    ensures Classify(lib, site, rel).Node? || Classify(lib, site, rel).MissingNode?
    ensures var t := Classify(lib, site, rel);
            (t.Node? ==> t.nid in site.nodes && t.aliased == (rel.path in site.aliases))
            && (t.MissingNode? ==> t.nid !in site.nodes)
  {
    FindNodeIdLeftmost(rel.path);
  }

  /** Whatever is found exists in the site's tables, and each table is
      consulted only when the ones before it came up empty. */
  lemma ClassifySound(lib: UriLib, site: Site, rel: Url)
    ensures var t := Classify(lib, site, rel);
            && (t.External? <==> !rel.IsRelative())
            && ((t.Node? || t.MissingNode?) ==>
                  rel.IsRelative() && FindNodeId(rel.path) == Some(t.nid)
                  && (t.Node? <==> t.nid in site.nodes)
                  && exists i :: 0 <= i <= |rel.path| && NodeMarkerAt(rel.path, i))
            && (t.AliasSource? ==>
                  rel.path in site.aliasSources
                  && forall i :: 0 <= i <= |rel.path| ==> !NodeMarkerAt(rel.path, i))
            && (t.FileAttachment? ==> lib.unescape(rel.path) in site.files && rel.path !in site.aliasSources)
            && (t.SiteRoot? ==>
                  |lib.toS(rel)| == 0 && rel.path !in site.aliasSources
                  && lib.unescape(rel.path) !in site.files)
            && (t.Nothing? ==>
                  rel.IsRelative() && FindNodeId(rel.path).None? && rel.path !in site.aliasSources
                  && lib.unescape(rel.path) !in site.files && |lib.toS(rel)| > 0)
  {
    FindNodeIdLeftmost(rel.path);
  }

  /** `@baseurl.merge(path)`. */
  function MergeOnBase(lib: UriLib, site: Site, path: string): Outcome<Option<Url>> {
    match lib.merge(site.base, path)
    case Raised(e) => Raised(e)
    case Done(u) => Done(Some(u))
  }

  /** get_internal_object_url_from_url: the absolute URL of the node,
      alias, attachment or site root the link points at, or None. */
  function InternalObjectUrl(lib: UriLib, site: Site, parentUrl: string, url: string): (r: Outcome<Option<Url>>)
    ensures UrlRelativeToBase(lib, site.base, parentUrl, url).Raised? ==> r.Raised?
    ensures r.Done? && r.value.Some? ==>
              var t := Classify(lib, site, UrlRelativeToBase(lib, site.base, parentUrl, url).value);
              t.Node? || t.AliasSource? || t.FileAttachment? || t.SiteRoot?
    ensures UrlRelativeToBase(lib, site.base, parentUrl, url).Done? ==>
              var rel := UrlRelativeToBase(lib, site.base, parentUrl, url).value;
              var t := Classify(lib, site, rel);
              && (t.Node? && t.aliased ==> r == MergeOnBase(lib, site, site.aliases[rel.path]))
              && ((t.Node? && !t.aliased) || t.AliasSource? || t.FileAttachment? ==>
                    r == MergeOnBase(lib, site, rel.path))
              && (t.SiteRoot? ==> r == Done(Some(site.base)))
              && (t.External? || t.MissingNode? || t.Nothing? ==> r == Done(None))
  {
    match UrlRelativeToBase(lib, site.base, parentUrl, url)
    case Raised(e) => Raised(e)
    case Done(rel) =>
      match Classify(lib, site, rel)
      case Node(_, aliased) =>
        if aliased then MergeOnBase(lib, site, site.aliases[rel.path]) else MergeOnBase(lib, site, rel.path)
      case AliasSource => MergeOnBase(lib, site, rel.path)
      case FileAttachment => MergeOnBase(lib, site, rel.path)
      case SiteRoot => Done(Some(site.base))
      case _ => Done(None)
  }

  /** A link to an existing node that has an alias resolves to the alias,
      not to the node path. */
  lemma AliasedNodeResolvesToAlias(lib: UriLib, site: Site, parentUrl: string, url: string, n: nat)
    requires UrlRelativeToBase(lib, site.base, parentUrl, url) == Done(Url(None, None, None, None, None, CanonicalNodePath(n)))
    requires n in site.nodes && CanonicalNodePath(n) in site.aliases
    ensures InternalObjectUrl(lib, site, parentUrl, url)
         == MergeOnBase(lib, site, site.aliases[CanonicalNodePath(n)])
  {
    NodePathRoundTrip(n);
  }

  /** The URL of a Disqus thread: the base URL joined with the node's path. */
  function ArticleUrl(lib: UriLib, base: Url, relativeUrl: string): Outcome<string> {
    match lib.join(lib.toS(base), relativeUrl)
    case Raised(e) => Raised(e)
    case Done(u) => Done(lib.toS(u))
  }
}

=== FILE: wxr_writer.dfy ===
/** WxrWriter: a string builder with an indentation counter that writes
    WordPress eXtended RSS. Every operation appends a fully determined
    fragment; the writer never checks that starts and ends balance. */
module WxrWriter {
  import opened Common
  import opened XmlEscape

  /** The text written so far and the nesting depth used for indentation. */
  datatype Writer = Writer(out: string, indent: int)

  /** Attributes in the order given: a name and a value each. */
  type Attrs = seq<(string, Value)>

  const XmlDeclaration: string := "<?xml version=\"1.0\" encoding=\"UTF-8\"?>\n"

  /** The fixed preamble: comments with import instructions, the rss element
      with its namespace declarations, and the opening of the channel. Its
      exact text is left opaque. */
  const OutputHead: string

  const OutputFoot: string := "\n    </channel>\n</rss>\n"

  const CdataOpen: string := "<![CDATA["
  const CdataClose: string := "]]>"

  /** A writer over a fresh stream. */
  function NewWriter(): (w: Writer)
    ensures w.out == [] && w.indent == 0
  {
    Writer([], 0)
  }

  /** The families of wrapper methods and the prefix each passes on. */
  datatype Family = Rss | RssContent | CommentApi | DublinCore | WordPress | Drupal

  function Prefix(f: Family): (ns: Option<string>)
    ensures ns.None? <==> f == Rss
  {
    match f
    case Rss => None
    case RssContent => Some("content")
    case CommentApi => Some("wfw")
    case DublinCore => Some("dc")
    case WordPress => Some("wp")
    case Drupal => Some("drupal")
  }

  /** Distinct families write distinct prefixes. */
  lemma PrefixesDistinct(f: Family, g: Family)
    requires f != g
    ensures Prefix(f) != Prefix(g)
  {
  }

  function Max0(i: int): nat {
    if i < 0 then 0 else i
  }

  /** indent_line: four spaces per level; a zero or negative level writes nothing. */
  function IndentText(indent: int): (r: string)
    ensures |r| == 4 * Max0(indent)
    decreases Max0(indent)
  {
    if indent <= 0 then [] else "    " + IndentText(indent - 1)
  }

  function QualifiedName(ns: Option<string>, name: string): string {
    match ns
    case Some(p) => p + ":" + name
    case None => name
  }

  /** ` name="value"` per attribute, values escaped, names written as given. */
  function AttrsText(attrs: Attrs): string {
    if attrs == [] then []
    else " " + attrs[0].0 + "=\"" + ToS(EscapeValue(attrs[0].1)) + "\"" + AttrsText(attrs[1..])
  }

  function OpenTag(ns: Option<string>, name: string, attrs: Attrs): string {
    "<" + QualifiedName(ns, name) + AttrsText(attrs) + ">"
  }

  function CloseTag(ns: Option<string>, name: string): string {
    "</" + QualifiedName(ns, name) + ">"
  }

  /** start_file: the XML declaration and the preamble, then indent 2. */
  function StartFile(w: Writer): (w': Writer)
    ensures w'.out == w.out + XmlDeclaration + OutputHead
    ensures w'.indent == 2
  {
    Writer(w.out + XmlDeclaration + OutputHead, 2)
  }

  /** end_file: the footer, then indent 0. */
  function EndFile(w: Writer): (w': Writer)
    ensures w'.out == w.out + OutputFoot
    ensures w'.indent == 0
  {
    Writer(w.out + OutputFoot, 0)
  }

  function WriteElementNoNewline(w: Writer, ns: Option<string>, name: string, attrs: Attrs, value: Value): (w': Writer)
    ensures w'.indent == w.indent && w.out <= w'.out
  {
    Writer(w.out + OpenTag(ns, name, attrs) + ToS(EscapeValue(value)) + CloseTag(ns, name), w.indent)
  }

  function WriteElement(w: Writer, ns: Option<string>, name: string, attrs: Attrs, value: Value): (w': Writer)
    ensures w'.indent == w.indent && w.out <= w'.out
  {
    var line := WriteElementNoNewline(Writer(w.out + IndentText(w.indent), w.indent), ns, name, attrs, value);
    Writer(line.out + "\n", w.indent)
  }

  function WriteCdataElementNoNewline(w: Writer, ns: Option<string>, name: string, attrs: Attrs, value: Value): (w': Writer)
    ensures w'.indent == w.indent && w.out <= w'.out
  {
    Writer(w.out + OpenTag(ns, name, attrs) + CdataOpen + ToS(value) + CdataClose + CloseTag(ns, name), w.indent)
  }

  function WriteCdataElement(w: Writer, ns: Option<string>, name: string, attrs: Attrs, value: Value): (w': Writer)
    ensures w'.indent == w.indent && w.out <= w'.out
  {
    var line := WriteCdataElementNoNewline(Writer(w.out + IndentText(w.indent), w.indent), ns, name, attrs, value);
    Writer(line.out + "\n", w.indent)
  }

  function WriteTextValue(w: Writer, value: Value): (w': Writer)
    ensures w'.indent == w.indent && w.out <= w'.out
  {
    Writer(w.out + IndentText(w.indent) + ToS(EscapeValue(value)) + "\n", w.indent)
  }

  function WriteCdataValue(w: Writer, value: Value): (w': Writer)
    ensures w'.indent == w.indent && w.out <= w'.out
  {
    Writer(w.out + IndentText(w.indent) + CdataOpen + ToS(value) + CdataClose + "\n", w.indent)
  }

  function WriteXmlValue(w: Writer, value: Value): (w': Writer)
    ensures w'.indent == w.indent && w.out <= w'.out
  {
    Writer(w.out + IndentText(w.indent) + ToS(value) + "\n", w.indent)
  }

  function StartElementNoNewline(w: Writer, ns: Option<string>, name: string, attrs: Attrs): (w': Writer)
    ensures w'.indent == w.indent && w.out <= w'.out
  {
    Writer(w.out + IndentText(w.indent) + OpenTag(ns, name, attrs), w.indent)
  }

  /** start_element: the open tag on its own line, then one level deeper. */
  function StartElement(w: Writer, ns: Option<string>, name: string, attrs: Attrs): (w': Writer)
    ensures w'.indent == w.indent + 1 && w.out <= w'.out
  {
    var tag := StartElementNoNewline(w, ns, name, attrs);
    Writer(tag.out + "\n", w.indent + 1)
  }

  /** end_element_nonewline: the close tag, and despite the name a newline. */
  function EndElementNoNewline(w: Writer, ns: Option<string>, name: string): (w': Writer)
    ensures w'.indent == w.indent && w.out <= w'.out
    ensures |w'.out| > |w.out| && w'.out[|w'.out| - 1] == '\n'
  {
    Writer(w.out + CloseTag(ns, name) + "\n", w.indent)
  }

  /** end_element: one level shallower first, then the indented close tag. */
  function EndElement(w: Writer, ns: Option<string>, name: string): (w': Writer)
    ensures w'.indent == w.indent - 1 && w.out <= w'.out
  {
    var shallower := Writer(w.out, w.indent - 1);
    EndElementNoNewline(Writer(shallower.out + IndentText(shallower.indent), shallower.indent), ns, name)
  }

  /** One call on the writer, so that callers can be described as sequences of calls. */
  datatype Op =
    | Start(ns: Option<string>, name: string, attrs: Attrs)
    | StartNoNewline(ns: Option<string>, name: string, attrs: Attrs)
    | End(ns: Option<string>, name: string)
    | EndNoNewline(ns: Option<string>, name: string)
    | Leaf(ns: Option<string>, name: string, attrs: Attrs, value: Value)
    | LeafNoNewline(ns: Option<string>, name: string, attrs: Attrs, value: Value)
    | Cdata(ns: Option<string>, name: string, attrs: Attrs, value: Value)
    | CdataNoNewline(ns: Option<string>, name: string, attrs: Attrs, value: Value)
    | TextValue(value: Value)
    | CdataValue(value: Value)
    | XmlValue(value: Value)

  function Apply(w: Writer, op: Op): Writer {
    match op
    case Start(ns, name, attrs) => StartElement(w, ns, name, attrs)
    case StartNoNewline(ns, name, attrs) => StartElementNoNewline(w, ns, name, attrs)
    case End(ns, name) => EndElement(w, ns, name)
    case EndNoNewline(ns, name) => EndElementNoNewline(w, ns, name)
    case Leaf(ns, name, attrs, value) => WriteElement(w, ns, name, attrs, value)
    case LeafNoNewline(ns, name, attrs, value) => WriteElementNoNewline(w, ns, name, attrs, value)
    case Cdata(ns, name, attrs, value) => WriteCdataElement(w, ns, name, attrs, value)
    case CdataNoNewline(ns, name, attrs, value) => WriteCdataElementNoNewline(w, ns, name, attrs, value)
    case TextValue(value) => WriteTextValue(w, value)
    case CdataValue(value) => WriteCdataValue(w, value)
    case XmlValue(value) => WriteXmlValue(w, value)
  }

  function Run(w: Writer, ops: seq<Op>): Writer
    decreases |ops|
  {
    if ops == [] then w else Run(Apply(w, ops[0]), ops[1..])
  }

  /** How a call moves the indentation level. */
  function Depth(op: Op): int {
    if op.Start? then 1 else if op.End? then -1 else 0
  }

  function NetDepth(ops: seq<Op>): int {
    if ops == [] then 0 else Depth(ops[0]) + NetDepth(ops[1..])
  }

  lemma NetDepthConcat(a: seq<Op>, b: seq<Op>)
    ensures NetDepth(a + b) == NetDepth(a) + NetDepth(b)
  {
    if a != [] {
      assert (a + b)[1..] == a[1..] + b;
    } else {
      assert a + b == b;
    }
  }

  /** Each call only appends, and moves the level by its depth. */
  lemma ApplyEffect(w: Writer, op: Op)
    ensures Apply(w, op).indent == w.indent + Depth(op)
    ensures w.out <= Apply(w, op).out
  {
  }

  /** A sequence of calls only appends and moves the level by the
      starts minus the ends it contains. */
  lemma {:induction false} RunEffect(w: Writer, ops: seq<Op>)
    ensures Run(w, ops).indent == w.indent + NetDepth(ops)
    ensures w.out <= Run(w, ops).out
    decreases |ops|
  {
    if ops != [] {
      ApplyEffect(w, ops[0]);
      RunEffect(Apply(w, ops[0]), ops[1..]);
    }
  }

  /** A file whose body closes what it opens: the XML declaration and the
      header come first, the body's output next, the footer last, and the
      level is back at 0. */
  lemma DocumentShape(ops: seq<Op>)
    requires NetDepth(ops) == 0
    ensures var body := Run(StartFile(NewWriter()), ops);
            var d := EndFile(body);
            && body.indent == 2 && d.indent == 0
            && |XmlDeclaration + OutputHead| + |OutputFoot| <= |d.out|
            && d.out[..|XmlDeclaration + OutputHead|] == XmlDeclaration + OutputHead
            && d.out[|d.out| - |OutputFoot|..] == OutputFoot
  {
    var head := XmlDeclaration + OutputHead;
    var start := StartFile(NewWriter());
    assert start.out == head;
    RunEffect(start, ops);
    var body := Run(start, ops);
    var middle := body.out[|head|..];
    assert body.out == head + middle;
    Split3(head, middle, OutputFoot);
  }

  /** A file with the given body calls, ended only when `finished`. */
  function WriteFile(ops: seq<Op>, finished: bool): (w: Writer)
    requires NetDepth(ops) == 0
    ensures |XmlDeclaration + OutputHead| <= |w.out| && w.out[..|XmlDeclaration + OutputHead|] == XmlDeclaration + OutputHead
    ensures finished ==>
              && w.indent == 0
              && |XmlDeclaration + OutputHead| + |OutputFoot| <= |w.out|
              && w.out[|w.out| - |OutputFoot|..] == OutputFoot
    ensures !finished ==> w.indent == 2
    ensures w.out == Run(StartFile(NewWriter()), ops).out + (if finished then OutputFoot else [])
  {
    var start := StartFile(NewWriter());
    RunEffect(start, ops);
    DocumentShape(ops);
    var body := Run(start, ops);
    if finished then EndFile(body) else body
  }

  lemma {:induction false} RunConcat(w: Writer, a: seq<Op>, b: seq<Op>)
    ensures Run(w, a + b) == Run(Run(w, a), b)
    decreases |a|
  {
    if a == [] {
      assert a + b == b;
    } else {
      assert (a + b)[0] == a[0];
      assert (a + b)[1..] == a[1..] + b;
      RunConcat(Apply(w, a[0]), a[1..], b);
    }
  }

  /** A start, a body whose starts and ends cancel, and the matching end:
      the close tag is written with the indentation of the open tag. */
  lemma MatchingTagsShareIndent(w: Writer, ns: Option<string>, name: string, attrs: Attrs, body: seq<Op>)
    requires NetDepth(body) == 0
    ensures var w2 := Run(StartElement(w, ns, name, attrs), body);
            EndElement(w2, ns, name).out == w2.out + IndentText(w.indent) + CloseTag(ns, name) + "\n"
  {
    var w2 := Run(StartElement(w, ns, name, attrs), body);
    RunIndent(StartElement(w, ns, name, attrs), body);
    EndElementOut(w2, ns, name);
  }

  /** Running the start, the body and the end is running the three writers in turn. */
  lemma RunMatchingTags(w: Writer, ns: Option<string>, name: string, attrs: Attrs, body: seq<Op>)
    ensures Run(w, [Start(ns, name, attrs)] + body + [End(ns, name)])
         == EndElement(Run(StartElement(w, ns, name, attrs), body), ns, name)
  {
    RunBracket(w, Start(ns, name, attrs), body, End(ns, name));
    ApplyTags(w, Run(StartElement(w, ns, name, attrs), body), ns, name, attrs);
  }

  /** The same sequence leaves the level where it found it. */
  lemma MatchingTagsRestoreLevel(w: Writer, ns: Option<string>, name: string, attrs: Attrs, body: seq<Op>)
    requires NetDepth(body) == 0
    ensures Run(w, [Start(ns, name, attrs)] + body + [End(ns, name)]).indent == w.indent
  {
    var ops := [Start(ns, name, attrs)] + body + [End(ns, name)];
    NetDepthConcat([Start(ns, name, attrs)] + body, [End(ns, name)]);
    NetDepthConcat([Start(ns, name, attrs)], body);
    RunIndent(w, ops);
  }

  lemma ApplyTags(w: Writer, w': Writer, ns: Option<string>, name: string, attrs: Attrs)
    ensures Apply(w, Start(ns, name, attrs)) == StartElement(w, ns, name, attrs)
    ensures Apply(w', End(ns, name)) == EndElement(w', ns, name)
  {
  }

  /** The open tag goes on its own line at the current level. */
  lemma StartElementOut(w: Writer, ns: Option<string>, name: string, attrs: Attrs)
    ensures StartElement(w, ns, name, attrs).out == w.out + IndentText(w.indent) + OpenTag(ns, name, attrs) + "\n"
  {
  }

  lemma EndElementOut(w: Writer, ns: Option<string>, name: string)
    ensures EndElement(w, ns, name).out == w.out + IndentText(w.indent - 1) + CloseTag(ns, name) + "\n"
    ensures EndElement(w, ns, name).indent == w.indent - 1
  {
  }

  lemma {:induction false} RunIndent(w: Writer, ops: seq<Op>)
    ensures Run(w, ops).indent == w.indent + NetDepth(ops)
    decreases |ops|
  {
    if ops != [] {
      ApplyEffect(w, ops[0]);
      RunIndent(Apply(w, ops[0]), ops[1..]);
    }
  }

  /** Running one call, a sequence, then one more call. */
  lemma RunBracket(w: Writer, first: Op, body: seq<Op>, last: Op)
    ensures Run(w, [first] + body + [last]) == Apply(Run(Apply(w, first), body), last)
  {
    RunSingle(w, first);
    RunSingle(Run(Apply(w, first), body), last);
    RunConcat(w, [first] + body, [last]);
    RunConcat(w, [first], body);
  }

  lemma RunSingle(w: Writer, op: Op)
    ensures Run(w, [op]) == Apply(w, op)
  {
    assert [op][1..] == [];
  }

  /** The text a call appends. */
  function Appended(w: Writer, w': Writer): string
    requires w.out <= w'.out
  {
    w'.out[|w.out|..]
  }

  /** A reader for one indented leaf line: the text between the expected
      open tag and close tag, entities decoded; None when the line does not
      have that shape. */
  function ReadLeaf(line: string, indent: int, ns: Option<string>, name: string, attrs: Attrs): Option<string> {
    var open := IndentText(indent) + OpenTag(ns, name, attrs);
    var close := CloseTag(ns, name) + "\n";
    if |open| + |close| <= |line| && line[..|open|] == open && line[|line| - |close|..] == close
    then Some(Unescape(line[|open|..|line| - |close|]))
    else None
  }

  /** write_element writes a line from which the reader recovers the value's text. */
  lemma LeafReadsBack(w: Writer, ns: Option<string>, name: string, attrs: Attrs, value: Value)
    ensures var w' := WriteElement(w, ns, name, attrs, value);
            ReadLeaf(Appended(w, w'), w.indent, ns, name, attrs) == Some(ToS(value))
  {
    var open := IndentText(w.indent) + OpenTag(ns, name, attrs);
    var close := CloseTag(ns, name) + "\n";
    var text := ToS(EscapeValue(value));
    LeafLine(w, ns, name, attrs, value);
    Split3(open, text, close);
    EscapeValueText(value);
    UnescapeEscape(ToS(value));
  }

  /** The line write_element appends. */
  lemma LeafLine(w: Writer, ns: Option<string>, name: string, attrs: Attrs, value: Value)
    ensures Appended(w, WriteElement(w, ns, name, attrs, value))
         == (IndentText(w.indent) + OpenTag(ns, name, attrs)) + ToS(EscapeValue(value)) + (CloseTag(ns, name) + "\n")
  {
    Regroup3(w.out, IndentText(w.indent), OpenTag(ns, name, attrs), ToS(EscapeValue(value)), CloseTag(ns, name));
  }

  lemma Regroup3(p: string, i: string, t: string, v: string, c: string)
    ensures (p + i + t + v + c + "\n")[|p|..] == (i + t) + v + (c + "\n")
  {
    var tail := (i + t) + v + (c + "\n");
    assert p + i + t + v + c + "\n" == p + tail;
  }

  /** How the WordPress importer reads an element's content: it takes the
      text between the tags and strips a CDATA section only when the marker
      is the very first thing in it. */
  function ImporterContent(inner: string): string {
    if |CdataOpen| + |CdataClose| <= |inner| && StartsWith(inner, CdataOpen)
       && inner[|inner| - |CdataClose|..] == CdataClose
    then inner[|CdataOpen|..|inner| - |CdataClose|]
    else inner
  }

  /** The importer's reading of one indented CDATA line. */
  function ImportCdataLeaf(line: string, indent: int, ns: Option<string>, name: string, attrs: Attrs): Option<string> {
    var open := IndentText(indent) + OpenTag(ns, name, attrs);
    var close := CloseTag(ns, name) + "\n";
    if |open| + |close| <= |line| && line[..|open|] == open && line[|line| - |close|..] == close
    then Some(ImporterContent(line[|open|..|line| - |close|]))
    else None
  }

  /** write_cdata_element puts the CDATA marker right after the open tag's
      `>`, so the importer recovers the value verbatim, unescaped. */
  lemma CdataImportsVerbatim(w: Writer, ns: Option<string>, name: string, attrs: Attrs, value: Value)
    ensures var w' := WriteCdataElement(w, ns, name, attrs, value);
            var k := |IndentText(w.indent)| + |OpenTag(ns, name, attrs)|;
            var line := Appended(w, w');
            && k + |CdataOpen| <= |line|
            && line[k - 1] == '>'
            && line[k..k + |CdataOpen|] == CdataOpen
            && ImportCdataLeaf(line, w.indent, ns, name, attrs) == Some(ToS(value))
  {
    var open := IndentText(w.indent) + OpenTag(ns, name, attrs);
    var close := CloseTag(ns, name) + "\n";
    var v := ToS(value);
    var inner := CdataOpen + v + CdataClose;
    CdataLine(w, ns, name, attrs, value);
    Split3(open, inner, close);
    CdataUnwrapped(v);
    OpenTagLast(IndentText(w.indent), ns, name, attrs);
    SliceAfter(open, inner, close, |CdataOpen|);
  }

  /** The importer strips a CDATA section that is all of the content. */
  lemma CdataUnwrapped(v: string)
    ensures ImporterContent(CdataOpen + v + CdataClose) == v
    ensures (CdataOpen + v + CdataClose)[..|CdataOpen|] == CdataOpen
  {
    Split3(CdataOpen, v, CdataClose);
  }

  /** An indented open tag ends with `>`. */
  lemma OpenTagLast(indent: string, ns: Option<string>, name: string, attrs: Attrs)
    ensures var open := indent + OpenTag(ns, name, attrs);
            |open| > 0 && open[|open| - 1] == '>'
  {
  }

  /** Cutting from a concatenation right at the end of its first part. */
  lemma SliceAfter(a: string, b: string, c: string, n: nat)
    requires n <= |b|
    ensures (a + b + c)[|a|..|a| + n] == b[..n]
    ensures |a| > 0 ==> (a + b + c)[|a| - 1] == a[|a| - 1]
  {
  }

  /** The line write_cdata_element appends. */
  lemma CdataLine(w: Writer, ns: Option<string>, name: string, attrs: Attrs, value: Value)
    ensures Appended(w, WriteCdataElement(w, ns, name, attrs, value))
         == (IndentText(w.indent) + OpenTag(ns, name, attrs))
          + (CdataOpen + ToS(value) + CdataClose)
          + (CloseTag(ns, name) + "\n")
  {
    var w' := WriteCdataElement(w, ns, name, attrs, value);
    Regroup(w.out, IndentText(w.indent), OpenTag(ns, name, attrs), CdataOpen, ToS(value), CdataClose, CloseTag(ns, name));
  }

  lemma Regroup(p: string, i: string, t: string, a: string, v: string, b: string, c: string)
    ensures (p + i + t + a + v + b + c + "\n")[|p|..] == (i + t) + (a + v + b) + (c + "\n")
  {
    var tail := (i + t) + (a + v + b) + (c + "\n");
    assert p + i + t + a + v + b + c + "\n" == p + tail;
  }

  /** The three parts of a concatenation can be cut back out of it. */
  lemma Split3(a: string, b: string, c: string)
    ensures var l := a + b + c;
            && l[..|a|] == a
            && l[|a|..|l| - |c|] == b
            && l[|l| - |c|..] == c
  {
  }

  /** With any whitespace before the marker the importer keeps the marker
      as part of the content. */
  lemma IndentedCdataNotImported(ws: string, v: string)
    requires ws != [] && forall i :: 0 <= i < |ws| ==> ws[i] in " \t\r\n"
    ensures ImporterContent(ws + CdataOpen + v + CdataClose) != v
  {
    var inner := ws + CdataOpen + v + CdataClose;
    assert inner[0] == ws[0] && ws[0] != '<';
    assert !StartsWith(inner, CdataOpen);
    assert |inner| > |v|;
  }

  lemma {:induction false} EscapeKeepsNoNewline(s: string)
    requires '\n' !in s
    ensures '\n' !in Escape(s)
  {
    EscapeEachKeepsNoNewline(s);
  }

  lemma {:induction false} EscapeEachKeepsNoNewline(s: string)
    requires '\n' !in s
    ensures '\n' !in EscapeEach(s)
  {
    if s != [] {
      assert s[0] != '\n';
      assert '\n' !in s[1..] by {
        forall k | 0 <= k < |s[1..]| ensures s[1..][k] != '\n' {
          assert s[1..][k] == s[k + 1];
        }
      }
      EscapeEachKeepsNoNewline(s[1..]);
      assert '\n' !in EntityOf(s[0]);
    }
  }

  /** Everything the caller supplies to a tag is free of newlines. */
  predicate TagWithoutNewline(ns: Option<string>, name: string, attrs: Attrs) {
    && (ns.Some? ==> '\n' !in ns.value)
    && '\n' !in name
    && forall i :: 0 <= i < |attrs| ==> '\n' !in attrs[i].0 && '\n' !in ToS(attrs[i].1)
  }

  lemma {:induction false} AttrsWithoutNewline(attrs: Attrs)
    requires forall i :: 0 <= i < |attrs| ==> '\n' !in attrs[i].0 && '\n' !in ToS(attrs[i].1)
    ensures '\n' !in AttrsText(attrs)
  {
    if attrs != [] {
      EscapeValueText(attrs[0].1);
      EscapeKeepsNoNewline(ToS(attrs[0].1));
      AttrsWithoutNewline(attrs[1..]);
    }
  }

  lemma TagsWithoutNewline(ns: Option<string>, name: string, attrs: Attrs)
    requires TagWithoutNewline(ns, name, attrs)
    ensures '\n' !in OpenTag(ns, name, attrs) && '\n' !in CloseTag(ns, name)
  {
    AttrsWithoutNewline(attrs);
  }

  /** The nonewline writers add no newline of their own: given newline-free
      names, attributes and values, the start writer (which indents), the
      unindented leaf writer and the unindented CDATA writer append
      newline-free text. */
  lemma NoNewlineWritersAddNoNewline(w: Writer, ns: Option<string>, name: string, attrs: Attrs, value: Value)
    requires TagWithoutNewline(ns, name, attrs) && '\n' !in ToS(value)
    ensures '\n' !in Appended(w, StartElementNoNewline(w, ns, name, attrs))
    ensures '\n' !in Appended(w, WriteElementNoNewline(w, ns, name, attrs, value))
    ensures '\n' !in Appended(w, WriteCdataElementNoNewline(w, ns, name, attrs, value))
  {
    TagsWithoutNewline(ns, name, attrs);
    EscapeValueText(value);
    EscapeKeepsNoNewline(ToS(value));
    IndentHasNoNewline(w.indent);
    NoNewlineConcat(w, ns, name, attrs, value);
  }

  /** Indentation is spaces only. */
  lemma {:induction false} IndentIsSpaces(indent: int)
    ensures forall i :: 0 <= i < |IndentText(indent)| ==> IndentText(indent)[i] == ' '
    decreases Max0(indent)
  {
    if indent > 0 {
      IndentIsSpaces(indent - 1);
      var r := IndentText(indent);
      forall i | 0 <= i < |r| ensures r[i] == ' ' {
        if i >= 4 {
          assert r[i] == IndentText(indent - 1)[i - 4];
        }
      }
    }
  }

  lemma IndentHasNoNewline(indent: int)
    ensures '\n' !in IndentText(indent)
  {
    IndentIsSpaces(indent);
    var ind := IndentText(indent);
    assert forall k :: 0 <= k < |ind| ==> ind[k] == ' ';
  }

  lemma NoNewlineConcat(w: Writer, ns: Option<string>, name: string, attrs: Attrs, value: Value)
    requires '\n' !in IndentText(w.indent)
    requires '\n' !in OpenTag(ns, name, attrs) && '\n' !in CloseTag(ns, name)
    requires '\n' !in ToS(value) && '\n' !in ToS(EscapeValue(value))
    ensures '\n' !in Appended(w, StartElementNoNewline(w, ns, name, attrs))
    ensures '\n' !in Appended(w, WriteElementNoNewline(w, ns, name, attrs, value))
    ensures '\n' !in Appended(w, WriteCdataElementNoNewline(w, ns, name, attrs, value))
  {
    NoNewlineStart(w, ns, name, attrs);
    NoNewlineLeaf(w, ns, name, attrs, value);
    NoNewlineCdataLeaf(w, ns, name, attrs, value);
  }

  lemma NoNewlineStart(w: Writer, ns: Option<string>, name: string, attrs: Attrs)
    requires '\n' !in IndentText(w.indent) && '\n' !in OpenTag(ns, name, attrs)
    ensures '\n' !in Appended(w, StartElementNoNewline(w, ns, name, attrs))
  {
    StartTagText(w, ns, name, attrs);
    NoNewlinePair(IndentText(w.indent), OpenTag(ns, name, attrs));
  }

  lemma NoNewlinePair(a: string, b: string)
    requires '\n' !in a && '\n' !in b
    ensures '\n' !in a + b
  {
  }

  lemma NoNewlineLeaf(w: Writer, ns: Option<string>, name: string, attrs: Attrs, value: Value)
    requires '\n' !in OpenTag(ns, name, attrs) && '\n' !in CloseTag(ns, name)
    requires '\n' !in ToS(EscapeValue(value))
    ensures '\n' !in Appended(w, WriteElementNoNewline(w, ns, name, attrs, value))
  {
    var open := OpenTag(ns, name, attrs);
    var close := CloseTag(ns, name);
    LeafText(w, ns, name, attrs, value);
    NoNewlineParts(open, ToS(EscapeValue(value)), close, [], []);
    assert open + ToS(EscapeValue(value)) + close + [] + [] == open + ToS(EscapeValue(value)) + close;
  }

  lemma NoNewlineCdataLeaf(w: Writer, ns: Option<string>, name: string, attrs: Attrs, value: Value)
    requires '\n' !in OpenTag(ns, name, attrs) && '\n' !in CloseTag(ns, name)
    requires '\n' !in ToS(value)
    ensures '\n' !in Appended(w, WriteCdataElementNoNewline(w, ns, name, attrs, value))
  {
    CdataLeafText(w, ns, name, attrs, value);
    assert '\n' !in CdataOpen && '\n' !in CdataClose;
    NoNewlineParts(OpenTag(ns, name, attrs), CdataOpen, ToS(value), CdataClose, CloseTag(ns, name));
  }

  lemma NoNewlineParts(a: string, b: string, c: string, d: string, e: string)
    requires '\n' !in a && '\n' !in b && '\n' !in c && '\n' !in d && '\n' !in e
    ensures '\n' !in a + b + c + d + e
  {
  }

  lemma StartTagText(w: Writer, ns: Option<string>, name: string, attrs: Attrs)
    ensures Appended(w, StartElementNoNewline(w, ns, name, attrs)) == IndentText(w.indent) + OpenTag(ns, name, attrs)
  {
    DropPrefix(w.out, [IndentText(w.indent), OpenTag(ns, name, attrs)]);
  }

  lemma LeafText(w: Writer, ns: Option<string>, name: string, attrs: Attrs, value: Value)
    ensures Appended(w, WriteElementNoNewline(w, ns, name, attrs, value))
         == OpenTag(ns, name, attrs) + ToS(EscapeValue(value)) + CloseTag(ns, name)
  {
    DropPrefix(w.out, [OpenTag(ns, name, attrs), ToS(EscapeValue(value)), CloseTag(ns, name)]);
  }

  lemma CdataLeafText(w: Writer, ns: Option<string>, name: string, attrs: Attrs, value: Value)
    ensures Appended(w, WriteCdataElementNoNewline(w, ns, name, attrs, value))
         == OpenTag(ns, name, attrs) + CdataOpen + ToS(value) + CdataClose + CloseTag(ns, name)
  {
    DropPrefix(w.out, [OpenTag(ns, name, attrs), CdataOpen, ToS(value), CdataClose, CloseTag(ns, name)]);
  }

  /** Concatenation of parts from the left, as the writers build their text. */
  function Join(acc: string, parts: seq<string>): string
    decreases |parts|
  {
    if parts == [] then acc else Join(acc + parts[0], parts[1..])
  }

  lemma {:induction false} DropPrefix(p: string, parts: seq<string>)
    ensures Join(p, parts) == p + Join([], parts)
    ensures Join(p, parts)[|p|..] == Join([], parts)
    decreases |parts|
  {
    if parts != [] {
      DropPrefix(p + parts[0], parts[1..]);
      DropPrefix(parts[0], parts[1..]);
      assert [] + parts[0] == parts[0];
    }
  }
}

=== FILE: xml_escape.dfy ===
/** XmlEscape.escape: the five predefined entities of section 4.6 of the
    XML 1.0 recommendation, substituted one pass per character, ampersand
    first. */
module XmlEscape {
  import opened Common

  /** A Ruby value as it reaches the escaper or an output stream: a String,
      an Integer, or nil. */
  datatype Value = Str(s: string) | Int(i: int) | Nil

  /** The text an output stream writes for a value (IO#<< calls to_s). */
  function ToS(v: Value): string {
    match v
    case Str(s) => s
    case Int(i) => IntToString(i)
    case Nil => ""
  }

  predicate IsMarkupChar(c: char) {
    c == '<' || c == '>' || c == '\'' || c == '"'
  }

  /** Characters that the escape rewrites. */
  predicate IsSpecial(c: char) {
    c == '&' || IsMarkupChar(c)
  }

  /** The entity that stands for one character; other characters stand for themselves. */
  function EntityOf(c: char): string {
    if c == '&' then "&amp;"
    else if c == '<' then "&lt;"
    else if c == '>' then "&gt;"
    else if c == '\'' then "&apos;"
    else if c == '"' then "&quot;"
    else [c]
  }

  /** Reference definition: each character replaced by its entity, independently. */
  function EscapeEach(s: string): string {
    if s == [] then [] else EntityOf(s[0]) + EscapeEach(s[1..])
  }

  /** XmlEscape.escape on a String: five successive gsub passes, ampersand
      first. The result is the character-by-character entity substitution. */
  function Escape(s: string): (r: string)
    ensures r == EscapeEach(s)
  {
    EscapeIsCharwise(s);
    FivePasses(s)
  }

  /** XmlEscape.escape on any value: only Strings are rewritten. */
  function EscapeValue(v: Value): (r: Value)
    ensures !v.Str? ==> r == v
    ensures v.Str? ==> r.Str? && r.s == EscapeEach(v.s)
  {
    if v.Str? then Str(Escape(v.s)) else v
  }

  /** The five gsub passes of xml_escape.rb, in the source's order. */
  function FivePasses(s: string): string {
    var amp := ReplaceChar(s, '&', "&amp;");
    var lt := ReplaceChar(amp, '<', "&lt;");
    var gt := ReplaceChar(lt, '>', "&gt;");
    var apos := ReplaceChar(gt, '\'', "&apos;");
    ReplaceChar(apos, '"', "&quot;")
  }

  lemma PassesConcat(a: string, b: string)
    ensures FivePasses(a + b) == FivePasses(a) + FivePasses(b)
  {
    ReplaceCharConcat(a, b, '&', "&amp;");
    var a1, b1 := ReplaceChar(a, '&', "&amp;"), ReplaceChar(b, '&', "&amp;");
    ReplaceCharConcat(a1, b1, '<', "&lt;");
    var a2, b2 := ReplaceChar(a1, '<', "&lt;"), ReplaceChar(b1, '<', "&lt;");
    ReplaceCharConcat(a2, b2, '>', "&gt;");
    var a3, b3 := ReplaceChar(a2, '>', "&gt;"), ReplaceChar(b2, '>', "&gt;");
    ReplaceCharConcat(a3, b3, '\'', "&apos;");
    var a4, b4 := ReplaceChar(a3, '\'', "&apos;"), ReplaceChar(b3, '\'', "&apos;");
    ReplaceCharConcat(a4, b4, '"', "&quot;");
  }

  /** On a single character the five passes produce its entity: no entity
      text contains a character that a later pass rewrites. */
  lemma PassesSingle(c: char)
    ensures FivePasses([c]) == EntityOf(c)
  {
    var amp := ReplaceChar([c], '&', "&amp;");
    assert amp == (if c == '&' then "&amp;" else [c]) + ReplaceChar([c][1..], '&', "&amp;");
    assert amp == (if c == '&' then "&amp;" else [c]);
    if c == '&' {
      assert '<' !in amp && '>' !in amp && '\'' !in amp && '"' !in amp;
    } else {
      var lt := ReplaceChar(amp, '<', "&lt;");
      assert lt == (if c == '<' then "&lt;" else [c]) + ReplaceChar([c][1..], '<', "&lt;");
      assert lt == (if c == '<' then "&lt;" else [c]);
      if c == '<' {
        assert '>' !in lt && '\'' !in lt && '"' !in lt;
      } else {
        var gt := ReplaceChar(lt, '>', "&gt;");
        assert gt == (if c == '>' then "&gt;" else [c]) + ReplaceChar([c][1..], '>', "&gt;");
        assert gt == (if c == '>' then "&gt;" else [c]);
        if c == '>' {
          assert '\'' !in gt && '"' !in gt;
        } else {
          var apos := ReplaceChar(gt, '\'', "&apos;");
          assert apos == (if c == '\'' then "&apos;" else [c]) + ReplaceChar([c][1..], '\'', "&apos;");
          assert apos == (if c == '\'' then "&apos;" else [c]);
          if c == '\'' {
            assert '"' !in apos;
          } else {
            var quot := ReplaceChar(apos, '"', "&quot;");
            assert quot == (if c == '"' then "&quot;" else [c]) + ReplaceChar([c][1..], '"', "&quot;");
          }
        }
      }
    }
  }

  lemma {:induction false} EscapeIsCharwise(s: string)
    ensures FivePasses(s) == EscapeEach(s)
  {
    if s != [] {
      assert s == [s[0]] + s[1..];
      PassesConcat([s[0]], s[1..]);
      PassesSingle(s[0]);
      EscapeIsCharwise(s[1..]);
    }
  }

  /** The escaped text holds none of `<`, `>`, `'` and `"`. */
  lemma {:induction false} EscapeRemovesMarkup(s: string)
    ensures forall i :: 0 <= i < |Escape(s)| ==> !IsMarkupChar(Escape(s)[i])
  {
    EscapeEachRemovesMarkup(s);
  }

  lemma {:induction false} EscapeEachRemovesMarkup(s: string)
    ensures forall i :: 0 <= i < |EscapeEach(s)| ==> !IsMarkupChar(EscapeEach(s)[i])
  {
    if s != [] {
      EscapeEachRemovesMarkup(s[1..]);
      var e, rest := EntityOf(s[0]), EscapeEach(s[1..]);
      assert EscapeEach(s) == e + rest;
      forall i | 0 <= i < |e + rest| ensures !IsMarkupChar((e + rest)[i]) {
        if i >= |e| {
          assert (e + rest)[i] == rest[i - |e|];
        }
      }
    }
  }

  /** Text that begins with one of the five entities. */
  predicate StartsWithEntity(t: string) {
    StartsWith(t, "&amp;") || StartsWith(t, "&lt;") || StartsWith(t, "&gt;")
    || StartsWith(t, "&apos;") || StartsWith(t, "&quot;")
  }

  /** Every `&` in the escaped text begins an entity: no ampersand of the
      input survives bare and no entity is escaped a second time. */
  lemma {:induction false} EscapeAmpersandsStartEntities(s: string)
    ensures forall i :: 0 <= i < |Escape(s)| && Escape(s)[i] == '&' ==> StartsWithEntity(Escape(s)[i..])
  {
    EscapeEachAmpersands(s);
  }

  lemma {:induction false} EscapeEachAmpersands(s: string)
    ensures forall i :: 0 <= i < |EscapeEach(s)| && EscapeEach(s)[i] == '&' ==> StartsWithEntity(EscapeEach(s)[i..])
  {
    if s != [] {
      EscapeEachAmpersands(s[1..]);
      var e, rest := EntityOf(s[0]), EscapeEach(s[1..]);
      var r := e + rest;
      assert EscapeEach(s) == r;
      forall i | 0 <= i < |r| && r[i] == '&' ensures StartsWithEntity(r[i..]) {
        if i >= |e| {
          assert r[i..] == rest[i - |e|..];
        } else {
          assert i == 0 && IsSpecial(s[0]);
          assert r[..|e|] == e;
        }
      }
    }
  }

  /** Output length: |s| plus four per `&`, three per `<` and `>`, five
      per `'` and `"`. */
  lemma {:induction false} EscapeLength(s: string)
    ensures |Escape(s)| == |s| + 4 * Count(s, '&') + 3 * Count(s, '<') + 3 * Count(s, '>')
                           + 5 * Count(s, '\'') + 5 * Count(s, '"')
  {
    EscapeEachLength(s);
  }

  lemma {:induction false} EscapeEachLength(s: string)
    ensures |EscapeEach(s)| == |s| + 4 * Count(s, '&') + 3 * Count(s, '<') + 3 * Count(s, '>')
                               + 5 * Count(s, '\'') + 5 * Count(s, '"')
  {
    if s != [] {
      EscapeEachLength(s[1..]);
    }
  }

  /** Decoding the five entities, left to right; any other character is kept. */
  function Unescape(t: string): string
    decreases |t|
  {
    if t == [] then []
    else if StartsWith(t, "&amp;") then "&" + Unescape(t[5..])
    else if StartsWith(t, "&lt;") then "<" + Unescape(t[4..])
    else if StartsWith(t, "&gt;") then ">" + Unescape(t[4..])
    else if StartsWith(t, "&apos;") then "'" + Unescape(t[6..])
    else if StartsWith(t, "&quot;") then "\"" + Unescape(t[6..])
    else [t[0]] + Unescape(t[1..])
  }

  /** Decoding the entities recovers the input, so the escape loses nothing. */
  lemma {:induction false} UnescapeEscape(s: string)
    ensures Unescape(Escape(s)) == s
  {
    UnescapeEscapeEach(s);
  }

  lemma {:induction false} UnescapeEscapeEach(s: string)
    ensures Unescape(EscapeEach(s)) == s
  {
    if s != [] {
      UnescapeEscapeEach(s[1..]);
      assert EscapeEach(s) == EntityOf(s[0]) + EscapeEach(s[1..]);
      UnescapeEntity(s[0], EscapeEach(s[1..]));
      assert s == [s[0]] + s[1..];
    }
  }

  /** Decoding reads an entity back as the one character it stands for. */
  lemma UnescapeEntity(c: char, rest: string)
    ensures Unescape(EntityOf(c) + rest) == [c] + Unescape(rest)
  {
    if c == '&' {
      UnescapeOne("&amp;", '&', rest);
    } else if c == '<' {
      UnescapeOne("&lt;", '<', rest);
    } else if c == '>' {
      UnescapeOne("&gt;", '>', rest);
    } else if c == '\'' {
      UnescapeOne("&apos;", '\'', rest);
    } else if c == '"' {
      UnescapeOne("&quot;", '"', rest);
    } else {
      var t := [c] + rest;
      assert t[0] == c && t[1..] == rest;
      assert !StartsWith(t, "&amp;") && !StartsWith(t, "&lt;") && !StartsWith(t, "&gt;");
      assert !StartsWith(t, "&apos;") && !StartsWith(t, "&quot;");
    }
  }

  lemma UnescapeOne(e: string, c: char, rest: string)
    requires e == EntityOf(c) && IsSpecial(c)
    ensures Unescape(e + rest) == [c] + Unescape(rest)
  {
    var t := e + rest;
    assert t[..|e|] == e;
    assert t[|e|..] == rest;
    assert t[1] == e[1] && t[2] == e[2];
  }

  /** Distinct strings have distinct escapes. */
  lemma EscapeInjective(s1: string, s2: string)
    requires Escape(s1) == Escape(s2)
    ensures s1 == s2
  {
    UnescapeEscape(s1);
    UnescapeEscape(s2);
  }

  /** Text without special characters is left as it is. */
  lemma {:induction false} EscapePlainText(s: string)
    requires forall i :: 0 <= i < |s| ==> !IsSpecial(s[i])
    ensures Escape(s) == s
  {
    if s != [] {
      EscapePlainText(s[1..]);
      assert s == [s[0]] + s[1..];
    }
  }

  /** Writing the escaped value gives the escaped text of the value: a
      non-String is returned unchanged, and its text (digits, a sign, or
      nothing) holds no special character. */
  lemma EscapeValueText(v: Value)
    ensures ToS(EscapeValue(v)) == Escape(ToS(v))
  {
    if v.Int? {
      EscapePlainText(IntToString(v.i));
    } else if v.Nil? {
      EscapePlainText("");
    }
  }

  /** The same passes with the ampersand pass moved last. */
  function EscapeAmpersandLast(s: string): string {
    var lt := ReplaceChar(s, '<', "&lt;");
    var gt := ReplaceChar(lt, '>', "&gt;");
    var apos := ReplaceChar(gt, '\'', "&apos;");
    var quot := ReplaceChar(apos, '"', "&quot;");
    ReplaceChar(quot, '&', "&amp;")
  }

  /** Why the ampersand goes first: run last, it re-escapes the entities
      the other passes produced, so `<` would come out as `&amp;lt;`. */
  lemma AmpersandOrderMatters()
    ensures Escape("<") == "&lt;"
    ensures EscapeAmpersandLast("<") == "&amp;lt;"
  {
    assert EscapeEach("<") == EntityOf('<') + EscapeEach("");
    AmpersandLastOnLt();
  }

  lemma AmpersandLastOnLt()
    ensures EscapeAmpersandLast("<") == "&amp;lt;"
  {
    var lt := ReplaceChar("<", '<', "&lt;");
    assert lt == "&lt;" + ReplaceChar("", '<', "&lt;");
    assert lt == "&lt;";
    assert '>' !in lt && '\'' !in lt && '"' !in lt;
    AmpersandPassOnLt();
  }

  lemma AmpersandPassOnLt()
    ensures ReplaceChar("&lt;", '&', "&amp;") == "&amp;lt;"
  {
    assert "&lt;" == "&" + "lt;";
    ReplaceCharConcat("&", "lt;", '&', "&amp;");
    assert ReplaceChar("&", '&', "&amp;") == "&amp;" + ReplaceChar("", '&', "&amp;");
    assert '&' !in "lt;";
  }
}
